=== FILE: README.md ===
# chaser-http-route in Dafny

A model of the core of `chaser-http-route`, a small PHP router. Routes are declared through
builders (`Tap`), either directly (`Route::get`, `Route::many`, …) or as actions of a controller
group (`Controller`, `Resource`, `Map`). A builder compiles its full rule into a PCRE pattern and
installs a `Route` into a static registry keyed by domain, method and rule. `Route::search`
then answers a request: it trims the path, tries the four (domain, method) slots from the most
to the least specific, and takes the first route of a slot whose pattern matches.

The model is purely functional. The static registry becomes a value (`Routes.Table`, an ordered
association list of domain → method → rule → route) that each operation takes and returns.
Builders and controllers are immutable records, so each fluent setter returns a new record.
PHP arrays are ordered association lists (`OrderedMaps.Assoc`): assigning an existing key updates
it in place, and assigning a new key appends it. Arrays that mix integer and string keys, such as
middleware lists, live in `PhpArrays`, which also holds a faithful `array_merge` (integer keys are
renumbered, and later string keys win).

Patterns are token sequences (`Patterns.PTok`): a character of the PCRE source text, or a named
group already inserted by `replace`. A placeholder's constraint is one of three fragments:

- `\w+`, the default that `replace` writes;
- `[1-9]\d*`, the `id` constraint that resources write;
- `\d+`, one more fragment a caller may pass in `where`.

`Matching` gives those patterns a meaning:

- `MatchFrom` is a backtracking matcher that follows PCRE's greedy order.
- `Parses` is an independent, declarative reading of the pattern.
- The two are proved equivalent.

`RuleSyntax` then proves the compiler correct. For every well-formed rule (plain characters and
`{name}` / `{name?}` placeholders), the rewriting in `makePattern` yields exactly the pattern that
a direct translation of the rule (`Reference`) prescribes, and it records the right delimiter for
each optional placeholder.

Modules, one per source concept:

- `php_strings.dfy`: `Wrappers`, and `PhpStrings` (trim, explode/join, case mapping, `array_filter` on strings).
- `ordered_maps.dfy`: `OrderedMaps`, and `PhpArrays` (`array_merge`).
- `patterns.dfy`: `Patterns` (`quite`, `str_replace`, `replace`, `makePattern`).
- `matching.dfy`: `Matching` (what a compiled pattern accepts).
- `rule_syntax.dfy`: `RuleSyntax` (correctness of `makePattern`).
- `routes.dfy`: `Routes` (`Route`, the registry, `add`, `addBatch`, `gain`, `search`).
- `route_defs.dfy`: `RouteDefs` (`Route::get` … `Route::many`).
- `taps.dfy`: `Taps` (`Tap`).
- `maps.dfy`: `Maps` (`Map`).
- `controllers.dfy`: `Controllers` (`Controller`).
- `resources.dfy`: `Resources` (`Resource`).
- `scenarios.dfy`: `Scenarios` (concrete routes worked through end to end).

Two places where the code does something one might not expect, which the model follows:

- `addBatch` registers a route only under method `*` and domain `*`. It never registers it under
  the builder's own methods or domains, and it does not register a builder with no methods at all.
- `completeRule` joins the suffix with `/` like any other segment. With the group suffix `.json`,
  `edit` becomes `users/{id}/edit/.json`, not `users/{id}/edit.json`.

## Model

| member | source | states |
|---|---|---|
| PhpStrings.Trim | src/Route.php:65 | the result has no border `c`, and the input is the result with runs of `c` added on both sides |
| PhpStrings.TrimLeft | src/Route.php:343 | `ltrim` with one character: the result does not start with `c`, and the input is the result preceded by a run of `c` |
| PhpStrings.Explode | src/Tap.php:134 | the pieces hold no separator, there is at least one, and joining them with the separator gives back the input |
| PhpStrings.ExplodeJoin | src/Tap.php:134 | exploding the join of separator-free pieces gives back the pieces |
| PhpStrings.StrToUpper | src/Route.php:176 | same length, and each character is mapped by the ASCII upper-case map |
| PhpStrings.Lcfirst | src/Controller.php:88 | only the first character is lower-cased; the rest is unchanged |
| PhpStrings.Truthy | src/Tap.php:169 | `array_filter` on strings; its own contract only bounds the length, and `PhpStrings.TruthyMembers` and `PhpStrings.TruthyAppend` state which segments it keeps and in what order |
| PhpStrings.TruthyMembers | src/Tap.php:169 | `array_filter` keeps exactly the segments that are not `""` or `"0"` |
| PhpStrings.TruthyAppend | src/Tap.php:169 | filtering distributes over concatenation, so order is kept |
| PhpStrings.Join | src/Tap.php:170 | `join` with one character; no contract of its own: `PhpStrings.JoinSnoc` gives its step, and `PhpStrings.Explode` and `PhpStrings.ExplodeJoin` make it the inverse of `explode` on separator-free pieces |
| PhpStrings.JoinSnoc | src/Tap.php:170 | joining with one more segment appends the separator and that segment |
| PhpStrings.IsIntegerKey | src/Route.php:302-303 | PHP's cast of a string array key to an integer: a canonical decimal in the 64-bit range, or its negative other than `-0`; no contract of its own: `Scenarios.IntegerKeyExamples` pins it on `"1"`, `"-7"`, `"01"` and `"-0"`, and `PhpStrings.IntegerKeyNumeric` shows every such key is numeric |
| PhpStrings.IsNumeric | src/Tap.php:129 | no contract of its own: PHP 8's numeric-string rule for `is_numeric`, with whitespace around an optionally signed decimal that has an optional fraction and exponent; the lemmas below pin it down |
| PhpStrings.DigitsNumeric | src/Tap.php:129 | any non-empty run of digits is numeric, so a key such as `"01"` that PHP keeps as a string still counts as positional |
| PhpStrings.IntegerKeyNumeric | src/Tap.php:129 | every string that PHP turns into an integer key is numeric as well |
| PhpStrings.NumericExamples | src/Tap.php:129 | `"01"`, `"1.5"`, `".5"` and `"-2."` are numeric |
| PhpStrings.NumericSpaceExamples | src/Tap.php:129 | whitespace before or after the number is allowed: `" 1"` and `"1 "` are numeric |
| PhpStrings.NumericExponentExamples | src/Tap.php:129 | `"1e3"` and `"+1E-2"` are numeric |
| PhpStrings.NotNumericExamples | src/Tap.php:129 | `"auth"`, `"1x"`, `"."` and `"e3"` are not numeric |
| PhpStrings.NotNumericShapes | src/Tap.php:129 | hexadecimal `"0x1A"`, `""`, `" "` and `"1 2"` are not numeric |
| OrderedMaps.Put | src/Route.php:188 | after the assignment the key holds the value, every other key is unchanged, an existing key keeps its place and a new key goes last |
| OrderedMaps.PutAll | src/Tap.php:76-82 | assigning each entry in turn gives later entries priority and keeps every old key in its place |
| OrderedMaps.PutAllAppends | src/Tap.php:78-80 | entries with fresh keys are simply appended in order |
| OrderedMaps.PutAllIntoEmpty | src/Tap.php:78-80 | copying an array without duplicate keys into an empty one gives the same array |
| OrderedMaps.PutFirstMention | src/Tap.php:136 | one more assignment keeps the keys as the old keys followed by the new names in the order they were first assigned |
| OrderedMaps.PutAllKeys | src/Tap.php:78-80 | the old keys stay in place and `b`'s new keys follow in the order `b` first mentions them |
| PhpArrays.ArrayMerge | src/Controller.php:118 | integer-keyed values are renumbered 0, 1, … in order (the first array's, then the second's), and for a string key the second array wins; the key order is stated by `PhpArrays.ArrayMergeLayout` |
| PhpArrays.ArrayMergeLayout | src/Controller.php:118 | the merged keys are the first array's keys in order, followed by the second array's integer-keyed entries and string keys the first lacks, in order, with integer keys renumbered |
| PhpArrays.MergeAllLayout | src/Controller.php:118 | merging an array into an accumulator keeps the accumulator's key order and appends the entries `Appended` selects |
| PhpArrays.MergeAllShape | src/Controller.php:118 | merging keeps every positional value in order and renumbers them |
| PhpArrays.ArrayMergeNames | src/Controller.php:120 | for string keys, merging means the action's value overrides the group's |
| Patterns.Quite | src/Route.php:89-92 | no contract of its own; what it does is stated by `Patterns.QuiteRoundTrip`, `Patterns.QuiteLength` and `Matching.AtomsOfQuite` |
| Patterns.ReplaceAll | src/Route.php:322-330 | no contract of its own; `Patterns.ReplaceAllRoundTrip`, `Patterns.ReplaceAllRemovesAll` and `Patterns.ReplaceAllAbsent` state what `str_replace` does |
| Patterns.Replace | src/Route.php:319-332 | no contract of its own; `Patterns.ReplaceEffect` and `RuleSyntax.ReplaceState` state what it does |
| Patterns.ApplyWhere | src/Route.php:302-304 | no contract of its own; `RuleSyntax.ApplyWhereState` states what it does |
| Patterns.ApplyDefaults | src/Route.php:306-308 | no contract of its own; `RuleSyntax.ApplyDefaultsState` states what it does |
| Patterns.MakePattern | src/Route.php:298-311 | no contract of its own; `RuleSyntax.MakePatternState` and `RuleSyntax.MakePatternMeaning` state what it compiles |
| Patterns.QuiteRoundTrip | src/Route.php:89-92 | removing the backslashes `quite` inserted gives back the rule (rules carry no backslash) |
| Patterns.QuiteLength | src/Route.php:89-92 | `quite` adds exactly one character per `/` or `-` |
| Patterns.QuiteIdentity | src/Route.php:89-92 | a rule without `/` or `-` is its own pattern text |
| Patterns.QuiteAppend | src/Route.php:89-92 | escaping distributes over concatenation |
| Patterns.ReplaceAllRoundTrip | src/Route.php:322 | `str_replace` loses nothing: expanding the inserted group back into the needle restores the pattern |
| Patterns.ReplaceAllRemovesAll | src/Route.php:330 | after `str_replace` no occurrence of the needle is left |
| Patterns.ReplaceAllAbsent | src/Route.php:330 | replacing a needle that does not occur changes nothing |
| Patterns.PrefixThroughReplace | src/Route.php:328 | a prefix of the replaced pattern with no inserted group is a prefix of the original |
| Patterns.ReplaceEffect | src/Route.php:319-332 | the placeholder shape chosen first (`\/{n?}`, `\-{n?}`, `{n?}`, `{n}`) no longer occurs, and only the two delimited shapes record `/` or `-` as the name's prefix |
| Patterns.WordRun | src/Route.php:306 | the longest run of word characters at the head of the pattern |
| Patterns.ScanAt | src/Route.php:306 | a placeholder found by `{(\w+)\??}` has a word name and spans at least three characters |
| Patterns.Scan | src/Route.php:306-307 | every leftover placeholder name found is a word |
| Matching.Atoms | src/Route.php:237 | how PCRE reads the compiled pattern text: an escaped character is a literal, `.` any character, a group token a group; no contract of its own: `Matching.AtomsOfQuite` and `RuleSyntax.AtomsRender` state what the router's patterns read as |
| Matching.Compiles | src/Route.php:237 | the condition under which `preg_match` accepts the pattern (valid, distinct group names); no contract of its own: `Routes.Match` ensures a match only from a compiling pattern, and `RuleSyntax.ReferenceCompiles` and `RuleSyntax.MakePatternMeaning` show well-formed rules compile |
| Matching.AtomsOfQuite | src/Route.php:300 | the escaped text of a backslash-free rule reads back as the rule's own characters |
| Matching.WordLenSpec | src/Route.php:319 | a run of length k is accepted by `\w+` exactly when it is made of word characters |
| Matching.DigitLenSpec | src/Resource.php:49 | a run of length k is accepted by `\d` repetition exactly when it is made of digits |
| Matching.MaxLenSpec | src/Route.php:319-331 | a fragment accepts a non-empty prefix exactly when it is no longer than the fragment's longest run |
| Matching.MatchFrom | src/Route.php:237 | no contract of its own; `Matching.MatchFromSound`, `Matching.MatchFromComplete` and `Matching.MatchFromGreedy` state what it returns |
| Matching.Parses | src/Route.php:237 | the declarative reading of a pattern, and the partner of `MatchFrom`; no contract of its own |
| Matching.MatchFromSound | src/Route.php:237 | every capture list the backtracking matcher returns is a parse of the path |
| Matching.MatchFromComplete | src/Route.php:237 | whenever a parse exists, the matcher finds one |
| Matching.TryLengthsSound | src/Route.php:237 | a greedy group takes the longest length between 1 and the bound that lets the rest of the pattern match, and the rest parses what follows |
| Matching.TryLengthsNone | src/Route.php:237 | the greedy search fails only when no length up to the bound lets the rest match |
| Matching.MatchFromGreedy | src/Route.php:237 | a leading group captures an accepted value after which the rest matches, and no longer accepted value would let the rest match; an optional group is skipped only when no non-empty value works |
| Matching.TryLengthsComplete | src/Route.php:237 | if any length up to the bound lets the rest match, the greedy search succeeds |
| Matching.GroupComplete | src/Route.php:237 | a group value its form accepts, followed by a matching rest, makes the whole pattern match |
| Matching.DelimitedComplete | src/Route.php:322 | a delimited optional group accepts the delimiter followed by a fragment value |
| Matching.ParsesNames | src/Route.php:239-242 | a parse captures the pattern's named groups, in pattern order |
| RuleSyntax.HeadMatch | src/Route.php:321-327 | a placeholder's needle starts the rendered rule exactly when the rule starts with that placeholder in that shape |
| RuleSyntax.ContainsRender | src/Route.php:321-327 | `str_contains` finds a needle shape exactly when the rule has that placeholder in a shape that covers it |
| RuleSyntax.ChosenShapeRender | src/Route.php:321-331 | `replace` picks the shape the placeholder has in the rule |
| RuleSyntax.ReplaceRender | src/Route.php:322-330 | replacing a placeholder's needle equals binding that name in the rule's rendering |
| RuleSyntax.ReplaceState | src/Route.php:319-332 | one `replace` call turns the rendering for the bound names into the rendering with one more name bound, delimiters included |
| RuleSyntax.ApplyWhereState | src/Route.php:302-304 | walking the `where` array binds every constrained name to its fragment |
| RuleSyntax.ScanRender | src/Route.php:306 | the leftover scan finds exactly the unbound placeholders, in rule order |
| RuleSyntax.ApplyDefaultsState | src/Route.php:306-308 | the leftover names are bound to `\w+` |
| RuleSyntax.RenderEmpty | src/Route.php:300 | the escaped rule is the rendering with nothing bound and no delimiters |
| RuleSyntax.BindingSpec | src/Route.php:302-308 | every placeholder ends up bound to its `where` fragment, or to `\w+` when none is given |
| RuleSyntax.MakePatternState | src/Route.php:298-311 | `makePattern` yields the rendering with every placeholder bound and the delimiters recorded |
| RuleSyntax.AtomsRender | src/Route.php:310 | a fully bound rendering reads as the rule's reference pattern |
| RuleSyntax.GroupNamesReference | src/Route.php:239-242 | the reference pattern's groups are the rule's placeholders, in order |
| RuleSyntax.ReferenceCompiles | src/Route.php:237 | the reference pattern of a well-formed rule has valid, distinct group names |
| RuleSyntax.MakePatternMeaning | src/Route.php:298-332 | the compiled pattern of a well-formed rule is its reference pattern with the `where` bindings, it compiles, and the recorded prefixes are exactly the delimiters of the optional placeholders |
| Routes.NewRoute | src/Route.php:224-227 | a route keeps its rule and point |
| Routes.Value | src/Route.php:341-344 | a name with a recorded prefix loses all leading copies of it, and any other value is returned unchanged |
| Routes.Values | src/Route.php:239-243 | one argument per named capture, in order, each post-processed by `value` |
| Routes.Match | src/Route.php:235-248 | a successful match comes from a compiling pattern and returns one argument per named group, in order |
| Routes.MatchSound | src/Route.php:237-244 | a match is a parse of the path with its values post-processed |
| Routes.MatchComplete | src/Route.php:237 | a compiling pattern that parses the path yields a match |
| Routes.MatchRule | src/Route.php:235-248 | a route built from a well-formed rule matches a path exactly when the rule's reference pattern parses it |
| Routes.DelimitedValue | src/Route.php:343 | the value of a delimited optional group is the captured text without its delimiter |
| Routes.Clear | src/Route.php:50-53 | the cleared registry holds no route |
| Routes.Add | src/Route.php:186-189 | the route is stored under its domain, method and rule, nothing else changes, and a new rule goes last in its slot |
| Routes.AddBatch | src/Route.php:198-213 | no contract of its own; `Routes.AddBatchEffect` and `Routes.AddBatchWildcard` state what it adds |
| Routes.Gain | src/Route.php:278-291 | no contract of its own; `Routes.GainSlot` and `Routes.FirstMatch` state what it finds |
| Routes.WithWildcard | src/Route.php:67-68 | the candidate list `[$x, '*']`, or `['*']` for `*`; no contract of its own: `Routes.SearchOrder` and `Routes.SearchNone` state the search over these lists |
| Routes.Search | src/Route.php:63-81 | no contract of its own; `Routes.SearchOrder` and `Routes.SearchNone` state what it finds |
| Routes.AddBatchEffect | src/Route.php:198-213 | with a method list the route is added once, under `*`/`*`, whatever the lists hold, and without one nothing is added |
| Routes.AddBatchWildcard | src/Route.php:198-213 | a registry filled only by `addBatch` has routes under `*`/`*` only |
| Routes.FirstMatch | src/Route.php:282-287 | the first route of the slot, in insertion order, that matches the path wins, and none is found only when none matches |
| Routes.GainSlot | src/Route.php:278-291 | `gain` searches exactly the slot of the given domain and method |
| Routes.SearchOrder | src/Route.php:63-81 | for every method and domain, the defaults `*` included, the trimmed path is tried on (domain, method), (domain, `*`), (`*`, method) and (`*`, `*`) in that order, and the first hit wins; where the method or domain is `*` the coinciding slots are tried once |
| Routes.SearchFour | src/Route.php:67-78 | the nested loops visit the four slots domain-major |
| Routes.SearchTwo | src/Route.php:72-77 | within one domain the given method is tried before `*` |
| Routes.SearchNone | src/Route.php:63-81 | the search finds nothing exactly when no candidate slot has a matching route |
| Routes.SearchMethodsNone | src/Route.php:72-77 | the method loop finds nothing exactly when no method's slot matches |
| Routes.SearchDomainsNone | src/Route.php:71-78 | the domain loop finds nothing exactly when no (domain, method) slot matches |
| Routes.SearchExact | src/Route.php:74-75 | a hit in the exact slot ends the search |
| Routes.SearchTrims | src/Route.php:65 | border slashes of the path make no difference |
| Routes.SearchWildcardOnly | src/Route.php:63-81 | on a registry filled by `addBatch`, any request is answered from the `*`/`*` slot |
| RouteDefs.Upper | src/Route.php:176 | `array_map('strtoupper', …)`: same length, and each method is upper-cased by `PhpStrings.StrToUpper` |
| RouteDefs.Many | src/Route.php:174-177 | the builder's methods are the given methods upper-cased one by one, on a fresh builder of the rule |
| RouteDefs.ManyStable | src/Route.php:176 | declaring again with the upper-cased methods and the same rule gives the same builder |
| RouteDefs.Get | src/Route.php:101-104 | `get` is `many(['get'])` and its only method is `GET` |
| RouteDefs.Post | src/Route.php:113-116 | `post` is `many(['post'])` and its only method is `POST` |
| RouteDefs.Put | src/Route.php:125-128 | `put` is `many(['put'])` and its only method is `PUT` |
| RouteDefs.Patch | src/Route.php:137-140 | `patch` is `many(['patch'])` and its only method is `PATCH` |
| RouteDefs.Delete | src/Route.php:149-152 | `delete` is `many(['delete'])` and its only method is `DELETE` |
| RouteDefs.Any | src/Route.php:161-164 | `any` is `many(['*'])` and its only method is `*` |
| Taps.NewTap | src/Tap.php:65-68 | the rule is stored without border slashes, and every collection starts empty |
| Taps.NewTapStable | src/Tap.php:67 | building from an already trimmed rule gives the same builder |
| Taps.Where | src/Tap.php:76-82 | later constraints override earlier ones per name, old names keep their place, and nothing else changes |
| Taps.Prefix | src/Tap.php:90-94 | the trimmed prefix is appended after the earlier prefixes, and nothing else changes |
| Taps.Suffix | src/Tap.php:102-106 | the suffix is replaced, and nothing else changes |
| Taps.Domains | src/Tap.php:114-118 | the domains are appended in order, and nothing else changes |
| Taps.Cache | src/Tap.php:147-151 | the duration is replaced, and nothing else changes |
| Taps.NumericKey | src/Tap.php:129 | `is_numeric($key)`: every integer key, and a string key `PhpStrings.IsNumeric` accepts; no contract of its own: `PhpStrings.DigitsNumeric`, `PhpStrings.IntegerKeyNumeric` and the numeric example lemmas pin it down |
| Taps.EntryName | src/Tap.php:129-135 | the middleware name of an entry: its value when the key is numeric, its key otherwise; no contract of its own: `Taps.PutEntries` and `Scenarios.NumericStringMiddleware` state the names it yields |
| Taps.EntryArgs | src/Tap.php:128-135 | an entry whose key passes `is_numeric` (an integer key, or a numeric string such as `"01"` or `"1.5"`) has no arguments; any other entry's arguments are the comma-separated parts of its value |
| Taps.EntryArgsList | src/Tap.php:134 | for a key that is not numeric, an argument list joined with commas reads back as the same list |
| Taps.PutEntries | src/Tap.php:128-137 | the last entry for a middleware name decides its arguments, and unmentioned names are untouched; the key order is stated by `Taps.PutEntriesKeys` |
| Taps.PutEntriesKeys | src/Tap.php:136 | the names already there keep their places, and new names follow in the order the configuration first mentions them |
| Taps.Middlewares | src/Tap.php:126-139 | the builder's middlewares follow the last entry per name, and nothing else changes |
| Taps.MiddlewaresKeys | src/Tap.php:126-139 | the builder's middleware names keep their order, and new names follow in first-mention order |
| Taps.CompleteRule | src/Tap.php:167-171 | no contract of its own; `Taps.CompleteRuleSegments`, `Taps.PrefixFirst` and `Taps.SuffixSegment` state how it joins |
| Taps.CompleteRuleSegments | src/Tap.php:167-171 | splitting the full rule at `/` gives back the non-empty segments in order |
| Taps.PrefixFalsy | src/Tap.php:169 | a prefix that trims to `""` or `"0"` does not change the full rule |
| Taps.PrefixFirst | src/Tap.php:167-171 | the first prefix comes before the rule, separated by `/` |
| Taps.SuffixSegment | src/Tap.php:167-171 | a suffix is the last segment, joined by `/` |
| Taps.ToRoute | src/Tap.php:158 | the route is compiled from the full rule and carries the builder's point, constraints, middlewares and duration |
| Taps.Given | src/Tap.php:159 | an empty list is passed on as absent |
| Taps.Install | src/Tap.php:156-160 | a builder with methods adds its route under `*`/`*` only, and one without methods adds nothing |
| Maps.DefaultMap | src/Map.php:19-21 | a map without methods stands for `GET` and `POST` |
| Maps.MapTap | src/Map.php:34-59 | the builder has the upper-cased methods, the trimmed rule, the point and each given group setting |
| Maps.MapTapUnguarded | src/Map.php:38-56 | the emptiness guards make no difference: applying every setter gives the same builder |
| Maps.MapTapDefaults | src/Map.php:36 | with no settings, the builder is the one `many` makes |
| Controllers.NewController | src/Controller.php:71-73 | a new group keeps its prefix-or-level and holds no builder |
| Controllers.ArraySlice | src/Controller.php:88 | a negative offset keeps at most that many trailing elements, and a non-negative one drops that many leading ones |
| Controllers.LcfirstAll | src/Controller.php:88 | each segment is lower-cased at its first character |
| Controllers.ClassPrefix | src/Controller.php:87-89 | no contract of its own; `Controllers.ClassPrefixSegments` and `Controllers.ClassPrefixWhole` state what it builds |
| Controllers.ClassPrefixSegments | src/Controller.php:87-88 | a level n prefix is the last n namespace segments, `lcfirst`-ed and joined with `/` |
| Controllers.ClassPrefixWhole | src/Controller.php:88 | level 0 keeps every segment |
| Controllers.Init | src/Controller.php:85-96 | the prefix comes from the class name for a level and is used as given otherwise, and every group setting is stored |
| Controllers.PointOf | src/Controller.php:156-159 | the point is the class name, `::`, then the action name |
| Controllers.PointOfInjective | src/Controller.php:156-159 | different actions of a group get different points |
| Controllers.Inherit | src/Controller.php:114-128 | an unset action setting takes the group's value |
| Controllers.ActionTap | src/Controller.php:110-133 | the action's builder points at the action, inherits unset domains, suffix and duration, merges middlewares and constraints with the action's winning, and has the group prefix as its only prefix |
| Controllers.Store | src/Controller.php:130 | the builder is appended to the action's list, a new action goes last, and no other action changes |
| Controllers.Action | src/Controller.php:110-133 | `action` returns the builder it stores |
| Controllers.Flatten | src/Controller.php:141-142 | no contract of its own; the builders of every action in declaration order, as `Controllers.Loading` uses them |
| Controllers.InstallAll | src/Controller.php:141-145 | no contract of its own; `Controllers.InstallAllLast`, `Controllers.InstallAllUntouched` and `Controllers.InstallAllAppend` state what it installs |
| Controllers.InstallAllLast | src/Controller.php:141-145 | after loading, each full rule holds the route of the last builder with methods that has it |
| Controllers.InstallAllLastAt | src/Controller.php:141-145 | the last builder with methods for a full rule decides the route under it |
| Controllers.InstallAllUntouched | src/Controller.php:141-145 | rules no builder installs keep their routes |
| Controllers.InstallAllFrame | src/Controller.php:141-145 | loading never touches a slot other than `*`/`*` |
| Controllers.InstallAllAppend | src/Controller.php:141-145 | installing two lists in turn is installing their concatenation |
| Controllers.InstallEach | src/Controller.php:142-144 | the loop installs the builders in order |
| Controllers.Loading | src/Controller.php:138-148 | every kept builder is installed, action by action and in declaration order, and the kept list is emptied |
| Resources.Restful | src/Resource.php:13-21 | no contract of its own; `Resources.RestfulIdRules` states which actions take an `id` |
| Resources.IdAction | src/Resource.php:48 | the id actions `show`, `edit`, `update` and `destroy`; no contract of its own: `Resources.RestfulIdRules` shows they are exactly the table entries whose rule starts with `{id}`, and `Resources.RegisterId` states the constraint they receive |
| Resources.RestfulIdRules | src/Resource.php:13-21 | exactly the actions whose rule mentions `{id}` are `show`, `edit`, `update` and `destroy`, and the others have no placeholder |
| Resources.Register | src/Resource.php:33-52 | an unknown name changes nothing, and a known name stores the action's builder, constrained by the `id` where for the four id actions |
| Resources.RegisterId | src/Resource.php:42-50 | after registering, the last kept builder of an id action constrains `id` to positive integers, and any other action keeps the plain action builder |
| Resources.IdWhereGet | src/Resource.php:49 | the `id` constraint is `[1-9]\d*` |
| Scenarios.AdjacentGroupsGreedy | src/Route.php:237 | `{a}{b}` on `xyz` gives `a` = `xy` and `b` = `z`, as PCRE's greedy order does |
| Scenarios.NumericStringMiddleware | src/Tap.php:128-136 | `middlewares(['01' => 'auth'])` on a builder without middlewares registers `auth` with no arguments, because `"01"` is numeric |
| Scenarios.IntegerKeyExamples | src/Route.php:302-303 | `"1"` and `"-7"` are integer keys and so cannot name a placeholder, while `"01"`, `"-0"` and `"id"` stay strings |
| Scenarios.OptionalRuleCompiled | src/Route.php:321-323 | `a/{x?}` compiles to a literal `a` and a `/`-delimited optional word group, recording `/` for `x` |
| Scenarios.OptionalRuleMatches | src/Route.php:235-248 | `a/{x?}` matches `a` with an empty `x` and `a/b` with `x` = `b`, and rejects `a/` and `ab` |
| Scenarios.UsersGroupInit | src/Controller.php:85-96 | the `users` group used below is what `init` builds |
| Scenarios.KeptIs | src/Resource.php:44-50 | the builder `register` keeps is the action's builder, with the `id` constraint for id actions |
| Scenarios.ShowBuilder | src/Resource.php:17 | `show` under `users` is a GET on `users/{id}` with `id` constrained, pointing at the controller's `show` |
| Scenarios.ConstrainId | src/Resource.php:48-50 | constraining `id` keeps the rule, methods and point |
| Scenarios.ShowMatches | src/Resource.php:48-50 | the `show` route accepts `users/42` with `id` = `42`, and rejects `users/0`, `users/abc` and `users/` |
| Scenarios.IdTapMatches | src/Resource.php:49 | any builder for `users/{id}` with the `id` constraint matches as `show` does |
| Scenarios.ShowSearch | src/Route.php:63-81 | once `show` is installed, a GET for `/users/42/` on any domain, the default `*` included, finds its point with `id` = `42` |
| Scenarios.IdTapSearch | src/Route.php:63-81 | the same holds for any such builder with methods |
| Scenarios.SingleSearch | src/Route.php:67-78 | any method and domain, `*` included, fall through to a route under `*`/`*` |
| Scenarios.SlashTrim | src/Route.php:65 | the path `/users/42/` is searched as `users/42` |
| Scenarios.InstallIntoClear | src/Tap.php:156-160 | installing into an empty registry creates exactly the `*`/`*` slot with that one route |
| Scenarios.EditBuilder | src/Tap.php:167-171 | with the group suffix `.json`, `edit` has the full rule `users/{id}/edit/.json` |
| Scenarios.SuffixRule | src/Tap.php:167-171 | one prefix, a rule and a suffix are joined as three segments |

## Left out

- Regular expressions in general. Only three fragments are modelled: `\w+` and `[1-9]\d*`, which the router writes itself, and `\d+`. A `where` value is one of them, and any other PCRE text is out of scope.
- Bytes under `.`: the pattern is compiled without the `u` modifier, so PCRE's `.` matches one byte, while `Matching.AnyChar` matches one character. A path with a multibyte UTF-8 character where a rule has a `.` (the suffix `.json`, say) can match in the model and fail in PHP. The model reads paths as characters throughout.
- Routes.MatchRule: states the match on characters, not bytes, and only for `where` keys that are words PHP keeps as strings; both limits are described in the lines around this one.
- `preg_match` failing on its backtracking or JIT limits, which makes `match` return `null` for a path the pattern describes. The model has no such limits.
- Rules with regex syntax. A rule holding a backslash, a bracket, a parenthesis, a quantifier, `|`, `^`, `$` or a stray `{` is outside the compiler theorem `RuleSyntax.Wf`. So is a rule that uses the same placeholder name twice. `MakePattern` and `Match` are still defined on such rules, but nothing is proved about them.
- `where` keys that are not word strings, and keys PHP stores as integers (`"1"`, see `PhpStrings.IsIntegerKey`). Under strict types an integer key makes `replace` throw a `TypeError` during `makePattern`. `RuleSyntax.ApplyWhereState`, `RuleSyntax.MakePatternState`, `RuleSyntax.MakePatternMeaning` and `Routes.MatchRule` require keys that are words and not integer keys, so they say nothing about that error; `MakePattern` itself does not model the throw.
- PCRE's limit on the length of group names. It depends on the PCRE version.
- The leftover scan meeting `{n}` inside an inserted fragment. Inserted groups are opaque tokens, and none of the three modelled fragments contains a brace.
- Closures as route points. A point is a class-method string or an opaque closure identifier, because closures cannot be compared.
- The static registry and the controller's mutable fields. They are threaded through as values. `taps()`, `getPoint()` and `__toString()` are plain field reads.
- `Router.php`: it discovers controllers by reflection on attributes. It is not part of this model.
- The `component` attribute classes (`Cache`, `Domains`, `Middlewares`, `Suffix`, `Where`). They only carry arguments into `init` and `action`, and are not part of this model.
- Running middlewares and storing cached responses. The router only records them.
- Calling `action` before `init`. PHP would read uninitialised typed properties and throw. The model's controller always has every field.
- Warnings PHP emits, such as iterating over `null` in `addBatch`. Only their effect is modelled: nothing is added.
- Routes.Match: its own contract only states the shape of the result (names and order). What a match means is stated by `Routes.MatchSound`, `Routes.MatchComplete` and `Routes.MatchRule`.
- PhpStrings.Truthy: its own contract only bounds the length. Membership and order are stated by `PhpStrings.TruthyMembers` and `PhpStrings.TruthyAppend`.
- PhpArrays.Key: a string that `PhpStrings.IsIntegerKey` accepts must be written `Index`, as PHP casts it to an integer. The type also admits `Name("5")`, which no PHP array holds; on such a key `PhpArrays.ArrayMerge` would let the later value win instead of renumbering both, as PHP does.

=== FILE: controllers.dfy ===
/**
 `Controller`: the class attribute that groups the routes of one controller.
 `init` receives the group settings, `action` merges them into each action's
 builder and keeps the builder, `loading` installs what was kept.
 */
module Controllers {
  import opened Wrappers
  import opened PhpStrings
  import opened OrderedMaps
  import opened PhpArrays
  import opened Patterns
  import opened Routes
  import opened Taps
  import opened Maps

  /** The constructor argument: a level (how many trailing class-name
      segments make the prefix) or a fixed prefix. */
  datatype PrefixOrLevel = Level(n: int) | Fixed(s: string)

  datatype Controller = Controller(
    prefixOrLevel: PrefixOrLevel,
    classname: string,
    prefix: string,
    domains: seq<string>,
    middlewares: Assoc<Key, string>,
    where: Assoc<string, Fragment>,
    suffix: string,
    cacheDuration: int,
    taps: Assoc<string, seq<Tap>>)

  /** `new Controller($prefixOrLevel)`, the default level being 1. The class
      name and prefix are set by `init`. */
  function NewController(prefixOrLevel: PrefixOrLevel): (c: Controller)
    ensures c.prefixOrLevel == prefixOrLevel && c.taps == []
    ensures c.domains == [] && c.middlewares == [] && c.where == [] && c.suffix == "" && c.cacheDuration == 0
  {
    Controller(prefixOrLevel, "", "", [], [], [], "", 0, [])
  }

  function Min(a: int, b: int): int
  {
    if a <= b then a else b
  }

  /** `array_slice($xs, $offset)`: from the offset on when it is not negative;
      the last `-offset` entries (or all of them) when it is. */
  function ArraySlice<T>(xs: seq<T>, offset: int): (r: seq<T>)
    ensures offset >= 0 ==> |r| == |xs| - Min(offset, |xs|) && r == xs[Min(offset, |xs|)..]
    ensures offset < 0 ==> |r| == Min(-offset, |xs|) && r == xs[|xs| - |r|..]
  {
    if offset >= 0 then (if offset <= |xs| then xs[offset..] else [])
    else if -offset <= |xs| then xs[|xs| + offset..]
    else xs
  }

  /** `array_map('lcfirst', $xs)`. */
  function LcfirstAll(xs: seq<string>): (r: seq<string>)
    ensures |r| == |xs|
    ensures forall i :: 0 <= i < |xs| ==> r[i] == Lcfirst(xs[i])
  {
    seq(|xs|, i requires 0 <= i < |xs| => Lcfirst(xs[i]))
  }

  /** The prefix a level gives: the last `level` namespace segments of the
      class name, first letters lower-cased, joined by `/`. */
  function ClassPrefix(classname: string, level: int): string
  {
    Join('/', LcfirstAll(ArraySlice(Explode('\\', classname), -level)))
  }

  /** For a class name built from namespace segments and a positive level,
      the prefix is made of the last `level` segments (all of them when
      there are fewer). */
  lemma ClassPrefixSegments(segs: seq<string>, level: int)
    requires |segs| >= 1 && level >= 1
    requires forall i :: 0 <= i < |segs| ==> '\\' !in segs[i]
    ensures ClassPrefix(Join('\\', segs), level) ==
      Join('/', LcfirstAll(segs[|segs| - Min(level, |segs|)..]))
  {
    ExplodeJoin('\\', segs);
    SliceLast(segs, level);
  }

  lemma SliceLast(segs: seq<string>, level: int)
    requires level >= 1
    ensures ArraySlice(segs, -level) == segs[|segs| - Min(level, |segs|)..]
  {
  }

  /** A level of 0 keeps the whole class name. */
  lemma ClassPrefixWhole(segs: seq<string>)
    requires |segs| >= 1
    requires forall i :: 0 <= i < |segs| ==> '\\' !in segs[i]
    ensures ClassPrefix(Join('\\', segs), 0) == Join('/', LcfirstAll(segs))
  {
    ExplodeJoin('\\', segs);
    assert segs[0..] == segs;
  }

  /** `init`: records the group settings and derives the prefix. */
  function Init(c: Controller, classname: string, domains: seq<string>, middlewares: Assoc<Key, string>,
                where: Assoc<string, Fragment>, suffix: string, cacheDuration: int): (r: Controller)
    ensures r.prefix == match c.prefixOrLevel
      case Level(n) => ClassPrefix(classname, n)
      case Fixed(s) => s
    ensures r.classname == classname && r.domains == domains && r.middlewares == middlewares
    ensures r.where == where && r.suffix == suffix && r.cacheDuration == cacheDuration
    ensures r.prefixOrLevel == c.prefixOrLevel && r.taps == c.taps
  {
    var prefix := match c.prefixOrLevel
      case Level(n) => ClassPrefix(classname, n)
      case Fixed(s) => s;
    c.(classname := classname, prefix := prefix, domains := domains, middlewares := middlewares,
       where := where, suffix := suffix, cacheDuration := cacheDuration)
  }

  /** `point`: the class name, `::`, the action name. */
  function PointOf(c: Controller, name: string): (r: string)
    ensures |r| == |c.classname| + 2 + |name|
    ensures r[..|c.classname|] == c.classname && r[|c.classname|..|c.classname| + 2] == "::"
    ensures r[|c.classname| + 2..] == name
  {
    c.classname + "::" + name
  }

  /** Within one controller different actions have different points. */
  lemma PointOfInjective(c: Controller, a: string, b: string)
    requires PointOf(c, a) == PointOf(c, b)
    ensures a == b
  {
  }

  /** The inheritance test `action` applies to domains, suffix and cache:
      the action's value unless it is the unset one, in which case the
      group's. */
  function Inherit<T(==)>(own: T, unset: T, group: T): (r: T)
    ensures r == if own == unset then group else own
  {
    if own == unset && own != group then group else own
  }

  /** The builder `action` makes for one action, with the group settings
      merged in and the group prefix pushed. */
  function ActionTap(c: Controller, name: string, m: Mapping, domains: seq<string>, middlewares: Assoc<Key, string>,
                     where: Assoc<string, Fragment>, suffix: string, cacheDuration: int): (t: Tap)
    ensures t.point == Named(PointOf(c, name))
    ensures t.methods == Taps.NewTap(RouteDefs.Upper(m.methods), m.rule, t.point).methods
    ensures t.rule == Trim(m.rule, '/') && t.prefixes == [Trim(c.prefix, '/')]
    ensures t.domains == if domains == [] then c.domains else domains
    ensures t.suffix == if suffix == "" then c.suffix else suffix
    ensures t.cacheDuration == if cacheDuration == 0 then c.cacheDuration else cacheDuration
    ensures t.middlewares == PutEntries([], ArrayMerge(c.middlewares, middlewares))
    ensures Unique(c.where) && Unique(where) ==>
      forall k :: Get(t.where, k) == if HasKey(where, k) then Get(where, k) else Get(c.where, k)
    ensures Unique(c.where) ==> t.where == PutAll(c.where, where)
  {
    var mw := ArrayMerge(c.middlewares, middlewares);
    var wh := PutAll(c.where, where);
    var t := MapTap(m, Named(PointOf(c, name)), Inherit(domains, [], c.domains), mw, wh,
                    Inherit(suffix, "", c.suffix), Inherit(cacheDuration, 0, c.cacheDuration));
    var r := Prefix(t, c.prefix);
    assert r.where == t.where && r.middlewares == t.middlewares && r.methods == t.methods &&
      r.rule == t.rule && r.point == t.point && r.domains == t.domains && r.suffix == t.suffix &&
      r.cacheDuration == t.cacheDuration && r.prefixes == [Trim(c.prefix, '/')];
    assert Unique(c.where) ==> r.where == wh;
    r
  }

  /** `$this->taps[$name][] = $tap`. */
  function Store(c: Controller, name: string, t: Tap): (r: Controller)
    ensures Get(r.taps, name) == Some(GetOr(c.taps, name, []) + [t])
    ensures forall n :: n != name ==> Get(r.taps, n) == Get(c.taps, n)
    ensures Keys(r.taps) == if HasKey(c.taps, name) then Keys(c.taps) else Keys(c.taps) + [name]
    ensures r.(taps := c.taps) == c
  {
    c.(taps := OrderedMaps.Put(c.taps, name, GetOr(c.taps, name, []) + [t]))
  }

  /** `action`: the merged builder, kept under the action's name and
      returned. */
  function Action(c: Controller, name: string, m: Mapping, domains: seq<string>, middlewares: Assoc<Key, string>,
                  where: Assoc<string, Fragment>, suffix: string, cacheDuration: int): (r: (Controller, Tap))
    ensures r.1 == ActionTap(c, name, m, domains, middlewares, where, suffix, cacheDuration)
    ensures r.0 == Store(c, name, r.1)
  {
    var t := ActionTap(c, name, m, domains, middlewares, where, suffix, cacheDuration);
    (Store(c, name, t), t)
  }

  /** The kept builders in order: name by name, and in the order they were
      kept under each name. */
  function Flatten(taps: Assoc<string, seq<Tap>>): (r: seq<Tap>)
    decreases |taps|
  {
    if |taps| == 0 then [] else Flatten(taps[..|taps| - 1]) + taps[|taps| - 1].1
  }

  /** Some builder of `ts` installs a route under rule `k`. */
  predicate Installs(ts: seq<Tap>, k: string)
  {
    exists i :: 0 <= i < |ts| && ts[i].methods != [] && CompleteRule(ts[i]) == k
  }

  /** A later builder of `ts` installs under the same rule as builder `i`. */
  predicate InstalledLater(ts: seq<Tap>, i: int)
    requires 0 <= i < |ts|
  {
    exists j :: i < j < |ts| && ts[j].methods != [] && CompleteRule(ts[j]) == CompleteRule(ts[i])
  }

  /** Installing builders in order, each with `install`. */
  function InstallAll(tbl: Table, ts: seq<Tap>): Table
    decreases |ts|
  {
    if |ts| == 0 then tbl else Install(InstallAll(tbl, ts[..|ts| - 1]), ts[|ts| - 1])
  }

  /** The last builder for a rule is the one the registry keeps. */
  lemma InstallAllLast(tbl: Table, ts: seq<Tap>)
    ensures forall i :: 0 <= i < |ts| && ts[i].methods != [] && !InstalledLater(ts, i) ==>
      Lookup(InstallAll(tbl, ts), "*", "*", CompleteRule(ts[i])) == Some(ToRoute(ts[i]))
  {
    forall i | 0 <= i < |ts| && ts[i].methods != [] && !InstalledLater(ts, i)
      ensures Lookup(InstallAll(tbl, ts), "*", "*", CompleteRule(ts[i])) == Some(ToRoute(ts[i]))
    {
      InstallAllLastAt(tbl, ts, i);
    }
  }

  lemma {:induction false} InstallAllLastAt(tbl: Table, ts: seq<Tap>, i: int)
    requires 0 <= i < |ts| && ts[i].methods != [] && !InstalledLater(ts, i)
    ensures Lookup(InstallAll(tbl, ts), "*", "*", CompleteRule(ts[i])) == Some(ToRoute(ts[i]))
    decreases |ts|
  {
    var init := ts[..|ts| - 1];
    var last := ts[|ts| - 1];
    var k := CompleteRule(ts[i]);
    assert InstallAll(tbl, ts) == Install(InstallAll(tbl, init), last);
    if i < |ts| - 1 {
      assert !(last.methods != [] && CompleteRule(last) == k);
      LaterInInit(ts, i);
      InstallAllLastAt(tbl, init, i);
      InstallOther(InstallAll(tbl, init), last, k);
    }
  }

  /** No later builder of `ts` for builder `i`, none in all but the last. */
  lemma LaterInInit(ts: seq<Tap>, i: int)
    requires 0 <= i < |ts| - 1 && !InstalledLater(ts, i)
    ensures ts[..|ts| - 1][i] == ts[i] && !InstalledLater(ts[..|ts| - 1], i)
  {
    var init := ts[..|ts| - 1];
    forall j | i < j < |init| ensures !(init[j].methods != [] && CompleteRule(init[j]) == CompleteRule(init[i])) {
      assert init[j] == ts[j];
    }
  }

  /** `install` leaves the `*`/`*` entries of other rules alone. */
  lemma InstallOther(tbl: Table, t: Tap, k: string)
    requires !(t.methods != [] && CompleteRule(t) == k)
    ensures Lookup(Install(tbl, t), "*", "*", k) == Lookup(tbl, "*", "*", k)
  {
  }

  /** Rules no builder installs keep their `*`/`*` entry. */
  lemma {:induction false} InstallAllUntouched(tbl: Table, ts: seq<Tap>, k: string)
    requires !Installs(ts, k)
    ensures Lookup(InstallAll(tbl, ts), "*", "*", k) == Lookup(tbl, "*", "*", k)
    decreases |ts|
  {
    if |ts| > 0 {
      var init := ts[..|ts| - 1];
      var last := ts[|ts| - 1];
      assert !Installs(init, k) by {
        forall i | 0 <= i < |init| ensures !(init[i].methods != [] && CompleteRule(init[i]) == k) {
          assert init[i] == ts[i];
        }
      }
      InstallAllUntouched(tbl, init, k);
      assert !(last.methods != [] && CompleteRule(last) == k);
    }
  }

  /** Every slot other than `*`/`*` is untouched. */
  lemma {:induction false} InstallAllFrame(tbl: Table, ts: seq<Tap>, d: string, m: string, k: string)
    requires (d, m) != ("*", "*")
    ensures Lookup(InstallAll(tbl, ts), d, m, k) == Lookup(tbl, d, m, k)
    decreases |ts|
  {
    if |ts| > 0 {
      InstallAllFrame(tbl, ts[..|ts| - 1], d, m, k);
    }
  }

  lemma InstallAllSnoc(tbl: Table, ts: seq<Tap>, t: Tap)
    ensures InstallAll(tbl, ts + [t]) == Install(InstallAll(tbl, ts), t)
  {
    var s := ts + [t];
    assert |s| - 1 == |ts| && s[|s| - 1] == t;
    assert s[..|s| - 1] == ts;
  }

  lemma FlattenSnoc(taps: Assoc<string, seq<Tap>>, i: int)
    requires 0 <= i < |taps|
    ensures Flatten(taps[..i + 1]) == Flatten(taps[..i]) + taps[i].1
  {
    assert taps[..i + 1][..i] == taps[..i];
  }

  /** Installing `a` then `b` is installing `a + b`. */
  lemma {:induction false} InstallAllAppend(tbl: Table, a: seq<Tap>, b: seq<Tap>)
    ensures InstallAll(tbl, a + b) == InstallAll(InstallAll(tbl, a), b)
    decreases |b|
  {
    if |b| == 0 {
      assert a + b == a;
    } else {
      var b0, x := b[..|b| - 1], b[|b| - 1];
      assert b == b0 + [x];
      assert a + b == (a + b0) + [x];
      InstallAllAppend(tbl, a, b0);
      var v := InstallAll(tbl, a + b0);
      var w := InstallAll(InstallAll(tbl, a), b0);
      assert v == w;
      InstallAllSnoc(tbl, a + b0, x);
      InstallAllSnoc(InstallAll(tbl, a), b0, x);
      assert InstallAll(tbl, a + b) == Install(v, x);
      assert InstallAll(InstallAll(tbl, a), b) == Install(w, x);
    }
  }

  lemma InstallStep(tbl: Table, ts: seq<Tap>, j: int)
    requires 0 <= j < |ts|
    ensures InstallAll(tbl, ts[..j + 1]) == Install(InstallAll(tbl, ts[..j]), ts[j])
  {
    assert ts[..j + 1] == ts[..j] + [ts[j]];
    InstallAllSnoc(tbl, ts[..j], ts[j]);
  }

  /** The inner loop of `loading`: the builders kept under one name. */
  method InstallEach(tbl: Table, ts: seq<Tap>) returns (u: Table)
    ensures u == InstallAll(tbl, ts)
  {
    u := tbl;
    var j := 0;
    while j < |ts|
      invariant 0 <= j <= |ts|
      invariant u == InstallAll(tbl, ts[..j])
    {
      InstallStep(tbl, ts, j);
      u := Install(u, ts[j]);
      j := j + 1;
    }
    assert ts[..j] == ts;
  }

  /** `loading`: installs every kept builder once, in the order they were
      kept, then forgets them. */
  method Loading(c: Controller, tbl: Table) returns (c': Controller, u: Table)
    ensures u == InstallAll(tbl, Flatten(c.taps))
    ensures c' == c.(taps := [])
  {
    if c.taps == [] {
      return c, tbl;
    }
    u := tbl;
    var i := 0;
    while i < |c.taps|
      invariant 0 <= i <= |c.taps|
      invariant u == InstallAll(tbl, Flatten(c.taps[..i]))
    {
      u := InstallEach(u, c.taps[i].1);
      InstallAllAppend(tbl, Flatten(c.taps[..i]), c.taps[i].1);
      FlattenSnoc(c.taps, i);
      i := i + 1;
    }
    assert c.taps[..i] == c.taps;
    c' := c.(taps := []);
  }
}

=== FILE: maps.dfy ===
/**
 `Map`: the attribute on a controller action, holding the action's rule and
 method list, and turning them into a builder.
 */
module Maps {
  import opened PhpStrings
  import opened OrderedMaps
  import opened PhpArrays
  import opened Patterns
  import opened Routes
  import opened Taps
  import opened RouteDefs

  datatype Mapping = Mapping(rule: string, methods: seq<string>)

  /** `new Map($rule)`: without a method list, GET and POST. */
  function DefaultMap(rule: string): (m: Mapping)
    ensures m.rule == rule && m.methods == ["GET", "POST"]
  {
    Mapping(rule, ["GET", "POST"])
  }

  /** `tap`: a builder from `many`, with each group setting applied only when
      it differs from the builder's initial value. */
  function MapTap(m: Mapping, point: Point, domains: seq<string>, middlewares: Assoc<Key, string>,
                  where: Assoc<string, Fragment>, suffix: string, cacheDuration: int): (t: Tap)
    ensures t.methods == Upper(m.methods) && t.rule == Trim(m.rule, '/') && t.point == point
    ensures t.prefixes == [] && t.domains == domains
    ensures t.suffix == suffix && t.cacheDuration == cacheDuration
    ensures Unique(where) ==> t.where == where
    ensures t.middlewares == PutEntries([], middlewares)
  {
    var t0 := Many(m.methods, m.rule, point);
    var t1 := if domains != [] then Domains(t0, domains) else t0;
    var t2 := if middlewares != [] then Middlewares(t1, middlewares) else t1;
    var t3 := if where != [] then Where(t2, where) else t2;
    var t4 := if suffix != "" then Suffix(t3, suffix) else t3;
    assert Unique(where) ==> t4.where == where by {
      if Unique(where) { PutAllIntoEmpty(where); }
    }
    if cacheDuration != 0 then Cache(t4, cacheDuration) else t4
  }

  /** The guards of `tap` cannot be observed: applying every setting
      unconditionally builds the same tap. */
  lemma MapTapUnguarded(m: Mapping, point: Point, domains: seq<string>, middlewares: Assoc<Key, string>,
                        where: Assoc<string, Fragment>, suffix: string, cacheDuration: int)
    ensures MapTap(m, point, domains, middlewares, where, suffix, cacheDuration) ==
      Cache(Suffix(Where(Middlewares(Domains(Many(m.methods, m.rule, point), domains), middlewares), where), suffix), cacheDuration)
  {
    var t0 := Many(m.methods, m.rule, point);
    assert Domains(t0, []) == t0;
    assert PutEntries([], []) == [];
    assert PutAll<string, Fragment>([], []) == [];
  }

  /** With no settings, `tap` is `many` itself. */
  lemma MapTapDefaults(m: Mapping, point: Point)
    ensures MapTap(m, point, [], [], [], "", 0) == Many(m.methods, m.rule, point)
  {
  }
}

=== FILE: matching.dfy ===
/**
 How `preg_match('/^pattern$/', $path)` reads and runs a compiled pattern.

 The pattern text is read as a sequence of atoms: an escaped character `\x`
 stands for `x`, an unescaped `.` for any character but a newline, every other
 character for itself, and each inserted group for a named group. Matching
 follows PCRE's backtracking order: a fragment first takes as many characters
 as it can and gives them back one at a time, an optional group is tried
 before it is skipped, and the first success wins. The final `$` (no `D`
 modifier) accepts the end of the subject or a single newline before it.
 */
module Matching {
  import opened Wrappers
  import opened PhpStrings
  import opened Patterns

  datatype Atom = Lit(c: char) | AnyChar | Group(name: string, frag: Fragment, form: Form)

  /** Named captures in the order the groups occur. */
  type Captures = seq<(string, string)>

  /** Reads the pattern text as atoms. */
  function Atoms(p: seq<PTok>): seq<Atom>
    decreases |p|
  {
    if |p| == 0 then []
    else match p[0]
      case Cap(n, f, form) => [Group(n, f, form)] + Atoms(p[1..])
      case Ch(c) =>
        if c == '\\' && |p| >= 2 && p[1].Ch? then [Lit(p[1].c)] + Atoms(p[2..])
        else if c == '.' then [AnyChar] + Atoms(p[1..])
        else [Lit(c)] + Atoms(p[1..])
  }

  /** The atom an unescaped rule character stands for. */
  function TextAtom(c: char): Atom
  {
    if c == '.' then AnyChar else Lit(c)
  }

  /** The atoms of rule text read character by character. */
  function TextAtoms(s: string): (r: seq<Atom>)
    ensures |r| == |s|
    ensures forall i :: 0 <= i < |s| ==> r[i] == TextAtom(s[i])
  {
    seq(|s|, i requires 0 <= i < |s| => TextAtom(s[i]))
  }

  /** The escapes that `quite` adds read back as the plain characters: an
      escaped rule means, atom for atom, what the rule text says. */
  lemma {:induction false} AtomsOfQuite(s: string)
    requires '\\' !in s
    ensures Atoms(Chars(Quite(s))) == TextAtoms(s)
    decreases |s|
  {
    if |s| > 0 {
      var rest := Chars(Quite(s[1..]));
      CharsAppend(QuiteChar(s[0]), Quite(s[1..]));
      var p := Chars(QuiteChar(s[0])) + rest;
      assert Chars(Quite(s)) == p;
      AtomsOfQuite(s[1..]);
      if s[0] == '/' || s[0] == '-' {
        assert p[0] == Ch('\\') && p[1] == Ch(s[0]);
        assert p[2..] == rest;
      } else {
        assert p[0] == Ch(s[0]);
        assert p[1..] == rest;
      }
      assert TextAtoms(s) == [TextAtom(s[0])] + TextAtoms(s[1..]);
    }
  }

  /** The names of the groups, in order. */
  function GroupNames(atoms: seq<Atom>): seq<string>
  {
    if |atoms| == 0 then []
    else (if atoms[0].Group? then [atoms[0].name] else []) + GroupNames(atoms[1..])
  }

  /** A name PCRE accepts for `(?<name>...)`: word characters, not starting
      with a digit. */
  predicate ValidName(n: string)
  {
    IsWord(n) && !IsDigit(n[0])
  }

  /** No name occurs twice. */
  predicate Distinct(ns: seq<string>)
  {
    |ns| == 0 || (ns[0] !in ns[1..] && Distinct(ns[1..]))
  }

  /** The pattern compiles: otherwise `preg_match` fails and returns `false`. */
  predicate Compiles(atoms: seq<Atom>)
  {
    var ns := GroupNames(atoms);
    (forall i :: 0 <= i < |ns| ==> ValidName(ns[i])) && Distinct(ns)
  }

  /** Every character is a digit. */
  predicate AllDigits(w: string)
  {
    forall i :: 0 <= i < |w| ==> IsDigit(w[i])
  }

  /** The strings a fragment matches in full. */
  predicate Accepts(f: Fragment, w: string)
  {
    match f
    case Word => IsWord(w)
    case Digits => |w| > 0 && AllDigits(w)
    case PositiveInt => |w| > 0 && '1' <= w[0] <= '9' && AllDigits(w[1..])
  }

  /** The value a group of the given form captures, before `value` trims it. */
  predicate GroupAccepts(f: Fragment, form: Form, v: string)
  {
    match form
    case Required => Accepts(f, v)
    case Optional => v == "" || Accepts(f, v)
    case Delimited(d) => v == "" || (v[0] == d && Accepts(f, v[1..]))
  }

  /** The length of the leading run of word characters. */
  function WordLen(s: string): (n: nat)
    ensures n <= |s|
  {
    if |s| > 0 && IsWordChar(s[0]) then 1 + WordLen(s[1..]) else 0
  }

  /** The length of the leading run of digits. */
  function DigitLen(s: string): (n: nat)
    ensures n <= |s|
  {
    if |s| > 0 && IsDigit(s[0]) then 1 + DigitLen(s[1..]) else 0
  }

  /** The most characters a greedy fragment takes at the start of `s`. */
  function MaxLen(f: Fragment, s: string): (n: nat)
    ensures n <= |s|
  {
    match f
    case Word => WordLen(s)
    case Digits => DigitLen(s)
    case PositiveInt => if |s| > 0 && '1' <= s[0] <= '9' then 1 + DigitLen(s[1..]) else 0
  }

  lemma {:induction false} WordLenSpec(s: string, k: nat)
    requires k <= |s|
    ensures k <= WordLen(s) <==> forall i :: 0 <= i < k ==> IsWordChar(s[i])
    decreases k
  {
    if k > 0 {
      WordLenSpec(s[1..], k - 1);
      if forall i :: 0 <= i < k ==> IsWordChar(s[i]) {
        assert IsWordChar(s[0]);
        assert forall i :: 0 <= i < k - 1 ==> IsWordChar(s[1..][i]) by {
          forall i | 0 <= i < k - 1 ensures IsWordChar(s[1..][i]) {
            assert s[1..][i] == s[i + 1];
          }
        }
      }
      if k <= WordLen(s) {
        forall i | 0 <= i < k ensures IsWordChar(s[i]) {
          if i > 0 {
            assert s[i] == s[1..][i - 1];
          }
        }
      }
    }
  }

  lemma {:induction false} DigitLenSpec(s: string, k: nat)
    requires k <= |s|
    ensures k <= DigitLen(s) <==> forall i :: 0 <= i < k ==> IsDigit(s[i])
    decreases k
  {
    if k > 0 {
      DigitLenSpec(s[1..], k - 1);
      if forall i :: 0 <= i < k ==> IsDigit(s[i]) {
        assert IsDigit(s[0]);
        assert forall i :: 0 <= i < k - 1 ==> IsDigit(s[1..][i]) by {
          forall i | 0 <= i < k - 1 ensures IsDigit(s[1..][i]) {
            assert s[1..][i] == s[i + 1];
          }
        }
      }
      if k <= DigitLen(s) {
        forall i | 0 <= i < k ensures IsDigit(s[i]) {
          if i > 0 {
            assert s[i] == s[1..][i - 1];
          }
        }
      }
    }
  }

  /** A fragment matches a non-empty prefix exactly when the prefix is no
      longer than the greedy maximum. */
  lemma MaxLenSpec(f: Fragment, s: string, k: nat)
    requires 1 <= k <= |s|
    ensures Accepts(f, s[..k]) <==> k <= MaxLen(f, s)
  {
    var w := s[..k];
    match f
    case Word =>
      WordLenSpec(s, k);
      assert forall i :: 0 <= i < k ==> w[i] == s[i];
    case Digits =>
      DigitLenSpec(s, k);
      assert forall i :: 0 <= i < k ==> w[i] == s[i];
    case PositiveInt =>
      DigitLenSpec(s[1..], k - 1);
      assert w[1..] == s[1..][..k - 1];
      assert forall i :: 0 <= i < k - 1 ==> w[1..][i] == s[1..][i];
  }

  /** `preg_match` on the anchored pattern: the captures of the first match
      in backtracking order. */
  function MatchFrom(atoms: seq<Atom>, s: string): Option<Captures>
    decreases |atoms|, |s| + 1
  {
    if |atoms| == 0 then (if s == "" || s == "\n" then Some([]) else None)
    else match atoms[0]
      case Lit(c) => if |s| > 0 && s[0] == c then MatchFrom(atoms[1..], s[1..]) else None
      case AnyChar => if |s| > 0 && s[0] != '\n' then MatchFrom(atoms[1..], s[1..]) else None
      case Group(n, f, Required) => TryLengths(n, "", atoms[1..], s, MaxLen(f, s))
      case Group(n, f, Optional) =>
        var r := TryLengths(n, "", atoms[1..], s, MaxLen(f, s));
        if r.Some? then r else Skip(n, MatchFrom(atoms[1..], s))
      case Group(n, f, Delimited(d)) =>
        var r := if |s| > 0 && s[0] == d then TryLengths(n, [d], atoms[1..], s[1..], MaxLen(f, s[1..])) else None;
        if r.Some? then r else Skip(n, MatchFrom(atoms[1..], s))
  }

  /** A skipped optional group still reports its name, with an empty value. */
  function Skip(n: string, r: Option<Captures>): Option<Captures>
  {
    if r.Some? then Some([(n, "")] + r.value) else None
  }

  /** Gives the group `k` characters, then fewer, until the rest matches. */
  function TryLengths(n: string, lead: string, rest: seq<Atom>, s: string, k: nat): Option<Captures>
    requires k <= |s|
    decreases |rest| + 1, k
  {
    if k == 0 then None
    else match MatchFrom(rest, s[k..])
      case Some(caps) => Some([(n, lead + s[..k])] + caps)
      case None => TryLengths(n, lead, rest, s, k - 1)
  }

  /** What it means for `s` to match the atoms with the given captures, with
      no order among the alternatives. */
  predicate Parses(atoms: seq<Atom>, s: string, caps: Captures)
    decreases |atoms|
  {
    if |atoms| == 0 then caps == [] && (s == "" || s == "\n")
    else match atoms[0]
      case Lit(c) => |s| > 0 && s[0] == c && Parses(atoms[1..], s[1..], caps)
      case AnyChar => |s| > 0 && s[0] != '\n' && Parses(atoms[1..], s[1..], caps)
      case Group(n, f, form) =>
        |caps| > 0 && caps[0].0 == n && caps[0].1 <= s && GroupAccepts(f, form, caps[0].1)
        && Parses(atoms[1..], s[|caps[0].1|..], caps[1..])
  }

  /** Every match the backtracking search reports is a parse. */
  lemma {:induction false} MatchFromSound(atoms: seq<Atom>, s: string)
    requires MatchFrom(atoms, s).Some?
    ensures Parses(atoms, s, MatchFrom(atoms, s).value)
    decreases |atoms|, |s| + 1
  {
    if |atoms| > 0 {
      var caps := MatchFrom(atoms, s).value;
      match atoms[0]
      case Lit(c) => MatchFromSound(atoms[1..], s[1..]);
      case AnyChar => MatchFromSound(atoms[1..], s[1..]);
      case Group(n, f, Required) =>
        assert caps == TryLengths(n, "", atoms[1..], s, MaxLen(f, s)).value;
        var j := TryLengthsSound(n, "", atoms[1..], s, MaxLen(f, s));
        MaxLenSpec(f, s, j);
        assert "" + s[..j] == s[..j];
        assert s[|s[..j]|..] == s[j..];
      case Group(n, f, Optional) =>
        var r := TryLengths(n, "", atoms[1..], s, MaxLen(f, s));
        if r.Some? {
          assert caps == r.value;
          var j := TryLengthsSound(n, "", atoms[1..], s, MaxLen(f, s));
          MaxLenSpec(f, s, j);
          assert "" + s[..j] == s[..j];
          assert s[|s[..j]|..] == s[j..];
        } else {
          SkipParse(atoms, s, caps);
        }
      case Group(n, f, Delimited(d)) =>
        var r := if |s| > 0 && s[0] == d then TryLengths(n, [d], atoms[1..], s[1..], MaxLen(f, s[1..])) else None;
        if r.Some? {
          assert caps == r.value;
          var j := TryLengthsSound(n, [d], atoms[1..], s[1..], MaxLen(f, s[1..]));
          MaxLenSpec(f, s[1..], j);
          var v := [d] + s[1..][..j];
          assert v[1..] == s[1..][..j];
          assert s == [s[0]] + s[1..];
          assert s[|v|..] == s[1..][j..];
        } else {
          SkipParse(atoms, s, caps);
        }
    }
  }

  /** A skipped optional group: the name with an empty value, then a parse
      of the rest. */
  lemma {:induction false} SkipParse(atoms: seq<Atom>, s: string, caps: Captures)
    requires |atoms| > 0 && atoms[0].Group? && !atoms[0].form.Required?
    requires MatchFrom(atoms[1..], s).Some?
    requires caps == [(atoms[0].name, "")] + MatchFrom(atoms[1..], s).value
    ensures Parses(atoms, s, caps)
    decreases |atoms|, |s| + 1, 0
  {
    MatchFromSound(atoms[1..], s);
    assert caps[1..] == MatchFrom(atoms[1..], s).value;
    assert s[|""|..] == s;
  }

  /** A result of `TryLengths` gives the group between 1 and `k` characters,
      the longest such length after which the rest of the subject matches,
      and the rest's captures are the search's own on what is left. */
  lemma {:induction false} TryLengthsSound(n: string, lead: string, rest: seq<Atom>, s: string, k: nat)
      returns (j: nat)
    requires k <= |s|
    requires TryLengths(n, lead, rest, s, k).Some?
    ensures 1 <= j <= k
    ensures |TryLengths(n, lead, rest, s, k).value| > 0
    ensures TryLengths(n, lead, rest, s, k).value[0] == (n, lead + s[..j])
    ensures Parses(rest, s[j..], TryLengths(n, lead, rest, s, k).value[1..])
    ensures MatchFrom(rest, s[j..]) == Some(TryLengths(n, lead, rest, s, k).value[1..])
    ensures forall j' :: j < j' <= k ==> MatchFrom(rest, s[j'..]).None?
    decreases |rest| + 1, k
  {
    var r := MatchFrom(rest, s[k..]);
    if r.Some? {
      MatchFromSound(rest, s[k..]);
      var caps := TryLengths(n, lead, rest, s, k).value;
      assert caps[1..] == r.value;
      j := k;
    } else {
      j := TryLengthsSound(n, lead, rest, s, k - 1);
    }
  }

  /** `TryLengths` fails only when no length from 1 to `k` lets the rest
      match. */
  lemma {:induction false} TryLengthsNone(n: string, lead: string, rest: seq<Atom>, s: string, k: nat)
    requires k <= |s|
    requires TryLengths(n, lead, rest, s, k).None?
    ensures forall j :: 1 <= j <= k ==> MatchFrom(rest, s[j..]).None?
    decreases k
  {
    if k > 0 {
      TryLengthsNone(n, lead, rest, s, k - 1);
    }
  }

  /** Which match `preg_match` reports when the pattern starts with a group:
      the group takes a value it accepts, the rest is matched the same way on
      what follows, and no longer value the group accepts would let the rest
      match (greedy, optional groups tried before they are skipped). */
  lemma MatchFromGreedy(atoms: seq<Atom>, s: string)
    requires |atoms| > 0 && atoms[0].Group? && MatchFrom(atoms, s).Some?
    ensures var caps := MatchFrom(atoms, s).value;
      |caps| > 0 && caps[0].0 == atoms[0].name && caps[0].1 <= s &&
      GroupAccepts(atoms[0].frag, atoms[0].form, caps[0].1) &&
      MatchFrom(atoms[1..], s[|caps[0].1|..]) == Some(caps[1..]) &&
      forall L :: |caps[0].1| < L <= |s| && GroupAccepts(atoms[0].frag, atoms[0].form, s[..L]) ==>
        MatchFrom(atoms[1..], s[L..]).None?
  {
    var n, f, rest := atoms[0].name, atoms[0].frag, atoms[1..];
    match atoms[0].form
    case Required =>
      TakenGreedy(atoms, s);
    case Optional =>
      if TryLengths(n, "", rest, s, MaxLen(f, s)).Some? {
        TakenGreedy(atoms, s);
      } else {
        SkippedGreedy(atoms, s);
      }
    case Delimited(d) =>
      if |s| > 0 && s[0] == d && TryLengths(n, [d], rest, s[1..], MaxLen(f, s[1..])).Some? {
        DelimitedTakenGreedy(atoms, s, d);
      } else {
        DelimitedSkippedGreedy(atoms, s, d);
      }
  }

  /** A required or optional group that takes some characters. */
  lemma TakenGreedy(atoms: seq<Atom>, s: string)
    requires |atoms| > 0 && atoms[0].Group? && !atoms[0].form.Delimited?
    requires TryLengths(atoms[0].name, "", atoms[1..], s, MaxLen(atoms[0].frag, s)).Some?
    ensures MatchFrom(atoms, s) == TryLengths(atoms[0].name, "", atoms[1..], s, MaxLen(atoms[0].frag, s))
    ensures var caps := MatchFrom(atoms, s).value;
      |caps| > 0 && caps[0].0 == atoms[0].name && caps[0].1 <= s &&
      GroupAccepts(atoms[0].frag, atoms[0].form, caps[0].1) &&
      MatchFrom(atoms[1..], s[|caps[0].1|..]) == Some(caps[1..]) &&
      forall L :: |caps[0].1| < L <= |s| && GroupAccepts(atoms[0].frag, atoms[0].form, s[..L]) ==>
        MatchFrom(atoms[1..], s[L..]).None?
  {
    var n, f, rest := atoms[0].name, atoms[0].frag, atoms[1..];
    var k := MaxLen(f, s);
    var j := TryLengthsSound(n, "", rest, s, k);
    assert "" + s[..j] == s[..j];
    MaxLenSpec(f, s, j);
    forall L | j < L <= |s| && GroupAccepts(f, atoms[0].form, s[..L])
      ensures MatchFrom(rest, s[L..]).None?
    {
      MaxLenSpec(f, s, L);
    }
  }

  /** An optional group that is skipped: no value it accepts lets the rest
      match. */
  lemma SkippedGreedy(atoms: seq<Atom>, s: string)
    requires |atoms| > 0 && atoms[0].Group? && atoms[0].form == Optional
    requires TryLengths(atoms[0].name, "", atoms[1..], s, MaxLen(atoms[0].frag, s)).None?
    requires MatchFrom(atoms, s).Some?
    ensures var caps := MatchFrom(atoms, s).value;
      |caps| > 0 && caps[0] == (atoms[0].name, "") &&
      MatchFrom(atoms[1..], s) == Some(caps[1..]) &&
      forall L :: 0 < L <= |s| && GroupAccepts(atoms[0].frag, Optional, s[..L]) ==>
        MatchFrom(atoms[1..], s[L..]).None?
  {
    var n, f, rest := atoms[0].name, atoms[0].frag, atoms[1..];
    TryLengthsNone(n, "", rest, s, MaxLen(f, s));
    forall L | 0 < L <= |s| && GroupAccepts(f, Optional, s[..L])
      ensures MatchFrom(rest, s[L..]).None?
    {
      assert s[..L] != "";
      MaxLenSpec(f, s, L);
    }
  }

  /** A delimited group that takes the delimiter and some characters. */
  lemma DelimitedTakenGreedy(atoms: seq<Atom>, s: string, d: char)
    requires |atoms| > 0 && atoms[0].Group? && atoms[0].form == Delimited(d)
    requires |s| > 0 && s[0] == d
    requires TryLengths(atoms[0].name, [d], atoms[1..], s[1..], MaxLen(atoms[0].frag, s[1..])).Some?
    ensures var caps := MatchFrom(atoms, s).value;
      MatchFrom(atoms, s).Some? &&
      |caps| > 0 && caps[0].0 == atoms[0].name && caps[0].1 <= s &&
      GroupAccepts(atoms[0].frag, Delimited(d), caps[0].1) &&
      MatchFrom(atoms[1..], s[|caps[0].1|..]) == Some(caps[1..]) &&
      forall L :: |caps[0].1| < L <= |s| && GroupAccepts(atoms[0].frag, Delimited(d), s[..L]) ==>
        MatchFrom(atoms[1..], s[L..]).None?
  {
    var n, f, rest := atoms[0].name, atoms[0].frag, atoms[1..];
    assert MatchFrom(atoms, s) == TryLengths(n, [d], rest, s[1..], MaxLen(f, s[1..]));
    DelimitedTakenCore(n, f, rest, s, d);
  }

  /** The search behind `DelimitedTakenGreedy`: the longest delimited value
      after which the rest matches. */
  lemma DelimitedTakenCore(n: string, f: Fragment, rest: seq<Atom>, s: string, d: char)
    requires |s| > 0 && s[0] == d
    requires TryLengths(n, [d], rest, s[1..], MaxLen(f, s[1..])).Some?
    ensures var caps := TryLengths(n, [d], rest, s[1..], MaxLen(f, s[1..])).value;
      |caps| > 0 && caps[0].0 == n && caps[0].1 <= s &&
      GroupAccepts(f, Delimited(d), caps[0].1) &&
      MatchFrom(rest, s[|caps[0].1|..]) == Some(caps[1..]) &&
      forall L :: |caps[0].1| < L <= |s| && GroupAccepts(f, Delimited(d), s[..L]) ==>
        MatchFrom(rest, s[L..]).None?
  {
    var t := s[1..];
    var j := TryLengthsSound(n, [d], rest, t, MaxLen(f, t));
    DelimitedValueAt(f, s, d, j);
    DelimitedLonger(f, rest, s, d, j);
  }

  /** No delimited value longer than `j + 1` characters lets the rest match
      when no fragment run longer than `j` does. */
  lemma DelimitedLonger(f: Fragment, rest: seq<Atom>, s: string, d: char, j: nat)
    requires |s| > 0
    requires forall j' :: j < j' <= MaxLen(f, s[1..]) ==> MatchFrom(rest, s[1..][j'..]).None?
    ensures forall L :: j + 1 < L <= |s| && GroupAccepts(f, Delimited(d), s[..L]) ==>
      MatchFrom(rest, s[L..]).None?
  {
    forall L | j + 1 < L <= |s| && GroupAccepts(f, Delimited(d), s[..L])
      ensures MatchFrom(rest, s[L..]).None?
    {
      DelimitedAt(f, s, d, L);
    }
  }

  /** The delimiter followed by `j` characters the fragment accepts is a value
      the delimited group accepts. */
  lemma DelimitedValueAt(f: Fragment, s: string, d: char, j: nat)
    requires |s| > 0 && s[0] == d && 1 <= j <= MaxLen(f, s[1..])
    ensures [d] + s[1..][..j] == s[..j + 1]
    ensures GroupAccepts(f, Delimited(d), s[..j + 1]) && s[j + 1..] == s[1..][j..]
  {
    var t := s[1..];
    assert s == [s[0]] + t;
    assert s[..j + 1][1..] == t[..j];
    MaxLenSpec(f, t, j);
  }

  /** A non-empty value of a delimited group at the head of `s` is the
      delimiter followed by a prefix of the rest no longer than the fragment's
      longest run. */
  lemma DelimitedAt(f: Fragment, s: string, d: char, L: nat)
    requires 0 < L <= |s| && GroupAccepts(f, Delimited(d), s[..L])
    ensures s[0] == d && 1 <= L - 1 <= MaxLen(f, s[1..]) && s[L..] == s[1..][L - 1..]
  {
    var t := s[1..];
    assert s[..L][0] == s[0];
    assert s[..L][1..] == t[..L - 1];
    assert L - 1 >= 1;
    MaxLenSpec(f, t, L - 1);
  }

  /** A delimited group that is skipped: no delimiter followed by a value
      the fragment accepts lets the rest match. */
  lemma DelimitedSkippedGreedy(atoms: seq<Atom>, s: string, d: char)
    requires |atoms| > 0 && atoms[0].Group? && atoms[0].form == Delimited(d)
    requires !(|s| > 0 && s[0] == d) ||
      TryLengths(atoms[0].name, [d], atoms[1..], s[1..], MaxLen(atoms[0].frag, s[1..])).None?
    requires MatchFrom(atoms, s).Some?
    ensures var caps := MatchFrom(atoms, s).value;
      |caps| > 0 && caps[0] == (atoms[0].name, "") &&
      MatchFrom(atoms[1..], s) == Some(caps[1..]) &&
      forall L :: 0 < L <= |s| && GroupAccepts(atoms[0].frag, Delimited(d), s[..L]) ==>
        MatchFrom(atoms[1..], s[L..]).None?
  {
    var n, f, rest := atoms[0].name, atoms[0].frag, atoms[1..];
    assert MatchFrom(atoms, s) == Skip(n, MatchFrom(rest, s));
    DelimitedSkippedCore(n, f, rest, s, d);
  }

  /** The failed search behind `DelimitedSkippedGreedy`. */
  lemma DelimitedSkippedCore(n: string, f: Fragment, rest: seq<Atom>, s: string, d: char)
    requires !(|s| > 0 && s[0] == d) || TryLengths(n, [d], rest, s[1..], MaxLen(f, s[1..])).None?
    ensures forall L :: 0 < L <= |s| && GroupAccepts(f, Delimited(d), s[..L]) ==>
      MatchFrom(rest, s[L..]).None?
  {
    if |s| > 0 && s[0] == d {
      TryLengthsNone(n, [d], rest, s[1..], MaxLen(f, s[1..]));
      forall L | 0 < L <= |s| && GroupAccepts(f, Delimited(d), s[..L])
        ensures MatchFrom(rest, s[L..]).None?
      {
        DelimitedAt(f, s, d, L);
      }
    } else {
      forall L | 0 < L <= |s| && GroupAccepts(f, Delimited(d), s[..L])
        ensures false
      {
        DelimitedAt(f, s, d, L);
      }
    }
  }

  /** `TryLengths` finds a match whenever some length up to `k` leads to one. */
  lemma {:induction false} TryLengthsComplete(n: string, lead: string, rest: seq<Atom>, s: string, k: nat, j: nat)
    requires 1 <= j <= k <= |s|
    requires MatchFrom(rest, s[j..]).Some?
    ensures TryLengths(n, lead, rest, s, k).Some?
    decreases k
  {
    if k > j && MatchFrom(rest, s[k..]).None? {
      TryLengthsComplete(n, lead, rest, s, k - 1, j);
    }
  }

  /** Whenever some parse exists, the backtracking search finds a match:
      together with soundness, `preg_match` succeeds exactly on the subjects
      that parse. */
  lemma {:induction false} MatchFromComplete(atoms: seq<Atom>, s: string, caps: Captures)
    requires Parses(atoms, s, caps)
    ensures MatchFrom(atoms, s).Some?
    decreases |atoms|
  {
    if |atoms| > 0 {
      match atoms[0]
      case Lit(c) => MatchFromComplete(atoms[1..], s[1..], caps);
      case AnyChar => MatchFromComplete(atoms[1..], s[1..], caps);
      case Group(n, f, form) =>
        var v := caps[0].1;
        MatchFromComplete(atoms[1..], s[|v|..], caps[1..]);
        GroupComplete(atoms, s, v);
    }
  }

  /** The group step of completeness: a value the group accepts, followed by
      a matching rest, makes the search succeed. */
  lemma GroupComplete(atoms: seq<Atom>, s: string, v: string)
    requires |atoms| > 0 && atoms[0].Group?
    requires v <= s && GroupAccepts(atoms[0].frag, atoms[0].form, v)
    requires MatchFrom(atoms[1..], s[|v|..]).Some?
    ensures MatchFrom(atoms, s).Some?
  {
    var n, f, j := atoms[0].name, atoms[0].frag, |v|;
    assert s[..j] == v;
    match atoms[0].form
    case Required =>
      MaxLenSpec(f, s, j);
      TryLengthsComplete(n, "", atoms[1..], s, MaxLen(f, s), j);
    case Optional =>
      if v != "" {
        MaxLenSpec(f, s, j);
        TryLengthsComplete(n, "", atoms[1..], s, MaxLen(f, s), j);
      }
    case Delimited(d) =>
      if v != "" {
        DelimitedComplete(atoms, s, v, d);
      }
  }

  lemma DelimitedComplete(atoms: seq<Atom>, s: string, v: string, d: char)
    requires |atoms| > 0 && atoms[0].Group? && atoms[0].form == Delimited(d)
    requires v <= s && v != "" && v[0] == d && Accepts(atoms[0].frag, v[1..])
    requires MatchFrom(atoms[1..], s[|v|..]).Some?
    ensures MatchFrom(atoms, s).Some?
  {
    var f, j := atoms[0].frag, |v|;
    var t := s[1..];
    assert v[1..] == t[..j - 1];
    assert s[|v|..] == t[j - 1..];
    if j - 1 >= 1 {
      MaxLenSpec(f, t, j - 1);
      TryLengthsComplete(atoms[0].name, [d], atoms[1..], t, MaxLen(f, t), j - 1);
    }
  }

  /** The names of a list of captures. */
  function CaptureNames(caps: Captures): (ns: seq<string>)
    ensures |ns| == |caps|
    ensures forall i :: 0 <= i < |caps| ==> ns[i] == caps[i].0
  {
    seq(|caps|, i requires 0 <= i < |caps| => caps[i].0)
  }

  /** A parse reports every group exactly once, in order. */
  lemma {:induction false} ParsesNames(atoms: seq<Atom>, s: string, caps: Captures)
    requires Parses(atoms, s, caps)
    ensures CaptureNames(caps) == GroupNames(atoms)
    decreases |atoms|
  {
    if |atoms| > 0 {
      match atoms[0]
      case Lit(c) => ParsesNames(atoms[1..], s[1..], caps);
      case AnyChar => ParsesNames(atoms[1..], s[1..], caps);
      case Group(n, f, form) =>
        ParsesNames(atoms[1..], s[|caps[0].1|..], caps[1..]);
        assert CaptureNames(caps) == [n] + CaptureNames(caps[1..]);
    }
  }
}

=== FILE: ordered_maps.dfy ===
/**
 PHP arrays used as dictionaries: an ordered association list in which every
 key occurs once, new keys are appended at the end and assigning to an existing
 key (`$a[$k] = $v`) replaces its value where it stands. Iteration order is
 the list order, which is what makes "first registered wins" observable.
 */
module OrderedMaps {
  import opened Wrappers

  type Assoc<K, V> = seq<(K, V)>

  /** The keys, in iteration order. */
  function Keys<K, V>(a: Assoc<K, V>): (ks: seq<K>)
    ensures |ks| == |a|
  {
    if |a| == 0 then [] else [a[0].0] + Keys(a[1..])
  }

  /** `array_key_exists($k, $a)`. */
  predicate HasKey<K(==), V>(a: Assoc<K, V>, k: K) {
    |a| > 0 && (a[0].0 == k || HasKey(a[1..], k))
  }

  /** The invariant of a PHP array: no key occurs twice. */
  predicate Unique<K(==), V>(a: Assoc<K, V>) {
    |a| == 0 || (!HasKey(a[1..], a[0].0) && Unique(a[1..]))
  }

  /** `$a[$k] ?? null`. */
  function Get<K(==), V>(a: Assoc<K, V>, k: K): (r: Option<V>)
    ensures r.Some? <==> HasKey(a, k)
  {
    if |a| == 0 then None
    else if a[0].0 == k then Some(a[0].1)
    else Get(a[1..], k)
  }

  /** `$a[$k] ?? $default`. */
  function GetOr<K(==), V>(a: Assoc<K, V>, k: K, default: V): (r: V)
    ensures HasKey(a, k) ==> r == Get(a, k).value
    ensures !HasKey(a, k) ==> r == default
  {
    match Get(a, k)
    case Some(v) => v
    case None => default
  }

  /** A key is present exactly when it is one of the keys. */
  lemma {:induction false} HasKeyIsKey<K, V>(a: Assoc<K, V>, k: K)
    ensures HasKey(a, k) <==> k in Keys(a)
    decreases |a|
  {
    if |a| > 0 {
      HasKeyIsKey(a[1..], k);
    }
  }

  /** In an array with unique keys, the entry at position `i` is what `Get`
      returns for its key. */
  lemma {:induction false} GetAt<K, V>(a: Assoc<K, V>, i: int)
    requires Unique(a)
    requires 0 <= i < |a|
    ensures Get(a, a[i].0) == Some(a[i].1)
    decreases |a|
  {
    if i > 0 {
      GetAt(a[1..], i - 1);
      assert a[1..][i - 1] == a[i];
      HasAt(a[1..], i - 1);
    }
  }

  /** The key at any position is present. */
  lemma {:induction false} HasAt<K, V>(a: Assoc<K, V>, i: int)
    requires 0 <= i < |a|
    ensures HasKey(a, a[i].0)
    decreases |a|
  {
    if i > 0 {
      HasAt(a[1..], i - 1);
      assert a[1..][i - 1] == a[i];
    }
  }

  /** `$a[$k] = $v`: the key keeps its position when present and is appended
      otherwise; the value under every other key is unchanged. */
  function Put<K(==,!new), V>(a: Assoc<K, V>, k: K, v: V): (r: Assoc<K, V>)
    ensures Get(r, k) == Some(v)
    ensures forall k' :: k' != k ==> Get(r, k') == Get(a, k')
    ensures forall k' :: HasKey(r, k') <==> HasKey(a, k') || k' == k
    ensures Keys(r) == if HasKey(a, k) then Keys(a) else Keys(a) + [k]
    ensures Unique(a) ==> Unique(r)
  {
    if |a| == 0 then [(k, v)]
    else if a[0].0 == k then [(k, v)] + a[1..]
    else
      var rest := Put(a[1..], k, v);
      var r := [a[0]] + rest;
      assert r[1..] == rest;
      r
  }

  /** Assigning every entry of `b` in order (`foreach ($b as $k => $v) $a[$k] = $v`),
      which is also `array_merge($a, $b)` when all keys are strings: `b`'s values
      win, `a`'s keys keep their places, new keys follow in `b`'s order. */
  function PutAll<K(==,!new), V>(a: Assoc<K, V>, b: Assoc<K, V>): (r: Assoc<K, V>)
    ensures Unique(b) ==> forall k :: Get(r, k) == if HasKey(b, k) then Get(b, k) else Get(a, k)
    ensures forall k :: HasKey(r, k) <==> HasKey(a, k) || HasKey(b, k)
    ensures Keys(a) <= Keys(r)
    ensures Unique(a) ==> Unique(r)
    decreases |b|
  {
    if |b| == 0 then a
    else
      var a' := Put(a, b[0].0, b[0].1);
      PutAll(a', b[1..])
  }

  /** `Put` of a new key appends it. */
  lemma {:induction false} PutAbsent<K(!new), V>(a: Assoc<K, V>, k: K, v: V)
    requires !HasKey(a, k)
    ensures Put(a, k, v) == a + [(k, v)]
    decreases |a|
  {
    if |a| > 0 {
      PutAbsent(a[1..], k, v);
      assert a == [a[0]] + a[1..];
    }
  }

  /** A key of `a + b` is a key of `a` or of `b`. */
  lemma {:induction false} HasKeyAppend<K, V>(a: Assoc<K, V>, b: Assoc<K, V>, k: K)
    ensures HasKey(a + b, k) <==> HasKey(a, k) || HasKey(b, k)
    decreases |a|
  {
    if |a| > 0 {
      assert (a + b)[1..] == a[1..] + b;
      HasKeyAppend(a[1..], b, k);
    } else {
      assert a + b == b;
    }
  }

  /** No key of `b` is a key of `a`. */
  ghost predicate Disjoint<K(!new), V>(a: Assoc<K, V>, b: Assoc<K, V>) {
    forall k :: HasKey(b, k) ==> !HasKey(a, k)
  }

  /** When none of `b`'s keys is in `a`, `PutAll` appends `b` to `a`. */
  lemma {:induction false} PutAllAppends<K(!new), V>(a: Assoc<K, V>, b: Assoc<K, V>)
    requires Unique(b) && Disjoint(a, b)
    ensures PutAll(a, b) == a + b
    decreases |b|
  {
    if |b| > 0 {
      AppendsStep(a, b);
      PutAllAppends(a + [b[0]], b[1..]);
    }
  }

  /** One step of `PutAllAppends`: the first entry of `b` moves onto `a`. */
  lemma AppendsStep<K(!new), V>(a: Assoc<K, V>, b: Assoc<K, V>)
    requires |b| > 0 && Unique(b) && Disjoint(a, b)
    ensures PutAll(a, b) == PutAll(a + [b[0]], b[1..])
    ensures Unique(b[1..]) && Disjoint(a + [b[0]], b[1..])
    ensures a + b == (a + [b[0]]) + b[1..]
  {
    FreshTail(a, b);
    PutAbsent(a, b[0].0, b[0].1);
    PutAllStep(a, b);
    Regroup(a, b);
  }


  /** `PutAll` assigns the first entry, then the rest. */
  lemma PutAllStep<K(!new), V>(a: Assoc<K, V>, b: Assoc<K, V>)
    requires |b| > 0
    ensures PutAll(a, b) == PutAll(Put(a, b[0].0, b[0].1), b[1..])
  {
  }

  /** Moving `b`'s first entry onto `a` keeps the remaining keys fresh. */
  lemma FreshTail<K(!new), V>(a: Assoc<K, V>, b: Assoc<K, V>)
    requires |b| > 0 && Unique(b) && Disjoint(a, b)
    ensures Disjoint(a + [b[0]], b[1..]) && !HasKey(a, b[0].0)
  {
    assert HasKey(b, b[0].0);
    forall k | HasKey(b[1..], k)
      ensures !HasKey(a + [b[0]], k)
    {
      assert HasKey(b, k);
      HasKeyAppend(a, [b[0]], k);
    }
  }

  /** Copying a well-formed array entry by entry into an empty one rebuilds it. */
  lemma PutAllIntoEmpty<K(!new), V>(b: Assoc<K, V>)
    requires Unique(b)
    ensures PutAll([], b) == b
  {
    PutAllAppends([], b);
  }

  /** The keys of `ks` that are not in `seen`, each at its first mention:
      the keys that assigning `ks` one after another adds to an array whose
      keys are `seen`, in the order they are added. */
  function NewKeys<K(==)>(seen: seq<K>, ks: seq<K>): seq<K>
    decreases |ks|
  {
    if |ks| == 0 then []
    else if ks[0] in seen then NewKeys(seen, ks[1..])
    else [ks[0]] + NewKeys(seen + [ks[0]], ks[1..])
  }

  /** `NewKeys` adds exactly the keys of `ks` that `seen` lacks. */
  lemma {:induction false} NewKeysCover<K>(seen: seq<K>, ks: seq<K>, x: K)
    ensures x in seen + NewKeys(seen, ks) <==> x in seen || x in ks
    decreases |ks|
  {
    if |ks| > 0 {
      assert ks == [ks[0]] + ks[1..];
      if ks[0] in seen {
        NewKeysCover(seen, ks[1..], x);
      } else {
        NewKeysCover(seen + [ks[0]], ks[1..], x);
        assert seen + NewKeys(seen, ks) == (seen + [ks[0]]) + NewKeys(seen + [ks[0]], ks[1..]);
      }
    }
  }

  /** Mentioning one more key adds it at the end, unless it was seen before. */
  lemma {:induction false} NewKeysSnoc<K>(seen: seq<K>, ks: seq<K>, x: K)
    ensures NewKeys(seen, ks + [x]) == NewKeys(seen, ks) + (if x in seen || x in ks then [] else [x])
    decreases |ks|
  {
    if |ks| == 0 {
      assert ks + [x] == [x];
      assert [x][1..] == [];
    } else {
      var y := ks[0];
      assert (ks + [x])[0] == y && (ks + [x])[1..] == ks[1..] + [x];
      assert ks == [y] + ks[1..];
      if y in seen {
        NewKeysSnoc(seen, ks[1..], x);
      } else {
        NewKeysSnoc(seen + [y], ks[1..], x);
      }
    }
  }

  /** Mentioning a key first: it is new unless `seen` holds it. */
  lemma NewKeysCons<K>(seen: seq<K>, k: K, ks: seq<K>)
    ensures seen + NewKeys(seen, [k]) + NewKeys(seen + NewKeys(seen, [k]), ks) ==
      seen + NewKeys(seen, [k] + ks)
  {
    assert ([k] + ks)[0] == k && ([k] + ks)[1..] == ks;
    assert [k][1..] == [];
    if k in seen {
      assert NewKeys(seen, [k]) == [];
      assert seen + [] == seen;
    } else {
      assert NewKeys(seen, [k]) == [k];
    }
  }

  /** One assignment keeps an array's keys in first-mention order. */
  lemma PutFirstMention<K(!new), V>(r: Assoc<K, V>, seen: seq<K>, ks: seq<K>, k: K, v: V)
    requires Keys(r) == seen + NewKeys(seen, ks)
    ensures Keys(Put(r, k, v)) == seen + NewKeys(seen, ks + [k])
  {
    HasKeyIsKey(r, k);
    NewKeysCover(seen, ks, k);
    NewKeysSnoc(seen, ks, k);
  }

  /** `PutAll` keeps `a`'s keys where they are and appends `b`'s new keys in
      the order `b` first mentions them. */
  lemma {:induction false} PutAllKeys<K(!new), V>(a: Assoc<K, V>, b: Assoc<K, V>)
    ensures Keys(PutAll(a, b)) == Keys(a) + NewKeys(Keys(a), Keys(b))
    decreases |b|
  {
    if |b| > 0 {
      var k, ks := b[0].0, Keys(b[1..]);
      var a' := Put(a, k, b[0].1);
      assert Keys(a') == Keys(a) + NewKeys(Keys(a), [k]) by {
        HasKeyIsKey(a, k);
        assert [k][1..] == [];
      }
      calc {
        Keys(PutAll(a, b));
        { PutAllStep(a, b); }
        Keys(PutAll(a', b[1..]));
        { PutAllKeys(a', b[1..]); }
        Keys(a') + NewKeys(Keys(a'), ks);
        { NewKeysCons(Keys(a), k, ks); }
        Keys(a) + NewKeys(Keys(a), [k] + ks);
      }
      assert Keys(b) == [k] + ks;
    }
  }
}

/**
 PHP arrays whose keys may be integers or strings, as the middleware
 configuration is written: `['auth', 'throttle' => '60,1']` has the integer
 key 0 and the string key `throttle`.
 */
module PhpArrays {
  import opened Wrappers
  import opened OrderedMaps

  /** An array key. A string that PHP casts to an integer when it is used as
      a key (`PhpStrings.IsIntegerKey`: `"5"`, `"-7"`) is written `Index`,
      never `Name`, because PHP stores `'5'` as the integer 5; `Name` holds
      only the keys that stay strings. */
  datatype Key = Index(i: int) | Name(s: string)

  /** The values stored under integer keys, in order. */
  function Positional<V>(a: Assoc<Key, V>): seq<V>
  {
    if |a| == 0 then []
    else if a[0].0.Index? then [a[0].1] + Positional(a[1..])
    else Positional(a[1..])
  }

  /** The integer keys, in order. */
  function Indices<V>(a: Assoc<Key, V>): (r: seq<int>)
    ensures |r| == |Positional(a)|
  {
    if |a| == 0 then []
    else if a[0].0.Index? then [a[0].0.i] + Indices(a[1..])
    else Indices(a[1..])
  }

  /** `0, 1, ..., n - 1`. */
  function Range(n: nat): (r: seq<int>)
    ensures |r| == n
    ensures forall i :: 0 <= i < n ==> r[i] == i
  {
    if n == 0 then [] else Range(n - 1) + [n - 1]
  }

  /** An array in the shape `array_merge` returns: its keys are unique and its
      integer keys are `0, 1, 2, ...` in order. */
  predicate Renumbered<V>(a: Assoc<Key, V>) {
    Unique(a) && Indices(a) == Range(|Positional(a)|)
  }

  lemma {:induction false} PositionalAppend<V>(a: Assoc<Key, V>, b: Assoc<Key, V>)
    ensures Positional(a + b) == Positional(a) + Positional(b)
    ensures Indices(a + b) == Indices(a) + Indices(b)
    decreases |a|
  {
    if |a| > 0 {
      assert (a + b)[0] == a[0];
      assert (a + b)[1..] == a[1..] + b;
      PositionalAppend(a[1..], b);
    } else {
      assert a + b == b;
    }
  }

  /** An integer key of `a` is among its indices. */
  lemma {:induction false} IndexInIndices<V>(a: Assoc<Key, V>, j: int)
    requires HasKey(a, Index(j))
    ensures j in Indices(a)
    decreases |a|
  {
    if a[0].0 != Index(j) {
      IndexInIndices(a[1..], j);
    }
  }

  /** Assigning to a string key does not disturb the integer-keyed entries. */
  lemma {:induction false} PutNameKeepsPositional<V>(a: Assoc<Key, V>, s: string, v: V)
    ensures Positional(Put(a, Name(s), v)) == Positional(a)
    ensures Indices(Put(a, Name(s), v)) == Indices(a)
    decreases |a|
  {
    if |a| > 0 && a[0].0 != Name(s) {
      PutNameKeepsPositional(a[1..], s, v);
      assert Put(a, Name(s), v)[1..] == Put(a[1..], Name(s), v);
    }
  }

  /** One step of `array_merge`: an integer-keyed value gets the next free
      index, a string-keyed one is assigned. */
  function MergeEntry<V>(acc: Assoc<Key, V>, e: (Key, V)): Assoc<Key, V>
  {
    match e.0
    case Index(_) => acc + [(Index(|Positional(acc)|), e.1)]
    case Name(s) => Put(acc, Name(s), e.1)
  }

  /** A key not in `a` can be appended without breaking uniqueness. */
  lemma {:induction false} UniqueAppend<K, V>(a: Assoc<K, V>, e: (K, V))
    requires Unique(a) && !HasKey(a, e.0)
    ensures Unique(a + [e])
    decreases |a|
  {
    if |a| > 0 {
      assert (a + [e])[1..] == a[1..] + [e];
      UniqueAppend(a[1..], e);
      HasKeyAppend(a[1..], [e], a[0].0);
    }
  }

  lemma MergeEntryRenumbered<V>(acc: Assoc<Key, V>, e: (Key, V))
    requires Renumbered(acc)
    ensures Renumbered(MergeEntry(acc, e))
    ensures Positional(MergeEntry(acc, e)) == Positional(acc) + (if e.0.Index? then [e.1] else [])
  {
    match e.0
    case Index(_) => {
      var n := |Positional(acc)|;
      PositionalAppend(acc, [(Index(n), e.1)]);
      if HasKey(acc, Index(n)) {
        IndexInIndices(acc, n);
        assert false;
      }
      UniqueAppend(acc, (Index(n), e.1));
      assert Range(n + 1) == Range(n) + [n];
    }
    case Name(s) => {
      PutNameKeepsPositional(acc, s, e.1);
    }
  }

  /** Folds `MergeEntry` over `xs`. */
  function MergeAll<V>(acc: Assoc<Key, V>, xs: Assoc<Key, V>): Assoc<Key, V>
    decreases |xs|
  {
    if |xs| == 0 then acc else MergeAll(MergeEntry(acc, xs[0]), xs[1..])
  }

  lemma {:induction false} MergeAllShape<V>(acc: Assoc<Key, V>, xs: Assoc<Key, V>)
    requires Renumbered(acc)
    ensures Renumbered(MergeAll(acc, xs))
    ensures Positional(MergeAll(acc, xs)) == Positional(acc) + Positional(xs)
    decreases |xs|
  {
    if |xs| > 0 {
      var acc' := MergeEntry(acc, xs[0]);
      var head := if xs[0].0.Index? then [xs[0].1] else [];
      MergeEntryRenumbered(acc, xs[0]);
      assert Positional(acc') == Positional(acc) + head;
      MergeAllShape(acc', xs[1..]);
      assert MergeAll(acc, xs) == MergeAll(acc', xs[1..]);
      assert Positional(xs) == head + Positional(xs[1..]);
      assert Positional(acc) + head + Positional(xs[1..]) == Positional(acc) + Positional(xs);
    }
  }

  lemma {:induction false} GetAppendOther<K, V>(a: Assoc<K, V>, e: (K, V), k: K)
    requires e.0 != k
    ensures Get(a + [e], k) == Get(a, k)
    decreases |a|
  {
    if |a| > 0 {
      assert (a + [e])[1..] == a[1..] + [e];
      GetAppendOther(a[1..], e, k);
    }
  }

  /** What one merge step does to the value under a string key. */
  lemma MergeEntryName<V>(acc: Assoc<Key, V>, e: (Key, V), s: string)
    ensures Get(MergeEntry(acc, e), Name(s)) == if e.0 == Name(s) then Some(e.1) else Get(acc, Name(s))
  {
    if e.0.Index? {
      GetAppendOther(acc, (Index(|Positional(acc)|), e.1), Name(s));
    }
  }

  lemma {:induction false} MergeAllName<V>(acc: Assoc<Key, V>, xs: Assoc<Key, V>, s: string)
    requires Unique(xs)
    ensures Get(MergeAll(acc, xs), Name(s)) == if HasKey(xs, Name(s)) then Get(xs, Name(s)) else Get(acc, Name(s))
    decreases |xs|
  {
    if |xs| > 0 {
      var acc' := MergeEntry(acc, xs[0]);
      MergeEntryName(acc, xs[0], s);
      MergeAllName(acc', xs[1..], s);
    }
  }

  lemma ArrayMergeNames<V>(a: Assoc<Key, V>, b: Assoc<Key, V>)
    requires Unique(a) && Unique(b)
    ensures forall s :: (Get(MergeAll(MergeAll([], a), b), Name(s)) ==
      if HasKey(b, Name(s)) then Get(b, Name(s)) else Get(a, Name(s)))
  {
    forall s | true
      ensures Get(MergeAll(MergeAll([], a), b), Name(s)) ==
        if HasKey(b, Name(s)) then Get(b, Name(s)) else Get(a, Name(s))
    {
      MergeAllName([], a, s);
      MergeAllName(MergeAll([], a), b, s);
    }
  }

  /** The key order of an array up to renumbering: `None` for an integer key,
      the name for a string key. */
  function Layout(ks: seq<Key>): (r: seq<Option<string>>)
    ensures |r| == |ks|
  {
    if |ks| == 0 then []
    else [if ks[0].Index? then None else Some(ks[0].s)] + Layout(ks[1..])
  }

  lemma {:induction false} LayoutConcat(x: seq<Key>, y: seq<Key>)
    ensures Layout(x + y) == Layout(x) + Layout(y)
    decreases |x|
  {
    if |x| > 0 {
      assert (x + y)[1..] == x[1..] + y;
      LayoutConcat(x[1..], y);
    } else {
      assert x + y == y;
    }
  }

  /** The entries of `b` that `array_merge($a, $b)` adds after `a`'s: every
      integer-keyed one, and each string-keyed one whose key `a` lacks. */
  function Appended<V>(a: Assoc<Key, V>, b: Assoc<Key, V>): Assoc<Key, V>
    decreases |b|
  {
    if |b| == 0 then []
    else (if b[0].0.Index? || !HasKey(a, b[0].0) then [b[0]] else []) + Appended(a, b[1..])
  }

  lemma {:induction false} KeysAppend<K, V>(a: Assoc<K, V>, b: Assoc<K, V>)
    ensures Keys(a + b) == Keys(a) + Keys(b)
    decreases |a|
  {
    if |a| > 0 {
      assert (a + b)[1..] == a[1..] + b;
      KeysAppend(a[1..], b);
    } else {
      assert a + b == b;
    }
  }

  /** The layout of an array with entries appended. */
  lemma LayoutAppend<V>(a: Assoc<Key, V>, b: Assoc<Key, V>)
    ensures Layout(Keys(a + b)) == Layout(Keys(a)) + Layout(Keys(b))
  {
    KeysAppend(a, b);
    LayoutConcat(Keys(a), Keys(b));
  }

  /** One merge step appends an integer-keyed entry or a new string key, and
      leaves the layout alone for a string key already present. */
  lemma MergeEntryLayout<V>(acc: Assoc<Key, V>, e: (Key, V))
    ensures Layout(Keys(MergeEntry(acc, e))) ==
      Layout(Keys(acc)) + Layout(Keys(if e.0.Index? || !HasKey(acc, e.0) then [e] else []))
  {
    match e.0
    case Index(_) => {
      LayoutAppend(acc, [(Index(|Positional(acc)|), e.1)]);
    }
    case Name(s) => {
      if !HasKey(acc, e.0) {
        assert Keys([e]) == [e.0];
        LayoutConcat(Keys(acc), [e.0]);
      } else {
        assert Keys<Key, V>([]) == [];
      }
    }
  }

  /** `Appended(a, ys)` depends only on which of `ys`'s string keys `a` holds. */
  lemma {:induction false} AppendedFrame<V>(a1: Assoc<Key, V>, a2: Assoc<Key, V>, ys: Assoc<Key, V>)
    requires forall k :: HasKey(ys, k) && k.Name? ==> (HasKey(a1, k) <==> HasKey(a2, k))
    ensures Appended(a1, ys) == Appended(a2, ys)
    decreases |ys|
  {
    if |ys| > 0 {
      assert HasKey(ys, ys[0].0);
      AppendedFrame(a1, a2, ys[1..]);
    }
  }

  /** Nothing is in the empty array, so every entry is appended. */
  lemma {:induction false} AppendedToEmpty<V>(b: Assoc<Key, V>)
    ensures Appended([], b) == b
    decreases |b|
  {
    if |b| > 0 {
      AppendedToEmpty(b[1..]);
      assert b == [b[0]] + b[1..];
    }
  }

  /** After one merge step, the remaining keys of a well-formed `xs` see the
      same string keys in the accumulator as before it. */
  lemma MergeEntryFrame<V>(acc: Assoc<Key, V>, xs: Assoc<Key, V>)
    requires |xs| > 0 && Unique(xs)
    ensures Appended(MergeEntry(acc, xs[0]), xs[1..]) == Appended(acc, xs[1..])
  {
    var acc' := MergeEntry(acc, xs[0]);
    forall k | HasKey(xs[1..], k) && k.Name?
      ensures HasKey(acc', k) <==> HasKey(acc, k)
    {
      if xs[0].0.Index? {
        HasKeyAppend(acc, [(Index(|Positional(acc)|), xs[0].1)], k);
      }
    }
    AppendedFrame(acc', acc, xs[1..]);
  }

  /** Merging a well-formed `xs` into `acc` keeps `acc`'s layout and appends
      the layout of what `Appended` selects. */
  lemma {:induction false} MergeAllLayout<V>(acc: Assoc<Key, V>, xs: Assoc<Key, V>)
    requires Unique(xs)
    ensures Layout(Keys(MergeAll(acc, xs))) == Layout(Keys(acc)) + Layout(Keys(Appended(acc, xs)))
    decreases |xs|
  {
    if |xs| > 0 {
      var acc' := MergeEntry(acc, xs[0]);
      var head := if xs[0].0.Index? || !HasKey(acc, xs[0].0) then [xs[0]] else [];
      var tail := Appended(acc, xs[1..]);
      calc {
        Layout(Keys(MergeAll(acc, xs)));
        Layout(Keys(MergeAll(acc', xs[1..])));
        { MergeAllLayout(acc', xs[1..]); MergeEntryFrame(acc, xs); }
        Layout(Keys(acc')) + Layout(Keys(tail));
        { MergeEntryLayout(acc, xs[0]); }
        Layout(Keys(acc)) + Layout(Keys(head)) + Layout(Keys(tail));
        { LayoutAppend(head, tail); }
        Layout(Keys(acc)) + Layout(Keys(head + tail));
        { assert Appended(acc, xs) == head + tail; }
        Layout(Keys(acc)) + Layout(Keys(Appended(acc, xs)));
      }
    }
  }

  /** `array_merge` keeps `a`'s keys in order and appends, in order, `b`'s
      integer-keyed entries and its string keys that `a` lacks. */
  lemma ArrayMergeLayout<V>(a: Assoc<Key, V>, b: Assoc<Key, V>)
    requires Unique(a) && Unique(b)
    ensures Layout(Keys(ArrayMerge(a, b))) == Layout(Keys(a)) + Layout(Keys(Appended(a, b)))
  {
    var m := MergeAll([], a);
    assert ArrayMerge(a, b) == MergeAll(m, b);
    assert Layout(Keys(m)) == Layout(Keys(a)) by {
      MergeAllLayout([], a);
      AppendedToEmpty(a);
      assert Layout(Keys<Key, V>([])) == [];
    }
    assert Appended(m, b) == Appended(a, b) by {
      MergedNames(a);
      AppendedFrame(m, a, b);
    }
    MergeAllLayout(m, b);
  }

  /** Merging a well-formed `a` into nothing keeps exactly its string keys. */
  lemma MergedNames<V>(a: Assoc<Key, V>)
    requires Unique(a)
    ensures forall k: Key :: k.Name? ==> (HasKey(MergeAll([], a), k) <==> HasKey(a, k))
  {
    forall k: Key | k.Name?
      ensures HasKey(MergeAll([], a), k) <==> HasKey(a, k)
    {
      MergeAllName([], a, k.s);
    }
  }

  /** `array_merge($a, $b)`: integer-keyed values of `a` then of `b` are
      renumbered from 0 and kept in order; string keys are assigned in order,
      so `b` wins on a shared string key and `a` keeps the others. */
  function ArrayMerge<V>(a: Assoc<Key, V>, b: Assoc<Key, V>): (r: Assoc<Key, V>)
    ensures Renumbered(r)
    ensures Positional(r) == Positional(a) + Positional(b)
    ensures Unique(a) && Unique(b) ==>
      forall s :: Get(r, Name(s)) == if HasKey(b, Name(s)) then Get(b, Name(s)) else Get(a, Name(s))
  {
    var m := MergeAll([], a);
    MergeAllShape([], a);
    MergeAllShape(m, b);
    assert Positional<V>([]) == [];
    assert Positional(m) == Positional(a);
    assert Unique(a) && Unique(b) ==>
      forall s :: Get(MergeAll(m, b), Name(s)) == if HasKey(b, Name(s)) then Get(b, Name(s)) else Get(a, Name(s)) by {
      if Unique(a) && Unique(b) {
        ArrayMergeNames(a, b);
      }
    }
    MergeAll(m, b)
  }
}

=== FILE: patterns.dfy ===
/**
 The rule compiler of `Route` (`quite`, `replace`, `makePattern`).

 The pattern is kept as a sequence of tokens instead of a PCRE string. A
 `Ch` token is one character of the pattern text exactly as PHP builds it,
 escape backslashes included; a `Cap` token stands for the whole text of a
 named group that `replace` inserted. Group text never contains a brace, so
 no later search for a `{name}` placeholder can match inside or across it, and
 `str_replace` over tokens is `str_replace` over the PHP string.
 */
module Patterns {
  import opened Wrappers
  import opened PhpStrings
  import opened OrderedMaps

  /** The constraint fragments the model supports: `\w+` (the default),
      `\d+`, and `[1-9]\d*` (the Resource `id` constraint). */
  datatype Fragment = Word | Digits | PositiveInt

  /** How a group wraps its fragment F:
      `(?<n>F)`, `(?<n>(F)?)`, or `(?<n>(\dF)?)` for a delimiter d. */
  datatype Form = Required | Optional | Delimited(delim: char)

  /** One unit of pattern text: a character, or an inserted named group. */
  datatype PTok = Ch(c: char) | Cap(name: string, frag: Fragment, form: Form)

  /** A string as pattern text. */
  function Chars(s: string): (r: seq<PTok>)
    ensures |r| == |s|
    ensures forall i :: 0 <= i < |s| ==> r[i] == Ch(s[i])
  {
    seq(|s|, i requires 0 <= i < |s| => Ch(s[i]))
  }

  lemma CharsAppend(a: string, b: string)
    ensures Chars(a + b) == Chars(a) + Chars(b)
  {
  }

  /** The escaped form of one rule character. */
  function QuiteChar(c: char): string
  {
    if c == '/' || c == '-' then ['\\', c] else [c]
  }

  /** `quite`: `str_replace(['/', '-'], ['\/', '\-'], $rule)`. The two
      replacements PHP performs one after the other do not interact (the
      first inserts no `-`), so each character is escaped on its own. */
  function Quite(rule: string): string
  {
    if |rule| == 0 then "" else QuiteChar(rule[0]) + Quite(rule[1..])
  }

  /** How PCRE reads the escapes of literal text: `\x` stands for `x`. */
  function Unquote(p: string): string
    decreases |p|
  {
    if |p| >= 2 && p[0] == '\\' then [p[1]] + Unquote(p[2..])
    else if |p| > 0 then [p[0]] + Unquote(p[1..])
    else ""
  }

  lemma {:induction false} QuiteAppend(a: string, b: string)
    ensures Quite(a + b) == Quite(a) + Quite(b)
    decreases |a|
  {
    if |a| > 0 {
      assert (a + b)[0] == a[0];
      assert (a + b)[1..] == a[1..] + b;
      QuiteAppend(a[1..], b);
    } else {
      assert a + b == b;
    }
  }

  /** `quite` loses nothing: reading its escapes back gives the rule, for any
      rule without a backslash of its own. */
  lemma {:induction false} QuiteRoundTrip(rule: string)
    requires '\\' !in rule
    ensures Unquote(Quite(rule)) == rule
    decreases |rule|
  {
    if |rule| > 0 {
      var q := Quite(rule);
      assert q == QuiteChar(rule[0]) + Quite(rule[1..]);
      QuiteRoundTrip(rule[1..]);
      if rule[0] == '/' || rule[0] == '-' {
        assert q[0] == '\\' && q[1] == rule[0];
        assert q[2..] == Quite(rule[1..]);
      } else {
        assert q[0] == rule[0];
        assert q[1..] == Quite(rule[1..]);
        if |q| >= 2 {
          assert q[0] != '\\';
        }
      }
      assert rule == [rule[0]] + rule[1..];
    }
  }

  /** Exactly the `/` and `-` characters gain an escape. */
  lemma {:induction false} QuiteLength(rule: string)
    ensures |Quite(rule)| == |rule| + |EscapedChars(rule)|
    decreases |rule|
  {
    if |rule| > 0 {
      QuiteLength(rule[1..]);
    }
  }

  /** The characters of `rule` that `quite` escapes, in order. */
  function EscapedChars(rule: string): (r: string)
    ensures forall i :: 0 <= i < |r| ==> r[i] == '/' || r[i] == '-'
  {
    if |rule| == 0 then ""
    else (if rule[0] == '/' || rule[0] == '-' then [rule[0]] else "") + EscapedChars(rule[1..])
  }

  /** A rule without `/` or `-` is its own escaped form. */
  lemma {:induction false} QuiteIdentity(rule: string)
    requires '/' !in rule && '-' !in rule
    ensures Quite(rule) == rule
    decreases |rule|
  {
    if |rule| > 0 {
      QuiteIdentity(rule[1..]);
      assert rule == [rule[0]] + rule[1..];
    }
  }

  /** `str_contains($p, $nd)`. */
  predicate Contains(p: seq<PTok>, nd: seq<PTok>)
    decreases |p|
  {
    nd <= p || (|p| > 0 && Contains(p[1..], nd))
  }

  /** `str_replace($nd, t, $p)`: scans left to right and replaces every
      non-overlapping occurrence of `nd` by the token `t`. */
  function ReplaceAll(p: seq<PTok>, nd: seq<PTok>, t: PTok): seq<PTok>
    requires |nd| > 0
    decreases |p|
  {
    if |p| == 0 then []
    else if nd <= p then [t] + ReplaceAll(p[|nd|..], nd, t)
    else [p[0]] + ReplaceAll(p[1..], nd, t)
  }

  /** Every token `t` read back as the text `nd`. */
  function Expand(p: seq<PTok>, t: PTok, nd: seq<PTok>): seq<PTok>
  {
    if |p| == 0 then []
    else (if p[0] == t then nd else [p[0]]) + Expand(p[1..], t, nd)
  }

  /** Without an occurrence, `str_replace` changes nothing. */
  lemma {:induction false} ReplaceAllAbsent(p: seq<PTok>, nd: seq<PTok>, t: PTok)
    requires |nd| > 0
    requires !Contains(p, nd)
    ensures ReplaceAll(p, nd, t) == p
    decreases |p|
  {
    if |p| > 0 {
      ReplaceAllAbsent(p[1..], nd, t);
      assert p == [p[0]] + p[1..];
    }
  }

  /** `str_replace` is undone by expanding the inserted token again, provided
      that token did not already occur. */
  lemma {:induction false} ReplaceAllRoundTrip(p: seq<PTok>, nd: seq<PTok>, t: PTok)
    requires |nd| > 0
    requires t !in p
    ensures Expand(ReplaceAll(p, nd, t), t, nd) == p
    decreases |p|
  {
    if |p| > 0 {
      if nd <= p {
        assert t !in p[|nd|..] by {
          NotInSuffix(p, t, |nd|);
        }
        ReplaceAllRoundTrip(p[|nd|..], nd, t);
        RoundTripHit(p, nd, t);
      } else {
        ReplaceAllRoundTrip(p[1..], nd, t);
        RoundTripMiss(p, nd, t);
      }
    }
  }

  lemma NotInSuffix(p: seq<PTok>, t: PTok, k: nat)
    requires t !in p && k <= |p|
    ensures t !in p[k..]
  {
    forall i | 0 <= i < |p| - k
      ensures p[k..][i] != t
    {
      assert p[k..][i] == p[k + i];
    }
  }

  /** The round trip where the search text starts the input. */
  lemma RoundTripHit(p: seq<PTok>, nd: seq<PTok>, t: PTok)
    requires |nd| > 0 && |p| > 0 && nd <= p
    requires Expand(ReplaceAll(p[|nd|..], nd, t), t, nd) == p[|nd|..]
    ensures Expand(ReplaceAll(p, nd, t), t, nd) == p
  {
    var rest := p[|nd|..];
    var r := [t] + ReplaceAll(rest, nd, t);
    assert ReplaceAll(p, nd, t) == r;
    assert r[1..] == ReplaceAll(rest, nd, t);
    assert Expand(r, t, nd) == nd + rest;
    assert p == nd + rest;
  }

  /** The round trip where it does not: the first token is kept. */
  lemma RoundTripMiss(p: seq<PTok>, nd: seq<PTok>, t: PTok)
    requires |nd| > 0 && |p| > 0 && !(nd <= p) && p[0] != t
    requires Expand(ReplaceAll(p[1..], nd, t), t, nd) == p[1..]
    ensures Expand(ReplaceAll(p, nd, t), t, nd) == p
  {
    var r := [p[0]] + ReplaceAll(p[1..], nd, t);
    assert ReplaceAll(p, nd, t) == r;
    assert r[1..] == ReplaceAll(p[1..], nd, t);
    assert p == [p[0]] + p[1..];
  }

  /** A prefix of the replaced text that avoids `t` was already a prefix of
      the original. */
  lemma {:induction false} PrefixThroughReplace(p: seq<PTok>, nd: seq<PTok>, t: PTok, q: seq<PTok>)
    requires |nd| > 0
    requires t !in q
    requires q <= ReplaceAll(p, nd, t)
    ensures q <= p
    decreases |p|
  {
    if |q| > 0 && |p| > 0 {
      assert q[0] != t;
      if nd <= p {
        assert false;
      } else {
        var r := [p[0]] + ReplaceAll(p[1..], nd, t);
        assert q[0] == p[0];
        assert q[1..] <= r[1..];
        assert r[1..] == ReplaceAll(p[1..], nd, t);
        PrefixThroughReplace(p[1..], nd, t, q[1..]);
        assert q == [q[0]] + q[1..];
        assert p == [p[0]] + p[1..];
      }
    }
  }

  /** `str_replace` leaves no occurrence of the search text behind when the
      replacement token is not part of it: all occurrences are replaced. */
  lemma {:induction false} ReplaceAllRemovesAll(p: seq<PTok>, nd: seq<PTok>, t: PTok)
    requires |nd| > 0
    requires t !in nd
    ensures !Contains(ReplaceAll(p, nd, t), nd)
    decreases |p|
  {
    if |p| > 0 {
      var r := ReplaceAll(p, nd, t);
      if nd <= p {
        ReplaceAllRemovesAll(p[|nd|..], nd, t);
        assert r[1..] == ReplaceAll(p[|nd|..], nd, t);
        assert r[0] == t && nd[0] != t;
      } else {
        ReplaceAllRemovesAll(p[1..], nd, t);
        assert r[1..] == ReplaceAll(p[1..], nd, t);
        if nd <= r {
          PrefixThroughReplace(p, nd, t, nd);
        }
      }
    }
  }

  /** The four search texts of `replace` for a placeholder name. */
  datatype Shape = SlashOptional | DashOptional | BareOptional | BareRequired

  /** `\/{name?}`, `\-{name?}`, `{name?}` and `{name}`. */
  function Needle(name: string, sh: Shape): (nd: seq<PTok>)
    ensures |nd| >= 2
  {
    match sh
    case SlashOptional => Chars("\\/{" + name + "?}")
    case DashOptional => Chars("\\-{" + name + "?}")
    case BareOptional => Chars("{" + name + "?}")
    case BareRequired => Chars("{" + name + "}")
  }

  /** The pattern under construction, with the delimiter recorded for each
      delimited optional parameter (`Route::$prefixes`). */
  datatype Compiled = Compiled(pattern: seq<PTok>, prefixes: map<string, char>)

  /** `replace($name, $preg)`: the first of the four forms that occurs decides,
      and all of its occurrences are replaced by the group. */
  function Replace(c: Compiled, name: string, frag: Fragment): Compiled
  {
    var p := c.pattern;
    if Contains(p, Needle(name, SlashOptional)) then
      Compiled(ReplaceAll(p, Needle(name, SlashOptional), Cap(name, frag, Delimited('/'))), c.prefixes[name := '/'])
    else if Contains(p, Needle(name, DashOptional)) then
      Compiled(ReplaceAll(p, Needle(name, DashOptional), Cap(name, frag, Delimited('-'))), c.prefixes[name := '-'])
    else if Contains(p, Needle(name, BareOptional)) then
      Compiled(ReplaceAll(p, Needle(name, BareOptional), Cap(name, frag, Optional)), c.prefixes)
    else
      Compiled(ReplaceAll(p, Needle(name, BareRequired), Cap(name, frag, Required)), c.prefixes)
  }

  /** The form `replace` picks for `name` in pattern `p`. */
  function ChosenShape(p: seq<PTok>, name: string): Shape
  {
    if Contains(p, Needle(name, SlashOptional)) then SlashOptional
    else if Contains(p, Needle(name, DashOptional)) then DashOptional
    else if Contains(p, Needle(name, BareOptional)) then BareOptional
    else BareRequired
  }

  /** After `replace`, the chosen form no longer occurs, and a delimiter is
      recorded exactly when a delimited form was chosen. */
  lemma ReplaceEffect(c: Compiled, name: string, frag: Fragment)
    ensures !Contains(Replace(c, name, frag).pattern, Needle(name, ChosenShape(c.pattern, name)))
    ensures ChosenShape(c.pattern, name) == SlashOptional ==> Replace(c, name, frag).prefixes == c.prefixes[name := '/']
    ensures ChosenShape(c.pattern, name) == DashOptional ==> Replace(c, name, frag).prefixes == c.prefixes[name := '-']
    ensures ChosenShape(c.pattern, name) in {BareOptional, BareRequired} ==> Replace(c, name, frag).prefixes == c.prefixes
  {
    var sh := ChosenShape(c.pattern, name);
    var t := Cap(name, frag, match sh
      case SlashOptional => Delimited('/')
      case DashOptional => Delimited('-')
      case BareOptional => Optional
      case BareRequired => Required);
    assert t !in Needle(name, sh);
    ReplaceAllRemovesAll(c.pattern, Needle(name, sh), t);
  }

  /** The longest run of word characters at the start of `p`. */
  function WordRun(p: seq<PTok>): (w: string)
    ensures |w| <= |p|
    ensures forall i :: 0 <= i < |w| ==> p[i] == Ch(w[i]) && IsWordChar(w[i])
    ensures |w| < |p| ==> !(p[|w|].Ch? && IsWordChar(p[|w|].c))
  {
    if |p| > 0 && p[0].Ch? && IsWordChar(p[0].c) then [p[0].c] + WordRun(p[1..]) else ""
  }

  /** The regular expression `{(\w+)\??}` tried at the start of `p`: the name
      and the length of the match. */
  function ScanAt(p: seq<PTok>): (r: Option<(string, nat)>)
    requires |p| > 0
    ensures r.Some? ==> IsWord(r.value.0) && 3 <= r.value.1 <= |p|
  {
    if p[0] != Ch('{') then None
    else
      var w := WordRun(p[1..]);
      var k := 1 + |w|;
      var k' := if k < |p| && p[k] == Ch('?') then k + 1 else k;
      if |w| > 0 && k' < |p| && p[k'] == Ch('}') then Some((w, k' + 1)) else None
  }

  /** `preg_match_all('/{(\w+)\??}/', $p)[1]`: the names of the placeholders
      left in the pattern, left to right, repeats included. */
  function Scan(p: seq<PTok>): (names: seq<string>)
    ensures forall i :: 0 <= i < |names| ==> IsWord(names[i])
    decreases |p|
  {
    if |p| == 0 then []
    else match ScanAt(p)
      case Some((w, n)) => [w] + Scan(p[n..])
      case None => Scan(p[1..])
  }

  /** `array_walk($where, fn($preg, $name) => replace($name, $preg))`. */
  function ApplyWhere(c: Compiled, where: Assoc<string, Fragment>): Compiled
    decreases |where|
  {
    if |where| == 0 then c else ApplyWhere(Replace(c, where[0].0, where[0].1), where[1..])
  }

  /** `array_map([$this, 'replace'], $names)`: the default fragment `\w+`. */
  function ApplyDefaults(c: Compiled, names: seq<string>): Compiled
    decreases |names|
  {
    if |names| == 0 then c else ApplyDefaults(Replace(c, names[0], Word), names[1..])
  }

  /** `makePattern`: escape, apply the constraints in array order, then give
      every placeholder still present the default fragment. The anchors
      `^...$` are part of how `Matching` reads the result. */
  function MakePattern(rule: string, where: Assoc<string, Fragment>): Compiled
  {
    var c1 := ApplyWhere(Compiled(Chars(Quite(rule)), map[]), where);
    ApplyDefaults(c1, Scan(c1.pattern))
  }
}

=== FILE: php_strings.dfy ===
/** The optional value the router returns where PHP returns `null`, and two
    facts about sequences used throughout. */
module Wrappers {

  datatype Option<T> = None | Some(value: T)

  /** Moving the first element of `b` to the end of `a`. */
  lemma Regroup<T>(a: seq<T>, b: seq<T>)
    requires |b| > 0
    ensures a + b == (a + [b[0]]) + b[1..]
  {
    assert b == [b[0]] + b[1..];
  }

  /** Splitting off the first element of `x`. */
  lemma ConsRegroup<T>(x: seq<T>, r: seq<T>)
    requires |x| > 0
    ensures [x[0]] + (x[1..] + r) == x + r
  {
    assert x == [x[0]] + x[1..];
  }
}

/**
 This module gives the PHP string functions that the router relies on
 (`trim`, `ltrim`, `explode`, `join`, `strtoupper`, `lcfirst`, and PHP's
 notion of a falsy string). PHP strings are byte strings; these functions
 only look at ASCII characters, so a string is a sequence of characters
 here. Where a pattern's `.` meets a multibyte character the two readings
 differ: PCRE without the `u` modifier steps over one byte.
 */
module PhpStrings {

  /** A character of the PCRE class `\w`: an ASCII letter, a digit or `_`. */
  predicate IsWordChar(c: char) {
    ('a' <= c <= 'z') || ('A' <= c <= 'Z') || ('0' <= c <= '9') || c == '_'
  }

  /** A character of the PCRE class `\d`. */
  predicate IsDigit(c: char) {
    '0' <= c <= '9'
  }

  /** A non-empty run of word characters: what `\w+` matches in full. */
  predicate IsWord(s: string) {
    |s| > 0 && forall i :: 0 <= i < |s| ==> IsWordChar(s[i])
  }

  /** The value of a string of decimal digits. */
  function DecimalValue(s: string): nat
    requires forall i :: 0 <= i < |s| ==> IsDigit(s[i])
  {
    if |s| == 0 then 0
    else
      assert IsDigit(s[|s| - 1]);
      10 * DecimalValue(s[..|s| - 1]) + (s[|s| - 1] as int - '0' as int)
  }

  /** Digits with no leading zero, except `"0"` itself. */
  predicate IsCanonicalDecimal(s: string) {
    |s| > 0 && (forall i :: 0 <= i < |s| ==> IsDigit(s[i])) && (s[0] != '0' || |s| == 1)
  }

  /** A string PHP stores as an integer when it is used as an array key: a
      canonical decimal in the range of a 64-bit integer, possibly negative
      (but not `"-0"`). */
  predicate IsIntegerKey(s: string) {
    (IsCanonicalDecimal(s) && DecimalValue(s) <= 0x7FFF_FFFF_FFFF_FFFF) ||
    (|s| > 1 && s[0] == '-' && s[1] != '0' && IsCanonicalDecimal(s[1..]) &&
     DecimalValue(s[1..]) <= 0x8000_0000_0000_0000)
  }

  /** A name that can both key a constraint array and name a placeholder: a
      word that PHP keeps as a string key. */
  predicate IsNameKey(s: string) {
    IsWord(s) && !IsIntegerKey(s)
  }

  /** The whitespace PHP allows around a numeric string: space, tab, line
      feed, carriage return, vertical tab and form feed. */
  predicate IsNumericSpace(c: char) {
    c == ' ' || c == '\t' || c == '\n' || c == '\r' || c == '\U{000B}' || c == '\U{000C}'
  }

  /** The end of the run of whitespace that starts at `i`. */
  function SpaceEnd(s: string, i: nat): (k: nat)
    requires i <= |s|
    ensures i <= k <= |s|
    ensures k == |s| || !IsNumericSpace(s[k])
    decreases |s| - i
  {
    if i < |s| && IsNumericSpace(s[i]) then SpaceEnd(s, i + 1) else i
  }

  /** The start of the run of whitespace that ends at `j`, not going below
      `lo`. */
  function SpaceStart(s: string, lo: nat, j: nat): (k: nat)
    requires lo <= j <= |s|
    ensures lo <= k <= j
    ensures k == lo || !IsNumericSpace(s[k - 1])
    decreases j - lo
  {
    if lo < j && IsNumericSpace(s[j - 1]) then SpaceStart(s, lo, j - 1) else j
  }

  /** The end of the run of digits that starts at `i`, not going past `j`. */
  function DigitsEnd(s: string, i: nat, j: nat): (k: nat)
    requires i <= j <= |s|
    ensures i <= k <= j
    ensures k == j || !IsDigit(s[k])
    decreases j - i
  {
    if i < j && IsDigit(s[i]) then DigitsEnd(s, i + 1, j) else i
  }

  /** Past one `+` or `-` at `i`, if there is one before `j`. */
  function SignEnd(s: string, i: nat, j: nat): (k: nat)
    requires i <= j <= |s|
    ensures i <= k <= j
  {
    if i < j && (s[i] == '+' || s[i] == '-') then i + 1 else i
  }

  /** `s[k..j]` is empty or an exponent: `e` or `E`, an optional sign, and
      digits. */
  predicate IsExponentTail(s: string, k: nat, j: nat)
    requires k <= j <= |s|
  {
    k == j ||
    ((s[k] == 'e' || s[k] == 'E') && var d := SignEnd(s, k + 1, j); d < j && DigitsEnd(s, d, j) == j)
  }

  /** `s[i..j]` is an optionally signed decimal number: digits with an
      optional fraction, or a fraction alone, at least one digit in all,
      then an optional exponent. The digit runs are maximal, because what
      follows them is `.`, `e`, `E` or the end. */
  predicate IsNumberBetween(s: string, i: nat, j: nat)
    requires i <= j <= |s|
  {
    var d := SignEnd(s, i, j);
    var a := DigitsEnd(s, d, j);
    if a < j && s[a] == '.' then
      var b := DigitsEnd(s, a + 1, j);
      (a - d) + (b - a - 1) > 0 && IsExponentTail(s, b, j)
    else
      a > d && IsExponentTail(s, a, j)
  }

  /** `is_numeric` on a string (PHP 8): an optionally signed decimal number,
      possibly with a fraction and an exponent, with whitespace allowed
      before and after it. Hexadecimal, `INF` and `NAN` are not numeric. */
  predicate IsNumeric(s: string) {
    var i := SpaceEnd(s, 0);
    IsNumberBetween(s, i, SpaceStart(s, i, |s|))
  }

  /** A run of digits is read to its end. */
  lemma {:induction false} DigitsToEnd(s: string, i: nat, j: nat)
    requires i <= j <= |s| && forall k :: i <= k < j ==> IsDigit(s[k])
    ensures DigitsEnd(s, i, j) == j
    decreases j - i
  {
    if i < j {
      DigitsToEnd(s, i + 1, j);
    }
  }

  /** A non-empty run of digits is numeric, leading zeros included. */
  lemma DigitsNumeric(s: string)
    requires |s| > 0 && forall i :: 0 <= i < |s| ==> IsDigit(s[i])
    ensures IsNumeric(s)
  {
    assert SpaceEnd(s, 0) == 0 by { assert !IsNumericSpace(s[0]); }
    assert SpaceStart(s, 0, |s|) == |s| by { assert !IsNumericSpace(s[|s| - 1]); }
    assert SignEnd(s, 0, |s|) == 0 by { assert IsDigit(s[0]); }
    DigitsToEnd(s, 0, |s|);
  }

  /** Every string PHP turns into an integer key is numeric. */
  lemma IntegerKeyNumeric(s: string)
    requires IsIntegerKey(s)
    ensures IsNumeric(s)
  {
    if IsCanonicalDecimal(s) {
      DigitsNumeric(s);
    } else {
      var u := s[1..];
      assert forall k :: 1 <= k < |s| ==> IsDigit(s[k]) by {
        forall k | 1 <= k < |s| ensures IsDigit(s[k]) {
          assert s[k] == u[k - 1];
        }
      }
      assert SpaceEnd(s, 0) == 0 by { assert !IsNumericSpace(s[0]); }
      assert SpaceStart(s, 0, |s|) == |s| by { assert IsDigit(s[|s| - 1]); }
      assert SignEnd(s, 0, |s|) == 1;
      DigitsToEnd(s, 1, |s|);
    }
  }

  /** `is_numeric` accepts leading zeros, and fractions with digits on
      either side of the point. */
  lemma NumericExamples()
    ensures IsNumeric("01") && IsNumeric("1.5") && IsNumeric(".5") && IsNumeric("-2.")
  {
    DigitsNumeric("01");
    assert IsNumeric("1.5") by {
      var s := "1.5";
      assert SpaceEnd(s, 0) == 0 && SpaceStart(s, 0, 3) == 3 && SignEnd(s, 0, 3) == 0;
      assert DigitsEnd(s, 1, 3) == 1 && DigitsEnd(s, 0, 3) == 1 && DigitsEnd(s, 2, 3) == 3;
    }
    assert IsNumeric(".5") by {
      var s := ".5";
      assert SpaceEnd(s, 0) == 0 && SpaceStart(s, 0, 2) == 2 && SignEnd(s, 0, 2) == 0;
      assert DigitsEnd(s, 0, 2) == 0 && DigitsEnd(s, 1, 2) == 2;
    }
    assert IsNumeric("-2.") by {
      var s := "-2.";
      assert SpaceEnd(s, 0) == 0 && SpaceStart(s, 0, 3) == 3 && SignEnd(s, 0, 3) == 1;
      assert DigitsEnd(s, 2, 3) == 2 && DigitsEnd(s, 1, 3) == 2 && DigitsEnd(s, 3, 3) == 3;
    }
  }

  /** `is_numeric` accepts whitespace around the number. */
  lemma NumericSpaceExamples()
    ensures IsNumeric(" 1") && IsNumeric("1 ")
  {
    assert IsNumeric(" 1") by {
      var s := " 1";
      assert SpaceEnd(s, 1) == 1 && SpaceEnd(s, 0) == 1 && SpaceStart(s, 1, 2) == 2;
      assert SignEnd(s, 1, 2) == 1 && DigitsEnd(s, 1, 2) == 2;
    }
    assert IsNumeric("1 ") by {
      var s := "1 ";
      assert SpaceEnd(s, 0) == 0 && SpaceStart(s, 0, 1) == 1 && SpaceStart(s, 0, 2) == 1;
      assert SignEnd(s, 0, 1) == 0 && DigitsEnd(s, 0, 1) == 1;
    }
  }

  /** `is_numeric` accepts exponents, with or without a sign. */
  lemma NumericExponentExamples()
    ensures IsNumeric("1e3") && IsNumeric("+1E-2")
  {
    assert IsNumeric("1e3") by {
      var s := "1e3";
      assert SpaceEnd(s, 0) == 0 && SpaceStart(s, 0, 3) == 3 && SignEnd(s, 0, 3) == 0;
      assert DigitsEnd(s, 1, 3) == 1 && DigitsEnd(s, 0, 3) == 1;
      assert SignEnd(s, 2, 3) == 2 && DigitsEnd(s, 2, 3) == 3;
    }
    assert IsNumeric("+1E-2") by {
      var s := "+1E-2";
      assert SpaceEnd(s, 0) == 0 && SpaceStart(s, 0, 5) == 5 && SignEnd(s, 0, 5) == 1;
      assert DigitsEnd(s, 2, 5) == 2 && DigitsEnd(s, 1, 5) == 2;
      assert SignEnd(s, 3, 5) == 4 && DigitsEnd(s, 4, 5) == 5;
    }
  }

  /** `is_numeric` rejects names, trailing junk, and a point or an
      exponent without digits. */
  lemma NotNumericExamples()
    ensures !IsNumeric("auth") && !IsNumeric("1x") && !IsNumeric(".") && !IsNumeric("e3")
  {
    assert !IsNumeric("auth") by {
      var s := "auth";
      assert SpaceEnd(s, 0) == 0 && SpaceStart(s, 0, 4) == 4 && SignEnd(s, 0, 4) == 0;
      assert DigitsEnd(s, 0, 4) == 0;
    }
    assert !IsNumeric("1x") by {
      var s := "1x";
      assert SpaceEnd(s, 0) == 0 && SpaceStart(s, 0, 2) == 2 && SignEnd(s, 0, 2) == 0;
      assert DigitsEnd(s, 1, 2) == 1 && DigitsEnd(s, 0, 2) == 1;
    }
    assert !IsNumeric(".") by {
      var s := ".";
      assert SpaceEnd(s, 0) == 0 && SpaceStart(s, 0, 1) == 1 && SignEnd(s, 0, 1) == 0;
      assert DigitsEnd(s, 0, 1) == 0 && DigitsEnd(s, 1, 1) == 1;
    }
    assert !IsNumeric("e3") by {
      var s := "e3";
      assert SpaceEnd(s, 0) == 0 && SpaceStart(s, 0, 2) == 2 && SignEnd(s, 0, 2) == 0;
      assert DigitsEnd(s, 0, 2) == 0;
    }
  }

  /** `is_numeric` rejects hexadecimal, blank strings and whitespace
      inside the number. */
  lemma NotNumericShapes()
    ensures !IsNumeric("0x1A") && !IsNumeric("") && !IsNumeric(" ") && !IsNumeric("1 2")
  {
    assert !IsNumeric("0x1A") by {
      var s := "0x1A";
      assert SpaceEnd(s, 0) == 0 && SpaceStart(s, 0, 4) == 4 && SignEnd(s, 0, 4) == 0;
      assert DigitsEnd(s, 1, 4) == 1 && DigitsEnd(s, 0, 4) == 1;
    }
    assert !IsNumeric("") by {
      assert SpaceEnd("", 0) == 0 && SpaceStart("", 0, 0) == 0;
    }
    assert !IsNumeric(" ") by {
      var s := " ";
      assert SpaceEnd(s, 1) == 1 && SpaceEnd(s, 0) == 1 && SpaceStart(s, 1, 1) == 1;
    }
    assert !IsNumeric("1 2") by {
      var s := "1 2";
      assert SpaceEnd(s, 0) == 0 && SpaceStart(s, 0, 3) == 3 && SignEnd(s, 0, 3) == 0;
      assert DigitsEnd(s, 1, 3) == 1 && DigitsEnd(s, 0, 3) == 1;
    }
  }

  /** `n` copies of `c`. */
  function Rep(c: char, n: nat): (r: string)
    ensures |r| == n
    ensures forall i :: 0 <= i < n ==> r[i] == c
  {
    seq(n, _ => c)
  }

  /** `ltrim($s, $c)`: removes every leading occurrence of `c`. */
  function TrimLeft(s: string, c: char): (r: string)
    ensures |r| <= |s| && s == Rep(c, |s| - |r|) + r
    ensures |r| == 0 || r[0] != c
    decreases |s|
  {
    if |s| > 0 && s[0] == c then
      var r := TrimLeft(s[1..], c);
      assert s == [c] + s[1..];
      assert Rep(c, |s| - |r|) == [c] + Rep(c, |s[1..]| - |r|);
      r
    else
      s
  }

  /** `rtrim($s, $c)`: removes every trailing occurrence of `c`. */
  function TrimRight(s: string, c: char): (r: string)
    ensures |r| <= |s| && s == r + Rep(c, |s| - |r|)
    ensures |r| == 0 || r[|r| - 1] != c
    decreases |s|
  {
    if |s| > 0 && s[|s| - 1] == c then
      var r := TrimRight(s[..|s| - 1], c);
      assert s == s[..|s| - 1] + [c];
      assert Rep(c, |s| - |r|) == Rep(c, |s[..|s| - 1]| - |r|) + [c];
      r
    else
      s
  }

  /** `trim($s, $c)`: removes every leading and trailing occurrence of `c`;
      what remains is the middle of `s`, bordered on both sides by `c` only. */
  function Trim(s: string, c: char): (r: string)
    ensures |r| == 0 || (r[0] != c && r[|r| - 1] != c)
    ensures exists a :: 0 <= a <= |s| - |r| && s == Rep(c, a) + r + Rep(c, |s| - |r| - a)
  {
    var l := TrimLeft(s, c);
    var r := TrimRight(l, c);
    assert s == Rep(c, |s| - |l|) + r + Rep(c, |s| - |r| - (|s| - |l|));
    r
  }

  /** A string whose ends are not `c` is its own trim. */
  lemma TrimBorders(s: string, c: char)
    requires |s| == 0 || (s[0] != c && s[|s| - 1] != c)
    ensures Trim(s, c) == s
  {
  }

  /** `trim` is idempotent. */
  lemma TrimIdempotent(s: string, c: char)
    ensures Trim(Trim(s, c), c) == Trim(s, c)
  {
    var r := Trim(s, c);
    if |r| > 0 {
      assert TrimLeft(r, c) == r;
      assert TrimRight(r, c) == r;
    }
  }

  /** `join($sep, $parts)` (PHP's alias of `implode`). */
  function Join(sep: char, parts: seq<string>): string
  {
    if |parts| == 0 then ""
    else if |parts| == 1 then parts[0]
    else parts[0] + [sep] + Join(sep, parts[1..])
  }

  /** `explode($sep, $s)` for a one-character separator: the pieces between the
      separators, never an empty list (an empty string gives one empty piece). */
  function Explode(sep: char, s: string): (r: seq<string>)
    ensures |r| >= 1
    ensures forall i :: 0 <= i < |r| ==> sep !in r[i]
    ensures Join(sep, r) == s
    decreases |s|
  {
    if |s| == 0 then [""]
    else
      var rest := Explode(sep, s[1..]);
      assert s == [s[0]] + s[1..];
      if s[0] == sep then
        assert Join(sep, [""] + rest) == "" + [sep] + Join(sep, rest);
        [""] + rest
      else
        var r := [[s[0]] + rest[0]] + rest[1..];
        assert |rest| > 1 ==> Join(sep, rest) == rest[0] + [sep] + Join(sep, rest[1..]);
        assert |rest| > 1 ==> Join(sep, r) == r[0] + [sep] + Join(sep, r[1..]);
        assert r[1..] == rest[1..];
        assert forall i :: 0 <= i < |r| ==> sep !in r[i] by {
          forall i | 0 <= i < |r| ensures sep !in r[i] {
            if i > 0 {
              assert r[i] == rest[i];
            }
          }
        }
        r
  }

  /** A string without the separator explodes into itself alone. */
  lemma ExplodeNoSeparator(sep: char, s: string)
    requires sep !in s
    ensures Explode(sep, s) == [s]
    decreases |s|
  {
    if |s| > 0 {
      ExplodeNoSeparator(sep, s[1..]);
    }
  }

  /** Exploding `a + sep + b` yields `a` followed by the pieces of `b`. */
  lemma {:induction false} ExplodeCons(sep: char, a: string, b: string)
    requires sep !in a
    ensures Explode(sep, a + [sep] + b) == [a] + Explode(sep, b)
    decreases |a|
  {
    var s := a + [sep] + b;
    if |a| == 0 {
      assert s == [sep] + b;
      assert s[1..] == b;
    } else {
      assert s[1..] == a[1..] + [sep] + b;
      ExplodeCons(sep, a[1..], b);
      assert [a[0]] + a[1..] == a;
    }
  }

  /** `explode` undoes `join` when no piece contains the separator and there is
      at least one piece. */
  lemma {:induction false} ExplodeJoin(sep: char, parts: seq<string>)
    requires |parts| >= 1
    requires forall i :: 0 <= i < |parts| ==> sep !in parts[i]
    ensures Explode(sep, Join(sep, parts)) == parts
    decreases |parts|
  {
    if |parts| == 1 {
      ExplodeNoSeparator(sep, parts[0]);
    } else {
      ExplodeCons(sep, parts[0], Join(sep, parts[1..]));
      ExplodeJoin(sep, parts[1..]);
      assert parts == [parts[0]] + parts[1..];
    }
  }

  /** `strtoupper` on one character: ASCII letters only (PHP 8 is locale-blind). */
  function UpperChar(c: char): (r: char)
    ensures 'a' <= c <= 'z' ==> 'A' <= r <= 'Z'
    ensures !('a' <= c <= 'z') ==> r == c
  {
    if 'a' <= c <= 'z' then (c as int - 32) as char else c
  }

  /** `lcfirst` on one character. */
  function LowerChar(c: char): (r: char)
    ensures 'A' <= c <= 'Z' ==> 'a' <= r <= 'z'
    ensures !('A' <= c <= 'Z') ==> r == c
  {
    if 'A' <= c <= 'Z' then (c as int + 32) as char else c
  }

  /** `strtoupper($s)`. */
  function StrToUpper(s: string): (r: string)
    ensures |r| == |s|
    ensures forall i :: 0 <= i < |s| ==> r[i] == UpperChar(s[i])
  {
    seq(|s|, i requires 0 <= i < |s| => UpperChar(s[i]))
  }

  /** `lcfirst($s)`: lower-cases the first character only. */
  function Lcfirst(s: string): (r: string)
    ensures |r| == |s|
    ensures |s| > 0 ==> r[0] == LowerChar(s[0]) && r[1..] == s[1..]
  {
    if |s| == 0 then s else [LowerChar(s[0])] + s[1..]
  }

  /** PHP's falsy strings, the ones `array_filter` drops: `""` and `"0"`. */
  predicate Falsy(s: string) {
    s == "" || s == "0"
  }

  /** `array_filter($parts)` on strings: the truthy parts, in order. */
  function Truthy(parts: seq<string>): (r: seq<string>)
    ensures |r| <= |parts|
    decreases |parts|
  {
    if |parts| == 0 then []
    else (if Falsy(parts[0]) then [] else [parts[0]]) + Truthy(parts[1..])
  }

  /** The filter keeps exactly the truthy parts. */
  lemma {:induction false} TruthyMembers(parts: seq<string>)
    ensures forall x :: x in Truthy(parts) <==> x in parts && !Falsy(x)
    decreases |parts|
  {
    if |parts| > 0 {
      TruthyMembers(parts[1..]);
      assert parts == [parts[0]] + parts[1..];
    }
  }

  /** Filtering distributes over concatenation, so order is kept. */
  lemma {:induction false} TruthyAppend(a: seq<string>, b: seq<string>)
    ensures Truthy(a + b) == Truthy(a) + Truthy(b)
    decreases |a|
  {
    if |a| == 0 {
      assert a + b == b;
    } else {
      var h := if Falsy(a[0]) then [] else [a[0]];
      assert (a + b)[0] == a[0];
      assert (a + b)[1..] == a[1..] + b;
      assert Truthy(a + b) == h + Truthy(a[1..] + b);
      TruthyAppend(a[1..], b);
      assert Truthy(a) == h + Truthy(a[1..]);
    }
  }

  /** Joining one more part adds a separator and the part, unless the list
      was empty. */
  lemma {:induction false} JoinSnoc(sep: char, parts: seq<string>, x: string)
    ensures Join(sep, parts + [x]) == if |parts| == 0 then x else Join(sep, parts) + [sep] + x
    decreases |parts|
  {
    if |parts| > 1 {
      assert (parts + [x])[1..] == parts[1..] + [x];
      JoinSnoc(sep, parts[1..], x);
    }
  }
}

=== FILE: resources.dfy ===
/**
 `Resource`: a controller whose actions follow the REST naming of seven
 fixed actions.
 */
module Resources {
  import opened Wrappers
  import opened OrderedMaps
  import opened PhpArrays
  import opened Patterns
  import opened Taps
  import opened Maps
  import opened Controllers

  /** The `RESTFUL` table: rule and methods of each action. */
  function Restful(name: string): Option<Mapping>
  {
    match name
      case "index" => Some(Mapping("", ["GET"]))
      case "create" => Some(Mapping("create", ["GET"]))
      case "store" => Some(Mapping("", ["POST"]))
      case "show" => Some(Mapping("{id}", ["GET"]))
      case "edit" => Some(Mapping("{id}/edit", ["GET"]))
      case "update" => Some(Mapping("{id}", ["PUT", "PATCH"]))
      case "destroy" => Some(Mapping("{id}", ["DELETE"]))
      case _ => None
  }

  /** The actions that address one resource by its id. */
  predicate IdAction(name: string)
  {
    name in ["show", "edit", "update", "destroy"]
  }

  /** The id actions are exactly the table entries whose rule starts with
      the `{id}` placeholder; the others have no placeholder at all. */
  lemma RestfulIdRules(name: string)
    requires Restful(name).Some?
    ensures IdAction(name) <==> "{id}" <= Restful(name).value.rule
    ensures !IdAction(name) ==> '{' !in Restful(name).value.rule
  {
    var rule := Restful(name).value.rule;
    if IdAction(name) {
      assert rule[..4] == "{id}";
    } else {
      assert rule == "" || rule == "create";
      assert |rule| == 0 || rule[0] == 'c';
    }
  }

  /** The constraint forced on the id actions. */
  const IdWhere: Assoc<string, Fragment> := [("id", PositiveInt)]

  /** `register`: an unknown action name does nothing; a known one goes
      through `action` with its table entry, and the builder kept for an id
      action (the same object `action` returned) then takes the positive
      integer constraint on `id`. */
  function Register(c: Controller, name: string, domains: seq<string>, middlewares: Assoc<Key, string>,
                    where: Assoc<string, Fragment>, suffix: string, cacheDuration: int): (r: Controller)
    ensures Restful(name).None? ==> r == c
    ensures Restful(name).Some? ==>
      var t := ActionTap(c, name, Restful(name).value, domains, middlewares, where, suffix, cacheDuration);
      r == Store(c, name, if IdAction(name) then Where(t, IdWhere) else t)
  {
    match Restful(name)
      case None => c
      case Some(m) =>
        var (c1, t) := Action(c, name, m, domains, middlewares, where, suffix, cacheDuration);
        if IdAction(name) then Store(c, name, Where(t, IdWhere)) else c1
  }

  /** The builder `register` keeps for an action: for an id action its `id`
      is a positive integer, whatever the group or the action asked; the
      other actions keep their merged constraints. */
  lemma RegisterId(c: Controller, name: string, domains: seq<string>, middlewares: Assoc<Key, string>,
                   where: Assoc<string, Fragment>, suffix: string, cacheDuration: int)
    requires Restful(name).Some?
    ensures var r := Register(c, name, domains, middlewares, where, suffix, cacheDuration);
      Get(r.taps, name).Some? &&
      var kept := Get(r.taps, name).value;
      |kept| > 0 &&
      (IdAction(name) ==> Get(kept[|kept| - 1].where, "id") == Some(PositiveInt)) &&
      (!IdAction(name) ==>
        kept[|kept| - 1] == ActionTap(c, name, Restful(name).value, domains, middlewares, where, suffix, cacheDuration))
  {
    RegisterStores(c, name, domains, middlewares, where, suffix, cacheDuration);
    StoredId(c, name, ActionTap(c, name, Restful(name).value, domains, middlewares, where, suffix, cacheDuration),
             Register(c, name, domains, middlewares, where, suffix, cacheDuration));
  }

  /** What `register` stores for builder `t`, read back. */
  lemma StoredId(c: Controller, name: string, t: Tap, r: Controller)
    requires r == Store(c, name, if IdAction(name) then Where(t, IdWhere) else t)
    ensures Get(r.taps, name).Some? &&
      var kept := Get(r.taps, name).value;
      |kept| > 0 &&
      (IdAction(name) ==> Get(kept[|kept| - 1].where, "id") == Some(PositiveInt)) &&
      (!IdAction(name) ==> kept[|kept| - 1] == t)
  {
    if IdAction(name) {
      StoreLast(c, name, Where(t, IdWhere));
      IdWhereGet(t);
    } else {
      StoreLast(c, name, t);
    }
  }

  /** `register` stores one builder under the action's name. */
  lemma RegisterStores(c: Controller, name: string, domains: seq<string>, middlewares: Assoc<Key, string>,
                       where: Assoc<string, Fragment>, suffix: string, cacheDuration: int)
    requires Restful(name).Some?
    ensures var t := ActionTap(c, name, Restful(name).value, domains, middlewares, where, suffix, cacheDuration);
      Register(c, name, domains, middlewares, where, suffix, cacheDuration) ==
        Store(c, name, if IdAction(name) then Where(t, IdWhere) else t)
  {
  }

  /** The builder just stored is the last one kept under its name. */
  lemma StoreLast(c: Controller, name: string, x: Tap)
    ensures var kept := Get(Store(c, name, x).taps, name).value;
      |kept| > 0 && kept[|kept| - 1] == x
  {
  }

  /** The positive integer constraint wins over whatever `id` had. */
  lemma IdWhereGet(t: Tap)
    ensures Get(Where(t, IdWhere).where, "id") == Some(PositiveInt)
  {
    assert Unique(IdWhere);
    assert HasKey(IdWhere, "id") && Get(IdWhere, "id") == Some(PositiveInt);
  }
}

=== FILE: route_defs.dfy ===
/**
 The route-definition shortcuts of `Route`: each returns a fresh `Tap` for
 one method list.
 */
module RouteDefs {
  import opened PhpStrings
  import opened Routes
  import opened Taps

  /** `array_map('strtoupper', $methods)`. */
  function Upper(methods: seq<string>): (r: seq<string>)
    ensures |r| == |methods|
    ensures forall i :: 0 <= i < |methods| ==> r[i] == StrToUpper(methods[i])
  {
    seq(|methods|, i requires 0 <= i < |methods| => StrToUpper(methods[i]))
  }

  /** Upper-casing a string twice changes nothing more. */
  lemma StrToUpperIdempotent(s: string)
    ensures StrToUpper(StrToUpper(s)) == StrToUpper(s)
  {
  }

  /** `many`: a builder for the upper-cased method list. */
  function Many(methods: seq<string>, rule: string, point: Point): (t: Tap)
    ensures |t.methods| == |methods|
    ensures forall i :: 0 <= i < |methods| ==> t.methods[i] == StrToUpper(methods[i])
    ensures t == NewTap(t.methods, rule, point)
  {
    NewTap(Upper(methods), rule, point)
  }

  /** Feeding `many` its own method list again gives the same builder. */
  lemma {:induction false} ManyStable(methods: seq<string>, rule: string, point: Point)
    ensures Many(Many(methods, rule, point).methods, rule, point) == Many(methods, rule, point)
  {
    var ms := Upper(methods);
    forall i | 0 <= i < |ms| ensures StrToUpper(ms[i]) == ms[i] {
      StrToUpperIdempotent(methods[i]);
    }
    assert Upper(ms) == ms;
  }

  /** A one-method list whose letters upper-case to `u`. */
  lemma UpperOne(s: string, u: string)
    requires |s| == |u|
    requires forall i :: 0 <= i < |s| ==> UpperChar(s[i]) == u[i]
    ensures Upper([s]) == [u]
  {
    assert StrToUpper(s) == u;
  }

  /** `get`. */
  function Get(rule: string, point: Point): (t: Tap)
    ensures t == Many(["get"], rule, point) && t.methods == ["GET"]
  {
    UpperOne("get", "GET");
    NewTap(["GET"], rule, point)
  }

  /** `post`. */
  function Post(rule: string, point: Point): (t: Tap)
    ensures t == Many(["post"], rule, point) && t.methods == ["POST"]
  {
    UpperOne("post", "POST");
    NewTap(["POST"], rule, point)
  }

  /** `put`. */
  function Put(rule: string, point: Point): (t: Tap)
    ensures t == Many(["put"], rule, point) && t.methods == ["PUT"]
  {
    UpperOne("put", "PUT");
    NewTap(["PUT"], rule, point)
  }

  /** `patch`. */
  function Patch(rule: string, point: Point): (t: Tap)
    ensures t == Many(["patch"], rule, point) && t.methods == ["PATCH"]
  {
    UpperOne("patch", "PATCH");
    NewTap(["PATCH"], rule, point)
  }

  /** `delete`. */
  function Delete(rule: string, point: Point): (t: Tap)
    ensures t == Many(["delete"], rule, point) && t.methods == ["DELETE"]
  {
    UpperOne("delete", "DELETE");
    NewTap(["DELETE"], rule, point)
  }

  /** `any`: the wildcard method. */
  function Any(rule: string, point: Point): (t: Tap)
    ensures t == Many(["*"], rule, point) && t.methods == ["*"]
  {
    UpperOne("*", "*");
    NewTap(["*"], rule, point)
  }
}

=== FILE: routes.dfy ===
/**
 `Route`: one compiled rule, and the registry of all routes.

 The registry (`Route::$taps`, a static array in PHP) is a value here:
 domain, then request method, then rule, each level an ordered PHP array.
 Operations that change it take the table and return the new one.
 */
module Routes {
  import opened Wrappers
  import opened PhpStrings
  import opened OrderedMaps
  import opened Patterns
  import opened Matching
  import opened RuleSyntax

  /** The callback of a route: a `Class::method` string, or a closure (an
      opaque identity: closures are never looked into). */
  datatype Point = Named(s: string) | Callable(id: nat)

  datatype Route = Route(
    rule: string,
    point: Point,
    middleware: Assoc<string, seq<string>>,
    cacheDuration: int,
    compiled: Compiled)

  /** `new Route($rule, $point, $where, $middleware, $cacheDuration)`. */
  function NewRoute(rule: string, point: Point, where: Assoc<string, Fragment>,
                    middleware: Assoc<string, seq<string>>, cacheDuration: int): (r: Route)
    ensures r.rule == rule && r.point == point
  {
    Route(rule, point, middleware, cacheDuration, MakePattern(rule, where))
  }

  /** The parameter values a match returns, by name. */
  type Args = Assoc<string, string>

  /** `value`: a delimited optional parameter loses its leading delimiters. */
  function Value(v: string, name: string, prefixes: map<string, char>): (r: string)
    ensures name !in prefixes ==> r == v
    ensures name in prefixes ==> |r| <= |v| && v == Rep(prefixes[name], |v| - |r|) + r && (|r| == 0 || r[0] != prefixes[name])
  {
    if name in prefixes then TrimLeft(v, prefixes[name]) else v
  }

  /** The named captures turned into arguments, in group order. */
  function Values(caps: Captures, prefixes: map<string, char>): (args: Args)
    ensures |args| == |caps|
    ensures forall i :: 0 <= i < |caps| ==>
      args[i] == (caps[i].0, Value(caps[i].1, caps[i].0, prefixes))
  {
    seq(|caps|, i requires 0 <= i < |caps| => (caps[i].0, Value(caps[i].1, caps[i].0, prefixes)))
  }

  /** `match`: the arguments when the whole path matches the rule, `None`
      when it does not or when the pattern fails to compile. There is one
      argument per group, named and ordered as the groups are. */
  function Match(r: Route, path: string): (res: Option<Args>)
    ensures res.Some? ==> Compiles(Atoms(r.compiled.pattern))
    ensures res.Some? ==> |res.value| == |GroupNames(Atoms(r.compiled.pattern))|
    ensures res.Some? ==> forall i :: 0 <= i < |res.value| ==> res.value[i].0 == GroupNames(Atoms(r.compiled.pattern))[i]
  {
    var atoms := Atoms(r.compiled.pattern);
    if !Compiles(atoms) then None
    else match MatchFrom(atoms, path)
      case None => None
      case Some(caps) =>
        assert CaptureNames(caps) == GroupNames(atoms) by {
          MatchFromSound(atoms, path);
          ParsesNames(atoms, path, caps);
        }
        Some(Values(caps, r.compiled.prefixes))
  }

  /** Every match comes from a parse of the path. */
  lemma MatchSound(r: Route, path: string)
    requires Match(r, path).Some?
    ensures exists caps :: (Parses(Atoms(r.compiled.pattern), path, caps) &&
                            Match(r, path).value == Values(caps, r.compiled.prefixes))
  {
    var caps := MatchFrom(Atoms(r.compiled.pattern), path).value;
    MatchFromSound(Atoms(r.compiled.pattern), path);
  }

  /** Every parse of the path under a compiling pattern gives a match. */
  lemma MatchComplete(r: Route, path: string, caps: Captures)
    requires Compiles(Atoms(r.compiled.pattern))
    requires Parses(Atoms(r.compiled.pattern), path, caps)
    ensures Match(r, path).Some?
  {
    MatchFromComplete(Atoms(r.compiled.pattern), path, caps);
  }

  /** A route built from a well-formed rule matches a path exactly when the
      path parses under the rule's reference pattern. */
  lemma MatchRule(items: seq<Item>, point: Point, where: Assoc<string, Fragment>,
                  middleware: Assoc<string, seq<string>>, cacheDuration: int, path: string)
    requires Wf(items) && Unique(where)
    requires forall i :: 0 <= i < |where| ==> IsNameKey(where[i].0)
    ensures var r := NewRoute(RuleText(items), point, where, middleware, cacheDuration);
      Match(r, path).Some? <==> exists caps :: Parses(Reference(items, Binding(items, where)), path, caps)
  {
    var r := NewRoute(RuleText(items), point, where, middleware, cacheDuration);
    MakePatternMeaning(items, where);
    if Match(r, path).Some? {
      MatchSound(r, path);
    }
    if exists caps :: Parses(Reference(items, Binding(items, where)), path, caps) {
      var caps :| Parses(Reference(items, Binding(items, where)), path, caps);
      MatchComplete(r, path, caps);
    }
  }

  /** The value of a delimited optional parameter is the fragment text
      without its delimiter, and empty when the group was skipped. */
  lemma DelimitedValue(d: char, f: Fragment, v: string, name: string, prefixes: map<string, char>)
    requires d == '/' || d == '-'
    requires name in prefixes && prefixes[name] == d
    requires GroupAccepts(f, Delimited(d), v)
    ensures Value(v, name, prefixes) == if v == "" then "" else v[1..]
  {
    if v != "" {
      var w := v[1..];
      var ch := w[0];
      assert ch != d by {
        assert IsWordChar(ch) || IsDigit(ch);
      }
      assert TrimLeft(w, d) == w;
      assert v == [d] + w;
    }
  }

  // ----- the registry -----

  /** `[$domain => [$method => [$rule => Route]]]`. */
  type Table = Assoc<string, Assoc<string, Assoc<string, Route>>>

  /** `Route::$taps[$domain][$method]`, empty when unset. */
  function Slot(t: Table, domain: string, verb: string): Assoc<string, Route>
  {
    GetOr(GetOr(t, domain, []), verb, [])
  }

  /** `Route::$taps[$domain][$method][$rule]`. */
  function Lookup(t: Table, domain: string, verb: string, rule: string): Option<Route>
  {
    Get(Slot(t, domain, verb), rule)
  }

  /** `taps()` reads the registry; `clear()` empties it. */
  function Clear(): (t: Table)
    ensures forall d, m, k :: Lookup(t, d, m, k) == None
  {
    []
  }

  /** `add`: stores the route under its rule, replacing a route with the same
      rule in place and appending a new rule at the end; nothing else in the
      registry changes. */
  function Add(t: Table, r: Route, verb: string, domain: string): (u: Table)
    ensures Lookup(u, domain, verb, r.rule) == Some(r)
    ensures forall d, m, k :: (d, m, k) != (domain, verb, r.rule) ==> Lookup(u, d, m, k) == Lookup(t, d, m, k)
    ensures forall d, m :: (d, m) != (domain, verb) ==> Slot(u, d, m) == Slot(t, d, m)
    ensures Keys(Slot(u, domain, verb)) ==
      if HasKey(Slot(t, domain, verb), r.rule) then Keys(Slot(t, domain, verb))
      else Keys(Slot(t, domain, verb)) + [r.rule]
  {
    var byMethod := GetOr(t, domain, []);
    var byRule := GetOr(byMethod, verb, []);
    Put(t, domain, Put(byMethod, verb, Put(byRule, r.rule, r)))
  }

  /** The two nested `foreach` loops of `addBatch`. */
  function AddEach(t: Table, r: Route, methods: seq<string>, domains: seq<string>): Table
    decreases |domains|
  {
    if |domains| == 0 then t else AddEach(AddMethods(t, r, methods, domains[0]), r, methods, domains[1..])
  }

  function AddMethods(t: Table, r: Route, methods: seq<string>, domain: string): Table
    decreases |methods|
  {
    if |methods| == 0 then t else AddMethods(Add(t, r, methods[0], domain), r, methods[1..], domain)
  }

  /** `addBatch`, as the source writes it: a given method list is replaced by
      `['*']`, a missing one leaves nothing to iterate, and the domain loop
      always runs over `['*']` (a given list is replaced by `['*']`, a missing
      one falls back to it). */
  function AddBatch(t: Table, r: Route, methods: Option<seq<string>>, domains: Option<seq<string>>): Table
  {
    var ms := if methods.Some? then ["*"] else [];
    var ds := if domains.Some? then ["*"] else [];
    AddEach(t, r, ms, if |ds| > 0 then ds else ["*"])
  }

  /** What `addBatch` amounts to: the route lands under `*`/`*` when any
      method list is given, whatever the lists hold, and nowhere otherwise. */
  lemma AddBatchEffect(t: Table, r: Route, methods: Option<seq<string>>, domains: Option<seq<string>>)
    ensures AddBatch(t, r, methods, domains) == if methods.Some? then Add(t, r, "*", "*") else t
  {
    if methods.Some? {
      var u := Add(t, r, "*", "*");
      assert AddMethods(t, r, ["*"], "*") == AddMethods(u, r, [], "*") == u;
      assert AddEach(u, r, ["*"], []) == u;
    } else {
      assert ["*"][1..] == [];
      assert AddMethods(t, r, [], "*") == t;
      assert AddEach(t, r, [], ["*"]) == AddEach(t, r, [], []) == t;
    }
  }

  /** The registry holds routes under `*`/`*` only. */
  ghost predicate WildcardOnly(t: Table)
  {
    forall d, m :: (d, m) != ("*", "*") ==> Slot(t, d, m) == []
  }

  /** `addBatch` keeps every route under `*`/`*`. */
  lemma AddBatchWildcard(t: Table, r: Route, methods: Option<seq<string>>, domains: Option<seq<string>>)
    requires WildcardOnly(t)
    ensures WildcardOnly(AddBatch(t, r, methods, domains))
  {
    AddBatchEffect(t, r, methods, domains);
  }

  /** What a search returns: the callback and the arguments. */
  datatype Found = Found(point: Point, args: Args)

  /** The first route of a slot, in registration order, that matches. */
  function FirstMatch(routes: Assoc<string, Route>, path: string): (g: Option<Found>)
    ensures g.None? <==> forall i :: 0 <= i < |routes| ==> Match(routes[i].1, path).None?
    ensures g.Some? ==> exists i :: (0 <= i < |routes| &&
      Match(routes[i].1, path) == Some(g.value.args) && g.value.point == routes[i].1.point &&
      forall j :: 0 <= j < i ==> Match(routes[j].1, path).None?)
    decreases |routes|
  {
    if |routes| == 0 then None
    else match Match(routes[0].1, path)
      case Some(args) => Some(Found(routes[0].1.point, args))
      case None =>
        var g := FirstMatch(routes[1..], path);
        FirstOfRest(routes, path, g);
        g
  }

  /** The first match among all but a non-matching first route is the first
      match among all of them. */
  lemma FirstOfRest(routes: Assoc<string, Route>, path: string, g: Option<Found>)
    requires |routes| > 0 && Match(routes[0].1, path).None?
    requires var rest := routes[1..];
      (g.None? <==> forall i :: 0 <= i < |rest| ==> Match(rest[i].1, path).None?) &&
      (g.Some? ==> exists i :: (0 <= i < |rest| &&
        Match(rest[i].1, path) == Some(g.value.args) && g.value.point == rest[i].1.point &&
        forall j :: 0 <= j < i ==> Match(rest[j].1, path).None?))
    ensures g.None? <==> forall i :: 0 <= i < |routes| ==> Match(routes[i].1, path).None?
    ensures g.Some? ==> exists i :: (0 <= i < |routes| &&
      Match(routes[i].1, path) == Some(g.value.args) && g.value.point == routes[i].1.point &&
      forall j :: 0 <= j < i ==> Match(routes[j].1, path).None?)
  {
    var rest := routes[1..];
    if g.Some? {
      var i :| 0 <= i < |rest| &&
        Match(rest[i].1, path) == Some(g.value.args) && g.value.point == rest[i].1.point &&
        forall j :: 0 <= j < i ==> Match(rest[j].1, path).None?;
      NoneShift(routes, path, i);
      assert routes[i + 1] == rest[i];
    } else {
      NoneShift(routes, path, |rest|);
    }
  }

  /** No match among the first `i` routes after the first, nor in the
      first, means no match among the first `i + 1`. */
  lemma NoneShift(routes: Assoc<string, Route>, path: string, i: nat)
    requires i < |routes| && Match(routes[0].1, path).None?
    requires forall j :: 0 <= j < i ==> Match(routes[1..][j].1, path).None?
    ensures forall j :: 0 <= j < i + 1 ==> Match(routes[j].1, path).None?
  {
    forall j | 0 <= j < i + 1 ensures Match(routes[j].1, path).None? {
      if j > 0 {
        assert routes[j] == routes[1..][j - 1];
      }
    }
  }

  /** `gain`: the first matching route of one slot, if the slot is set. */
  function Gain(t: Table, path: string, verb: string, domain: string): Option<Found>
  {
    if HasKey(t, domain) && HasKey(GetOr(t, domain, []), verb) then FirstMatch(Slot(t, domain, verb), path)
    else None
  }

  /** An unset slot behaves as an empty one. */
  lemma GainSlot(t: Table, path: string, verb: string, domain: string)
    ensures Gain(t, path, verb, domain) == FirstMatch(Slot(t, domain, verb), path)
  {
  }

  /** The inner loop of `search`: methods in order for one domain. */
  function SearchMethods(t: Table, path: string, methods: seq<string>, domain: string): Option<Found>
    decreases |methods|
  {
    if |methods| == 0 then None
    else match Gain(t, path, methods[0], domain)
      case Some(g) => Some(g)
      case None => SearchMethods(t, path, methods[1..], domain)
  }

  /** The outer loop of `search`: domains in order; `break 2` on success. */
  function SearchDomains(t: Table, path: string, methods: seq<string>, domains: seq<string>): Option<Found>
    decreases |domains|
  {
    if |domains| == 0 then None
    else match SearchMethods(t, path, methods, domains[0])
      case Some(g) => Some(g)
      case None => SearchDomains(t, path, methods, domains[1..])
  }

  /** The candidates a name stands for: itself then `*`, or `*` alone. */
  function WithWildcard(x: string): seq<string>
  {
    if x == "*" then ["*"] else [x, "*"]
  }

  /** `search($path, $method, $domain)`. */
  function Search(t: Table, path: string, verb: string, domain: string): Option<Found>
  {
    SearchDomains(t, Trim(path, '/'), WithWildcard(verb), WithWildcard(domain))
  }

  /** The exact slot is tried first. */
  lemma SearchExact(t: Table, path: string, verb: string, domain: string)
    requires Gain(t, Trim(path, '/'), verb, domain).Some?
    ensures Search(t, path, verb, domain) == Gain(t, Trim(path, '/'), verb, domain)
  {
  }

  /** The order of the four slots: the domain is fixed before the verb falls
      back to `*`. When the verb or the domain is `*` itself (the defaults
      of `search`), the slots it names coincide and each is tried once. */
  lemma SearchOrder(t: Table, path: string, verb: string, domain: string)
    ensures var p := Trim(path, '/');
      Search(t, path, verb, domain) ==
        if Gain(t, p, verb, domain).Some? then Gain(t, p, verb, domain)
        else if Gain(t, p, "*", domain).Some? then Gain(t, p, "*", domain)
        else if Gain(t, p, verb, "*").Some? then Gain(t, p, verb, "*")
        else Gain(t, p, "*", "*")
  {
    var p := Trim(path, '/');
    if verb != "*" && domain != "*" {
      SearchFour(t, p, verb, domain);
    } else if domain != "*" {
      SearchWildcardVerb(t, p, domain);
    } else if verb != "*" {
      SearchTwo(t, p, verb, "*");
      assert ["*"][1..] == [];
    } else {
      SearchWildcardVerb(t, p, "*");
    }
  }

  /** With `*` as the verb, each domain tries its `*` slot alone. */
  lemma SearchWildcardVerb(t: Table, p: string, d: string)
    ensures SearchDomains(t, p, ["*"], WithWildcard(d)) ==
        if Gain(t, p, "*", d).Some? then Gain(t, p, "*", d) else Gain(t, p, "*", "*")
  {
    assert ["*"][1..] == [];
    assert SearchMethods(t, p, ["*"], d) == Gain(t, p, "*", d);
    assert SearchMethods(t, p, ["*"], "*") == Gain(t, p, "*", "*");
    if d != "*" {
      assert [d, "*"][1..] == ["*"];
    }
  }

  /** The two loops of `search` over two candidates each. */
  lemma SearchFour(t: Table, p: string, m: string, d: string)
    ensures SearchDomains(t, p, [m, "*"], [d, "*"]) ==
        if Gain(t, p, m, d).Some? then Gain(t, p, m, d)
        else if Gain(t, p, "*", d).Some? then Gain(t, p, "*", d)
        else if Gain(t, p, m, "*").Some? then Gain(t, p, m, "*")
        else Gain(t, p, "*", "*")
  {
    SearchTwo(t, p, m, d);
    SearchTwo(t, p, m, "*");
    assert [d, "*"][1..] == ["*"];
    assert ["*"][1..] == [];
    assert SearchDomains(t, p, [m, "*"], ["*"]) == SearchMethods(t, p, [m, "*"], "*");
  }

  lemma SearchTwo(t: Table, p: string, m: string, d: string)
    ensures SearchMethods(t, p, [m, "*"], d) ==
        if Gain(t, p, m, d).Some? then Gain(t, p, m, d) else Gain(t, p, "*", d)
  {
    assert [m, "*"][1..] == ["*"];
    assert SearchMethods(t, p, ["*"], d) == if Gain(t, p, "*", d).Some? then Gain(t, p, "*", d) else None
      by { assert ["*"][1..] == []; }
  }

  /** The inner loop finds nothing exactly when no slot it tries has a match. */
  lemma {:induction false} SearchMethodsNone(t: Table, p: string, ms: seq<string>, d: string)
    ensures SearchMethods(t, p, ms, d).None? <==> forall m :: m in ms ==> Gain(t, p, m, d).None?
    decreases |ms|
  {
    if |ms| > 0 {
      SearchMethodsNone(t, p, ms[1..], d);
      assert forall m :: m in ms <==> m == ms[0] || m in ms[1..];
    }
  }

  /** The outer loop finds nothing exactly when no slot it tries has a match. */
  lemma {:induction false} SearchDomainsNone(t: Table, p: string, ms: seq<string>, ds: seq<string>)
    ensures SearchDomains(t, p, ms, ds).None? <==>
      forall d, m :: d in ds && m in ms ==> Gain(t, p, m, d).None?
    decreases |ds|
  {
    if |ds| > 0 {
      SearchMethodsNone(t, p, ms, ds[0]);
      SearchDomainsNone(t, p, ms, ds[1..]);
      assert forall d :: d in ds <==> d == ds[0] || d in ds[1..];
    }
  }

  /** A search fails exactly when none of the candidate slots has a matching
      route. */
  lemma SearchNone(t: Table, path: string, verb: string, domain: string)
    ensures Search(t, path, verb, domain).None? <==>
      forall d, m :: d in WithWildcard(domain) && m in WithWildcard(verb) ==>
        Gain(t, Trim(path, '/'), m, d).None?
  {
    SearchDomainsNone(t, Trim(path, '/'), WithWildcard(verb), WithWildcard(domain));
  }

  /** Slashes around the path do not matter. */
  lemma SearchTrims(t: Table, path: string, verb: string, domain: string)
    ensures Search(t, Trim(path, '/'), verb, domain) == Search(t, path, verb, domain)
  {
    TrimIdempotent(path, '/');
  }

  /** In a registry filled by `addBatch` alone, verb and domain play no part
      in a search. */
  lemma SearchWildcardOnly(t: Table, path: string, verb: string, domain: string)
    requires WildcardOnly(t)
    ensures Search(t, path, verb, domain) == Gain(t, Trim(path, '/'), "*", "*")
  {
    var p := Trim(path, '/');
    forall d, m | (d, m) != ("*", "*")
      ensures Gain(t, p, m, d) == None
    {
      assert Slot(t, d, m) == [];
    }
    assert ["*"][1..] == [];
    assert SearchMethods(t, p, ["*"], "*") == Gain(t, p, "*", "*");
    assert SearchDomains(t, p, ["*"], ["*"]) == SearchMethods(t, p, ["*"], "*");
    if verb == "*" && domain == "*" {
    } else if domain == "*" {
      SearchTwo(t, p, verb, "*");
      assert SearchDomains(t, p, [verb, "*"], ["*"]) == SearchMethods(t, p, [verb, "*"], "*");
    } else if verb == "*" {
      assert ["*", "*"][1..] == ["*"];
      assert SearchDomains(t, p, ["*"], [domain, "*"]) == SearchDomains(t, p, ["*"], ["*"]);
    } else {
      SearchFour(t, p, verb, domain);
    }
  }
}

=== FILE: rule_syntax.dfy ===
/**
 What `makePattern` computes, for the rules the router is written for.

 A rule is read as a sequence of items: a plain character, or a placeholder
 `{name}` / `{name?}`. `Reference` says directly what each item means as a
 pattern (an optional placeholder right after `/` or `-` takes the delimiter
 into its group), and `MakePatternMeaning` proves that the string rewriting of
 `makePattern` (escape, replace the constrained names in `where` order, then
 the rest with `\w+`) yields exactly that pattern and the recorded delimiters.

 The intermediate patterns are described by `Render(items, F)`: the rule in
 which the names bound in `F` have already been replaced by their groups.
 */
module RuleSyntax {
  import opened Wrappers
  import opened PhpStrings
  import opened OrderedMaps
  import opened Patterns
  import opened Matching

  datatype Item = T(c: char) | P(name: string, optional: bool)

  /** The source text of a placeholder. */
  function PlaceText(n: string, opt: bool): string
  {
    "{" + n + (if opt then "?}" else "}")
  }

  /** The rule string the items spell. */
  function RuleText(items: seq<Item>): string
  {
    if |items| == 0 then ""
    else (match items[0] case T(c) => [c] case P(n, opt) => PlaceText(n, opt)) + RuleText(items[1..])
  }

  /** Characters PCRE would give a meaning of their own in a rule (the dot is
      kept: the source leaves it unescaped and it matches any character). */
  predicate Meta(c: char)
  {
    c in "\\{()[]*+?|^$"
  }

  /** `n` names a placeholder among the items. */
  predicate HasName(items: seq<Item>, n: string)
  {
    |items| > 0 && ((items[0].P? && items[0].name == n) || HasName(items[1..], n))
  }

  /** A well-formed rule: plain characters are not regex syntax, placeholder
      names are valid group names, and no name is used twice. */
  predicate Wf(items: seq<Item>)
  {
    |items| == 0 ||
    ((items[0].T? ==> !Meta(items[0].c)) &&
     (items[0].P? ==> ValidName(items[0].name) && !HasName(items[1..], items[0].name)) &&
     Wf(items[1..]))
  }

  /** The fragment bound to a name; unbound names get the default `\w+`. */
  function FragOf(F: map<string, Fragment>, n: string): Fragment
  {
    if n in F then F[n] else Word
  }

  /** The pattern a well-formed rule stands for: an optional placeholder right
      after `/` or `-` becomes a group that includes the delimiter. */
  function Reference(items: seq<Item>, F: map<string, Fragment>): seq<Atom>
  {
    if |items| == 0 then []
    else if |items| >= 2 && items[0].T? && (items[0].c == '/' || items[0].c == '-') && items[1].P? && items[1].optional then
      [Group(items[1].name, FragOf(F, items[1].name), Delimited(items[0].c))] + Reference(items[2..], F)
    else match items[0]
      case T(c) => [TextAtom(c)] + Reference(items[1..], F)
      case P(n, opt) => [Group(n, FragOf(F, n), if opt then Optional else Required)] + Reference(items[1..], F)
  }

  /** The delimited group of `Render`: the delimiter and an optional
      placeholder whose name is already bound. */
  predicate Absorbs(items: seq<Item>, F: map<string, Fragment>)
  {
    |items| >= 2 && items[0].T? && (items[0].c == '/' || items[0].c == '-') &&
    items[1].P? && items[1].optional && items[1].name in F
  }

  /** The pattern text of the first one or two items. */
  function Chunk(items: seq<Item>, F: map<string, Fragment>): seq<PTok>
    requires |items| > 0
  {
    if Absorbs(items, F) then [Cap(items[1].name, F[items[1].name], Delimited(items[0].c))]
    else match items[0]
      case T(c) => Chars(QuiteChar(c))
      case P(n, opt) =>
        if n in F then [Cap(n, F[n], if opt then Optional else Required)] else Chars(PlaceText(n, opt))
  }

  /** How many items `Chunk` covers. */
  function Width(items: seq<Item>, F: map<string, Fragment>): (w: nat)
    requires |items| > 0
    ensures 1 <= w <= |items|
  {
    if Absorbs(items, F) then 2 else 1
  }

  /** The escaped rule with the names bound in `F` already replaced. */
  function Render(items: seq<Item>, F: map<string, Fragment>): seq<PTok>
    decreases |items|
  {
    if |items| == 0 then [] else Chunk(items, F) + Render(items[Width(items, F)..], F)
  }

  /** Where a name occurs, told by the first of the four search texts that
      would find it there. */
  function Occ(items: seq<Item>, n: string): Option<Shape>
  {
    if |items| == 0 then None
    else if |items| >= 2 && items[0] == T('/') && items[1] == P(n, true) then Some(SlashOptional)
    else if |items| >= 2 && items[0] == T('-') && items[1] == P(n, true) then Some(DashOptional)
    else if items[0] == P(n, true) then Some(BareOptional)
    else if items[0] == P(n, false) then Some(BareRequired)
    else Occ(items[1..], n)
  }

  /** The form `replace` will use for `n`: a name that does not occur falls
      through to the last branch. */
  function ShapeIn(items: seq<Item>, n: string): Shape
  {
    match Occ(items, n)
    case None => BareRequired
    case Some(sh) => sh
  }

  /** The group form `replace` writes for each search text. */
  function FormOf(sh: Shape): Form
  {
    match sh
    case SlashOptional => Delimited('/')
    case DashOptional => Delimited('-')
    case BareOptional => Optional
    case BareRequired => Required
  }

  /** The delimiter `replace` records for a name. */
  function DelimOf(items: seq<Item>, n: string): Option<char>
  {
    match Occ(items, n)
    case Some(SlashOptional) => Some('/')
    case Some(DashOptional) => Some('-')
    case _ => None
  }

  /** The prefixes recorded once the names in `F` are replaced. */
  function Pre(items: seq<Item>, F: map<string, Fragment>): map<string, char>
  {
    map k | k in F && DelimOf(items, k).Some? :: DelimOf(items, k).value
  }

  /** The search text `sh` finds `n` at the very start of the items. */
  predicate AtHead(items: seq<Item>, n: string, sh: Shape)
  {
    match sh
    case SlashOptional => |items| >= 2 && items[0] == T('/') && items[1] == P(n, true)
    case DashOptional => |items| >= 2 && items[0] == T('-') && items[1] == P(n, true)
    case BareOptional => |items| > 0 && items[0] == P(n, true)
    case BareRequired => |items| > 0 && items[0] == P(n, false)
  }

  /** The search text `sh` finds an occurrence of shape `occ`: `{n?}` is also
      part of `\/{n?}` and `\-{n?}`. */
  predicate Covers(occ: Option<Shape>, sh: Shape)
  {
    occ == Some(sh) || (sh == BareOptional && (occ == Some(SlashOptional) || occ == Some(DashOptional)))
  }

  // ----- token-level facts -----

  /** The tokens a search text can start with. */
  predicate Special(t: PTok)
  {
    t == Ch('{') || t == Ch('\\')
  }

  predicate Plain(y: seq<PTok>)
  {
    forall i :: 0 <= i < |y| ==> !Special(y[i])
  }

  lemma NeedleHead(n: string, sh: Shape)
    ensures Special(Needle(n, sh)[0])
    ensures sh in {SlashOptional, DashOptional} <==> Needle(n, sh)[0] == Ch('\\')
    ensures Needle(n, BareOptional) == Chars(PlaceText(n, true))
    ensures Needle(n, BareRequired) == Chars(PlaceText(n, false))
    ensures Needle(n, SlashOptional) == Chars("\\/") + Chars(PlaceText(n, true))
    ensures Needle(n, DashOptional) == Chars("\\-") + Chars(PlaceText(n, true))
  {
    assert "\\/{" + n + "?}" == "\\/" + PlaceText(n, true);
    assert "\\-{" + n + "?}" == "\\-" + PlaceText(n, true);
    CharsAppend("\\/", PlaceText(n, true));
    CharsAppend("\\-", PlaceText(n, true));
  }

  lemma PlaceTextAt(n: string, opt: bool)
    ensures |PlaceText(n, opt)| == |n| + (if opt then 3 else 2)
    ensures PlaceText(n, opt)[0] == '{'
    ensures forall j :: 0 <= j < |n| ==> PlaceText(n, opt)[1 + j] == n[j]
    ensures PlaceText(n, opt)[1 + |n|] == if opt then '?' else '}'
    ensures opt ==> PlaceText(n, opt)[2 + |n|] == '}'
  {
  }

  /** A placeholder's text holds neither delimiter, so `quite` keeps it. */
  lemma PlaceNoDelims(n: string, opt: bool)
    requires IsWord(n)
    ensures '/' !in PlaceText(n, opt) && '-' !in PlaceText(n, opt)
  {
    var head := PlaceText(n, opt);
    PlaceTextAt(n, opt);
    forall i | 0 <= i < |head|
      ensures head[i] != '/' && head[i] != '-'
    {
      if 1 <= i <= |n| {
        var ch := n[i - 1];
        assert head[i] == ch;
        assert IsWordChar(ch);
      }
    }
  }

  /** The tokens after the opening brace of a placeholder start no search
      text. */
  lemma PlaceTailPlain(n: string, opt: bool)
    requires IsWord(n)
    ensures Plain(Chars(PlaceText(n, opt))[1..])
  {
    PlaceTextAt(n, opt);
    var y := Chars(PlaceText(n, opt))[1..];
    forall i | 0 <= i < |y|
      ensures !Special(y[i])
    {
      assert y[i] == Ch(PlaceText(n, opt)[i + 1]);
      if i < |n| {
        assert IsWordChar(n[i]);
      }
    }
  }

  /** Two different placeholders differ within the shorter one. */
  lemma {:induction false} PlaceMismatch(n: string, o1: bool, m: string, o2: bool) returns (i: nat)
    requires IsWord(n) && IsWord(m)
    requires !(n == m && o1 == o2)
    ensures i < |PlaceText(n, o1)| && i < |PlaceText(m, o2)|
    ensures PlaceText(n, o1)[i] != PlaceText(m, o2)[i]
  {
    PlaceTextAt(n, o1);
    PlaceTextAt(m, o2);
    if |n| < |m| {
      i := 1 + |n|;
      assert IsWordChar(m[|n|]);
    } else if |n| > |m| {
      i := 1 + |m|;
      assert IsWordChar(n[|m|]);
    } else if n != m {
      var j :| 0 <= j < |n| && n[j] != m[j];
      i := 1 + j;
    } else {
      i := 1 + |n|;
    }
  }

  /** A bare search text is found at a placeholder exactly when it is that
      placeholder. */
  lemma PlaceMatch(n: string, o1: bool, m: string, o2: bool, b: seq<PTok>)
    requires IsWord(n) && IsWord(m)
    ensures Chars(PlaceText(n, o1)) <= Chars(PlaceText(m, o2)) + b <==> n == m && o1 == o2
  {
    if !(n == m && o1 == o2) {
      var i := PlaceMismatch(n, o1, m, o2);
      assert Chars(PlaceText(n, o1))[i] != (Chars(PlaceText(m, o2)) + b)[i];
    }
  }

  lemma {:induction false} ContainsPlain(y: seq<PTok>, b: seq<PTok>, nd: seq<PTok>)
    requires |nd| > 0 && Special(nd[0]) && Plain(y)
    ensures Contains(y + b, nd) == Contains(b, nd)
    decreases |y|
  {
    if |y| > 0 {
      assert (y + b)[0] == y[0];
      assert (y + b)[1..] == y[1..] + b;
      ContainsPlain(y[1..], b, nd);
    } else {
      assert y + b == b;
    }
  }

  lemma {:induction false} ReplaceAllPlain(y: seq<PTok>, b: seq<PTok>, nd: seq<PTok>, t: PTok)
    requires |nd| > 0 && Special(nd[0]) && Plain(y)
    ensures ReplaceAll(y + b, nd, t) == y + ReplaceAll(b, nd, t)
    decreases |y|
  {
    if |y| > 0 {
      assert (y + b)[0] == y[0];
      assert (y + b)[1..] == y[1..] + b;
      ReplaceAllPlain(y[1..], b, nd, t);
      assert y == [y[0]] + y[1..];
    } else {
      assert y + b == b;
    }
  }

  /** Only the first token of a chunk can start a search text. */
  lemma ChunkShape(items: seq<Item>, F: map<string, Fragment>)
    requires |items| > 0 && Wf(items)
    ensures |Chunk(items, F)| > 0
    ensures Plain(Chunk(items, F)[1..])
  {
    if !Absorbs(items, F) {
      match items[0]
      case T(c) =>
      case P(n, opt) =>
        if n !in F {
          PlaceTailPlain(n, opt);
        }
    }
  }

  /** `str_contains` looks at the head of `x`, then past all of `x`. */
  lemma ContainsHead(x: seq<PTok>, rest: seq<PTok>, nd: seq<PTok>)
    requires |x| > 0 && Plain(x[1..])
    requires |nd| > 0 && Special(nd[0])
    ensures Contains(x + rest, nd) == (nd <= x + rest || Contains(rest, nd))
  {
    assert (x + rest)[1..] == x[1..] + rest;
    ContainsPlain(x[1..], rest, nd);
  }

  /** `str_replace` keeps `x` when no search text starts at its head. */
  lemma ReplaceHead(x: seq<PTok>, rest: seq<PTok>, nd: seq<PTok>, t: PTok)
    requires |x| > 0 && Plain(x[1..])
    requires |nd| > 0 && Special(nd[0])
    requires !(nd <= x + rest)
    ensures ReplaceAll(x + rest, nd, t) == x + ReplaceAll(rest, nd, t)
  {
    var p := x + rest;
    assert p[0] == x[0] && p[1..] == x[1..] + rest;
    assert ReplaceAll(p, nd, t) == [x[0]] + ReplaceAll(p[1..], nd, t);
    ReplaceAllPlain(x[1..], rest, nd, t);
    ConsRegroup(x, ReplaceAll(rest, nd, t));
  }

  lemma RenderUnfold(items: seq<Item>, F: map<string, Fragment>)
    requires |items| > 0
    ensures Render(items, F) == Chunk(items, F) + Render(items[Width(items, F)..], F)
  {
  }

  /** `str_contains` over a rendered rule looks at each chunk's start. */
  lemma ContainsStep(items: seq<Item>, F: map<string, Fragment>, nd: seq<PTok>)
    requires |items| > 0 && Wf(items)
    requires |nd| > 0 && Special(nd[0])
    ensures Contains(Render(items, F), nd) ==
            (nd <= Render(items, F) || Contains(Render(items[Width(items, F)..], F), nd))
  {
    ChunkShape(items, F);
    RenderUnfold(items, F);
    ContainsHead(Chunk(items, F), Render(items[Width(items, F)..], F), nd);
  }

  /** `str_replace` over a rendered rule keeps a chunk where no search text
      starts. */
  lemma ReplaceStep(items: seq<Item>, F: map<string, Fragment>, nd: seq<PTok>, t: PTok)
    requires |items| > 0 && Wf(items)
    requires |nd| > 0 && Special(nd[0])
    requires !(nd <= Render(items, F))
    ensures ReplaceAll(Render(items, F), nd, t) ==
            Chunk(items, F) + ReplaceAll(Render(items[Width(items, F)..], F), nd, t)
  {
    ChunkShape(items, F);
    RenderUnfold(items, F);
    ReplaceHead(Chunk(items, F), Render(items[Width(items, F)..], F), nd, t);
  }

  /** Comparing a concatenation with one whose first parts have equal length. */
  lemma PrefixConcat(a: seq<PTok>, b: seq<PTok>, c: seq<PTok>, d: seq<PTok>)
    requires |a| == |c|
    ensures a + b <= c + d <==> a == c && b <= d
  {
    if a + b <= c + d {
      assert a == (a + b)[..|a|] == (c + d)[..|c|] == c;
      assert forall i :: 0 <= i < |b| ==> b[i] == (a + b)[|a| + i] == (c + d)[|c| + i] == d[i];
    }
  }

  // ----- where a search text is found -----

  /** Nothing that starts with a different token is found at the head. */
  lemma HeadDiffers(x: seq<PTok>, rest: seq<PTok>, nd: seq<PTok>)
    requires |x| > 0 && |nd| > 0 && x[0] != nd[0]
    ensures !(nd <= x + rest)
  {
    assert (x + rest)[0] == x[0];
  }

  /** At an escaped delimiter only that delimiter's search text can start, and
      it does when the placeholder text follows. */
  lemma HeadDelim(c: char, rest: seq<PTok>, n: string, sh: Shape)
    requires c == '/' || c == '-'
    ensures Needle(n, sh) <= Chars("\\" + [c]) + rest <==>
            (sh == (if c == '/' then SlashOptional else DashOptional) && Chars(PlaceText(n, true)) <= rest)
  {
    NeedleHead(n, sh);
    var x := Chars("\\" + [c]);
    if sh == SlashOptional || sh == DashOptional {
      var d := if sh == SlashOptional then '/' else '-';
      var y := Chars("\\" + [d]);
      assert Needle(n, sh) == y + Chars(PlaceText(n, true));
      PrefixConcat(y, Chars(PlaceText(n, true)), x, rest);
      assert y == x <==> c == d by {
        assert y[1] == Ch(d) && x[1] == Ch(c);
      }
    } else {
      HeadDiffers(x, rest, Needle(n, sh));
    }
  }

  /** A search text for an unbound name is found at the start of the rendered
      rule exactly when the rule starts with that occurrence. */
  lemma {:induction false} HeadMatch(items: seq<Item>, F: map<string, Fragment>, n: string, sh: Shape)
    requires Wf(items) && IsWord(n) && n !in F
    ensures Needle(n, sh) <= Render(items, F) <==> AtHead(items, n, sh)
    decreases |items|
  {
    NeedleHead(n, sh);
    if |items| > 0 {
      if Absorbs(items, F) {
        HeadAbsorbed(items, F, n, sh);
      } else if items[0].T? && (items[0].c == '/' || items[0].c == '-') {
        HeadMatch(items[1..], F, n, BareOptional);
        HeadEscaped(items, F, n, sh);
      } else if items[0].T? {
        HeadPlainChar(items, F, n, sh);
      } else {
        HeadPlace(items, F, n, sh);
      }
    }
  }

  /** `HeadMatch` at an absorbed delimiter: the chunk starts with a group. */
  lemma HeadAbsorbed(items: seq<Item>, F: map<string, Fragment>, n: string, sh: Shape)
    requires Wf(items) && n !in F && Absorbs(items, F)
    ensures Needle(n, sh) <= Render(items, F) <==> AtHead(items, n, sh)
  {
    NeedleHead(n, sh);
    RenderUnfold(items, F);
    HeadDiffers(Chunk(items, F), Render(items[Width(items, F)..], F), Needle(n, sh));
  }

  /** `HeadMatch` at an escaped delimiter that absorbs nothing. */
  lemma HeadEscaped(items: seq<Item>, F: map<string, Fragment>, n: string, sh: Shape)
    requires Wf(items) && n !in F && |items| > 0 && !Absorbs(items, F)
    requires items[0].T? && (items[0].c == '/' || items[0].c == '-')
    requires Needle(n, BareOptional) <= Render(items[1..], F) <==> AtHead(items[1..], n, BareOptional)
    ensures Needle(n, sh) <= Render(items, F) <==> AtHead(items, n, sh)
  {
    var c := items[0].c;
    var rest := Render(items[1..], F);
    NeedleHead(n, BareOptional);
    RenderUnfold(items, F);
    assert QuiteChar(c) == "\\" + [c];
    assert Render(items, F) == Chars("\\" + [c]) + rest;
    HeadDelim(c, rest, n, sh);
    assert Chars(PlaceText(n, true)) <= rest <==> AtHead(items[1..], n, BareOptional);
    assert AtHead(items, n, sh) <==>
      (sh == (if c == '/' then SlashOptional else DashOptional) && AtHead(items[1..], n, BareOptional));
  }

  /** `HeadMatch` at any other literal character. */
  lemma HeadPlainChar(items: seq<Item>, F: map<string, Fragment>, n: string, sh: Shape)
    requires Wf(items) && n !in F && |items| > 0 && !Absorbs(items, F)
    requires items[0].T? && items[0].c != '/' && items[0].c != '-'
    ensures Needle(n, sh) <= Render(items, F) <==> AtHead(items, n, sh)
  {
    NeedleHead(n, sh);
    RenderUnfold(items, F);
    HeadDiffers(Chunk(items, F), Render(items[1..], F), Needle(n, sh));
  }

  /** `HeadMatch` at a placeholder. */
  lemma HeadPlace(items: seq<Item>, F: map<string, Fragment>, n: string, sh: Shape)
    requires Wf(items) && IsWord(n) && n !in F && |items| > 0 && !Absorbs(items, F) && items[0].P?
    ensures Needle(n, sh) <= Render(items, F) <==> AtHead(items, n, sh)
  {
    NeedleHead(n, sh);
    RenderUnfold(items, F);
    var x := Chunk(items, F);
    var rest := Render(items[1..], F);
    var m := items[0].name;
    if m in F {
      HeadDiffers(x, rest, Needle(n, sh));
    } else if sh == BareOptional || sh == BareRequired {
      PlaceMatch(n, sh == BareOptional, m, items[0].optional, rest);
    } else {
      PlaceTextAt(m, items[0].optional);
      HeadDiffers(x, rest, Needle(n, sh));
    }
  }

  lemma {:induction false} OccAbsent(items: seq<Item>, n: string)
    requires !HasName(items, n)
    ensures Occ(items, n) == None
    decreases |items|
  {
    if |items| > 0 {
      OccAbsent(items[1..], n);
    }
  }

  /** How the occurrence of a name is found chunk by chunk. */
  lemma OccStep(items: seq<Item>, F: map<string, Fragment>, n: string, sh: Shape)
    requires |items| > 0 && Wf(items) && n !in F
    ensures Covers(Occ(items, n), sh) == (AtHead(items, n, sh) || Covers(Occ(items[Width(items, F)..], n), sh))
  {
    if |items| >= 2 && (items[0] == T('/') || items[0] == T('-')) && items[1] == P(n, true) {
      assert Occ(items[1..], n) == Some(BareOptional);
    } else if items[0].P? && items[0].name == n {
      OccAbsent(items[1..], n);
    } else if Absorbs(items, F) {
      assert Occ(items, n) == Occ(items[1..], n);
      assert Occ(items[1..], n) == Occ(items[2..], n);
    }
  }

  /** `str_contains` of each search text for an unbound name, on a rendered
      rule. */
  lemma {:induction false} ContainsRender(items: seq<Item>, F: map<string, Fragment>, n: string, sh: Shape)
    requires Wf(items) && IsWord(n) && n !in F
    ensures Contains(Render(items, F), Needle(n, sh)) <==> Covers(Occ(items, n), sh)
    decreases |items|
  {
    if |items| > 0 {
      NeedleHead(n, sh);
      ContainsStep(items, F, Needle(n, sh));
      HeadMatch(items, F, n, sh);
      ContainsRender(items[Width(items, F)..], F, n, sh);
      OccStep(items, F, n, sh);
    }
  }

  /** `replace` picks the form in which the name occurs. */
  lemma ChosenShapeRender(items: seq<Item>, F: map<string, Fragment>, n: string)
    requires Wf(items) && IsWord(n) && n !in F
    ensures ChosenShape(Render(items, F), n) == ShapeIn(items, n)
  {
    ContainsRender(items, F, n, SlashOptional);
    ContainsRender(items, F, n, DashOptional);
    ContainsRender(items, F, n, BareOptional);
  }

  // ----- what `replace` does -----

  /** Binding a name the rule does not use changes nothing. */
  lemma {:induction false} RenderIgnores(items: seq<Item>, F: map<string, Fragment>, n: string, f: Fragment)
    requires !HasName(items, n)
    ensures Render(items, F[n := f]) == Render(items, F)
    decreases |items|
  {
    if |items| > 0 {
      assert Absorbs(items, F[n := f]) == Absorbs(items, F);
      assert Chunk(items, F[n := f]) == Chunk(items, F);
      if Absorbs(items, F) {
        assert !HasName(items[2..], n) by {
          assert HasName(items[1..], n) == HasName(items[2..], n);
        }
      }
      RenderIgnores(items[Width(items, F)..], F, n, f);
    }
  }

  /** The case of the rendered rule where the occurrence of `n` is the first
      chunk: both sides continue with the same text. */
  lemma ReplaceAtHead(items: seq<Item>, F: map<string, Fragment>, n: string, f: Fragment, k: nat)
    requires Wf(items) && IsWord(n) && n !in F
    requires 1 <= k <= |items| && !HasName(items[k..], n)
    requires Render(items, F) == Needle(n, ShapeIn(items, n)) + Render(items[k..], F)
    requires Render(items, F[n := f]) == [Cap(n, f, FormOf(ShapeIn(items, n)))] + Render(items[k..], F[n := f])
    ensures ReplaceAll(Render(items, F), Needle(n, ShapeIn(items, n)), Cap(n, f, FormOf(ShapeIn(items, n))))
            == Render(items, F[n := f])
  {
    var sh := ShapeIn(items, n);
    var nd := Needle(n, sh);
    var t := Cap(n, f, FormOf(sh));
    var rest := Render(items[k..], F);
    assert Wf(items[k..]) by { WfSuffix(items, k); }
    OccAbsent(items[k..], n);
    ContainsRender(items[k..], F, n, sh);
    ReplaceAllAbsent(rest, nd, t);
    RenderIgnores(items[k..], F, n, f);
    assert (nd + rest)[|nd|..] == rest;
  }

  lemma {:induction false} WfSuffix(items: seq<Item>, k: nat)
    requires Wf(items) && k <= |items|
    ensures Wf(items[k..])
    decreases k
  {
    if k > 0 {
      WfSuffix(items[1..], k - 1);
      assert items[1..][k - 1..] == items[k..];
    }
  }

  /** Before `n` is bound, `\/{n?}` at the head renders as its search text. */
  lemma DelimHeadUnbound(items: seq<Item>, F: map<string, Fragment>, n: string)
    requires n !in F
    requires |items| >= 2 && (items[0] == T('/') || items[0] == T('-')) && items[1] == P(n, true)
    ensures Render(items, F) == Needle(n, ShapeIn(items, n)) + Render(items[2..], F)
  {
    var c := items[0].c;
    var sh := if c == '/' then SlashOptional else DashOptional;
    assert ShapeIn(items, n) == sh;
    assert Needle(n, sh) == Chars("\\" + [c]) + Chars(PlaceText(n, true)) by {
      NeedleHead(n, sh);
      if c == '/' {
        assert "\\/" == "\\" + [c];
      } else {
        assert "\\-" == "\\" + [c];
      }
    }
    DelimHeadChars(items, F, n, c);
  }

  lemma DelimHeadChars(items: seq<Item>, F: map<string, Fragment>, n: string, c: char)
    requires n !in F && (c == '/' || c == '-')
    requires |items| >= 2 && items[0] == T(c) && items[1] == P(n, true)
    ensures Render(items, F) == Chars("\\" + [c]) + Chars(PlaceText(n, true)) + Render(items[2..], F)
  {
    var a, b, r := Chars("\\" + [c]), Chars(PlaceText(n, true)), Render(items[2..], F);
    RenderHeadChar(items, F, c);
    RenderHeadPlace(items[1..], F, n);
    assert items[1..][1..] == items[2..];
    assert a + (b + r) == (a + b) + r;
  }

  lemma RenderHeadChar(items: seq<Item>, F: map<string, Fragment>, c: char)
    requires c == '/' || c == '-'
    requires |items| >= 2 && items[0] == T(c) && items[1].P? && items[1].name !in F
    ensures Render(items, F) == Chars("\\" + [c]) + Render(items[1..], F)
  {
    RenderUnfold(items, F);
    assert QuiteChar(c) == "\\" + [c];
  }

  lemma RenderHeadPlace(items: seq<Item>, F: map<string, Fragment>, n: string)
    requires n !in F
    requires |items| >= 1 && items[0] == P(n, true)
    ensures Render(items, F) == Chars(PlaceText(n, true)) + Render(items[1..], F)
  {
    RenderUnfold(items, F);
  }

  /** After `n` is bound, `\/{n?}` at the head renders as one group. */
  lemma DelimHeadBound(items: seq<Item>, F: map<string, Fragment>, n: string, f: Fragment)
    requires |items| >= 2 && (items[0] == T('/') || items[0] == T('-')) && items[1] == P(n, true)
    ensures Render(items, F[n := f]) == [Cap(n, f, FormOf(ShapeIn(items, n)))] + Render(items[2..], F[n := f])
  {
    RenderUnfold(items, F[n := f]);
  }

  /** The occurrence is `\/{n?}` or `\-{n?}` at the head. */
  lemma ReplaceDelimHead(items: seq<Item>, F: map<string, Fragment>, n: string, f: Fragment)
    requires Wf(items) && IsWord(n) && n !in F
    requires |items| >= 2 && (items[0] == T('/') || items[0] == T('-')) && items[1] == P(n, true)
    ensures ReplaceAll(Render(items, F), Needle(n, ShapeIn(items, n)), Cap(n, f, FormOf(ShapeIn(items, n))))
            == Render(items, F[n := f])
  {
    assert !HasName(items[2..], n) by {
      assert !HasName(items[1..][1..], n);
    }
    DelimHeadUnbound(items, F, n);
    DelimHeadBound(items, F, n, f);
    ReplaceAtHead(items, F, n, f, 2);
  }

  /** The occurrence is `{n?}` or `{n}` at the head. */
  lemma ReplaceBareHead(items: seq<Item>, F: map<string, Fragment>, n: string, f: Fragment)
    requires Wf(items) && IsWord(n) && n !in F
    requires |items| > 0 && items[0].P? && items[0].name == n
    ensures ReplaceAll(Render(items, F), Needle(n, ShapeIn(items, n)), Cap(n, f, FormOf(ShapeIn(items, n))))
            == Render(items, F[n := f])
  {
    var sh := ShapeIn(items, n);
    NeedleHead(n, sh);
    RenderUnfold(items, F);
    RenderUnfold(items, F[n := f]);
    assert Needle(n, sh) == Chars(PlaceText(n, items[0].optional));
    ReplaceAtHead(items, F, n, f, 1);
  }

  /** The head chunk holds no occurrence: it is kept, and the rest is
      replaced as the induction hypothesis says. */
  lemma ReplaceSkip(items: seq<Item>, F: map<string, Fragment>, n: string, f: Fragment)
    requires Wf(items) && IsWord(n) && n !in F && |items| > 0
    requires !(|items| >= 2 && (items[0] == T('/') || items[0] == T('-')) && items[1] == P(n, true))
    requires !(items[0].P? && items[0].name == n)
    requires var w := Width(items, F);
      ReplaceAll(Render(items[w..], F), Needle(n, ShapeIn(items[w..], n)), Cap(n, f, FormOf(ShapeIn(items[w..], n))))
      == Render(items[w..], F[n := f])
    ensures ReplaceAll(Render(items, F), Needle(n, ShapeIn(items, n)), Cap(n, f, FormOf(ShapeIn(items, n))))
            == Render(items, F[n := f])
  {
    var sh := ShapeIn(items, n);
    var w := Width(items, F);
    var G := F[n := f];
    NeedleHead(n, sh);
    assert Absorbs(items, G) == Absorbs(items, F);
    assert Chunk(items, G) == Chunk(items, F);
    assert Occ(items, n) == Occ(items[w..], n) by {
      if w == 2 {
        assert Occ(items[1..], n) == Occ(items[2..], n);
      }
    }
    HeadMatch(items, F, n, sh);
    ReplaceStep(items, F, Needle(n, sh), Cap(n, f, FormOf(sh)));
    RenderUnfold(items, G);
  }

  /** `str_replace` of the chosen search text turns the rule rendered with
      `F` into the rule rendered with `n` bound as well. */
  lemma {:induction false} ReplaceRender(items: seq<Item>, F: map<string, Fragment>, n: string, f: Fragment)
    requires Wf(items) && IsWord(n) && n !in F
    ensures ReplaceAll(Render(items, F), Needle(n, ShapeIn(items, n)), Cap(n, f, FormOf(ShapeIn(items, n))))
            == Render(items, F[n := f])
    decreases |items|
  {
    if |items| == 0 {
    } else if |items| >= 2 && (items[0] == T('/') || items[0] == T('-')) && items[1] == P(n, true) {
      ReplaceDelimHead(items, F, n, f);
    } else if items[0].P? && items[0].name == n {
      ReplaceBareHead(items, F, n, f);
    } else {
      WfSuffix(items, Width(items, F));
      ReplaceRender(items[Width(items, F)..], F, n, f);
      ReplaceSkip(items, F, n, f);
    }
  }

  /** `replace` through the form it picks. */
  lemma ReplaceByShape(c: Compiled, n: string, f: Fragment)
    ensures var sh := ChosenShape(c.pattern, n);
      Replace(c, n, f) == Compiled(ReplaceAll(c.pattern, Needle(n, sh), Cap(n, f, FormOf(sh))),
        if sh == SlashOptional then c.prefixes[n := '/']
        else if sh == DashOptional then c.prefixes[n := '-']
        else c.prefixes)
  {
  }

  /** The recorded prefixes after binding `n`. */
  lemma PreBind(items: seq<Item>, F: map<string, Fragment>, n: string, f: Fragment)
    ensures Pre(items, F[n := f]) ==
      if ShapeIn(items, n) == SlashOptional then Pre(items, F)[n := '/']
      else if ShapeIn(items, n) == DashOptional then Pre(items, F)[n := '-']
      else Pre(items, F)
  {
  }

  /** One call of `replace` for a name the rule has not bound yet: the
      pattern and the recorded prefixes move from `F` to `F[n := f]`. */
  lemma ReplaceState(items: seq<Item>, F: map<string, Fragment>, n: string, f: Fragment)
    requires Wf(items) && IsWord(n) && n !in F
    ensures Replace(Compiled(Render(items, F), Pre(items, F)), n, f) ==
            Compiled(Render(items, F[n := f]), Pre(items, F[n := f]))
  {
    ChosenShapeRender(items, F, n);
    ReplaceRender(items, F, n, f);
    ReplaceByShape(Compiled(Render(items, F), Pre(items, F)), n, f);
    PreBind(items, F, n, f);
  }

  // ----- the constraints, in `where` order -----

  /** The names bound after the constraints, in array order. */
  function Bind(F: map<string, Fragment>, where: Assoc<string, Fragment>): map<string, Fragment>
    decreases |where|
  {
    if |where| == 0 then F else Bind(F[where[0].0 := where[0].1], where[1..])
  }

  /** `array_walk` over the constraints moves the pattern from `F` to
      `Bind(F, where)`, one name at a time. */
  lemma {:induction false} ApplyWhereState(items: seq<Item>, F: map<string, Fragment>, where: Assoc<string, Fragment>)
    requires Wf(items) && Unique(where)
    requires forall i :: 0 <= i < |where| ==> IsNameKey(where[i].0)
    requires forall k :: HasKey(where, k) ==> k !in F
    ensures ApplyWhere(Compiled(Render(items, F), Pre(items, F)), where) ==
            Compiled(Render(items, Bind(F, where)), Pre(items, Bind(F, where)))
    decreases |where|
  {
    if |where| > 0 {
      var k0 := where[0].0;
      assert IsWord(k0);
      ReplaceState(items, F, k0, where[0].1);
      var rest := where[1..];
      assert forall i :: 0 <= i < |rest| ==> IsNameKey(rest[i].0) by {
        forall i | 0 <= i < |rest| ensures IsNameKey(rest[i].0) {
          assert rest[i] == where[i + 1];
        }
      }
      ApplyWhereState(items, F[k0 := where[0].1], rest);
    }
  }

  /** What `Bind` binds: the keys of `where` to their values, all else as in
      `F`. */
  lemma {:induction false} BindGet(F: map<string, Fragment>, where: Assoc<string, Fragment>, k: string)
    requires Unique(where)
    ensures k in Bind(F, where) <==> k in F || HasKey(where, k)
    ensures HasKey(where, k) ==> Bind(F, where)[k] == Get(where, k).value
    ensures !HasKey(where, k) && k in F ==> Bind(F, where)[k] == F[k]
    decreases |where|
  {
    if |where| > 0 {
      BindGet(F[where[0].0 := where[0].1], where[1..], k);
    }
  }

  // ----- the leftover placeholders -----

  /** The placeholders not bound in `F`, in rule order. */
  function Free(items: seq<Item>, F: map<string, Fragment>): seq<string>
  {
    if |items| == 0 then []
    else (if items[0].P? && items[0].name !in F then [items[0].name] else []) + Free(items[1..], F)
  }

  lemma {:induction false} WordRunOf(w: string, b: seq<PTok>)
    requires forall i :: 0 <= i < |w| ==> IsWordChar(w[i])
    requires |b| > 0 && !(b[0].Ch? && IsWordChar(b[0].c))
    ensures WordRun(Chars(w) + b) == w
    decreases |w|
  {
    if |w| > 0 {
      var p := Chars(w) + b;
      assert p[0] == Ch(w[0]);
      assert p[1..] == Chars(w[1..]) + b;
      WordRunOf(w[1..], b);
      assert w == [w[0]] + w[1..];
    } else {
      assert Chars(w) + b == b;
    }
  }

  /** The scan finds an unbound placeholder exactly as written. */
  lemma ScanPlace(m: string, opt: bool, rest: seq<PTok>)
    requires IsWord(m)
    ensures Scan(Chars(PlaceText(m, opt)) + rest) == [m] + Scan(rest)
  {
    var tail := if opt then "?}" else "}";
    var x := Chars(PlaceText(m, opt));
    var p := x + rest;
    assert PlaceText(m, opt) == "{" + (m + tail);
    CharsAppend("{", m + tail);
    CharsAppend(m, tail);
    assert p[1..] == Chars(m) + (Chars(tail) + rest);
    WordRunOf(m, Chars(tail) + rest);
    PlaceTextAt(m, opt);
    assert ScanAt(p) == Some((m, |x|));
    assert p[|x|..] == rest;
  }

  lemma {:induction false} ScanNoBrace(y: seq<PTok>, b: seq<PTok>)
    requires forall i :: 0 <= i < |y| ==> y[i] != Ch('{')
    ensures Scan(y + b) == Scan(b)
    decreases |y|
  {
    if |y| > 0 {
      assert (y + b)[0] == y[0];
      assert (y + b)[1..] == y[1..] + b;
      ScanNoBrace(y[1..], b);
    } else {
      assert y + b == b;
    }
  }

  /** `preg_match_all('/{(\w+)\??}/')` on a rendered rule reports exactly the
      placeholders not yet bound. */
  lemma {:induction false} ScanRender(items: seq<Item>, F: map<string, Fragment>)
    requires Wf(items)
    ensures Scan(Render(items, F)) == Free(items, F)
    decreases |items|
  {
    if |items| > 0 {
      var w := Width(items, F);
      var x := Chunk(items, F);
      var rest := Render(items[w..], F);
      RenderUnfold(items, F);
      WfSuffix(items, w);
      ScanRender(items[w..], F);
      if items[0].P? && items[0].name !in F {
        ScanPlace(items[0].name, items[0].optional, rest);
      } else {
        ScanNoBrace(x, rest);
        if w == 2 {
          assert Free(items[1..], F) == Free(items[2..], F);
        }
      }
    }
  }

  /** The leftover names are distinct, valid, unbound, and used by the rule. */
  lemma {:induction false} FreeFacts(items: seq<Item>, F: map<string, Fragment>)
    requires Wf(items)
    ensures Distinct(Free(items, F))
    ensures forall i :: 0 <= i < |Free(items, F)| ==>
      ValidName(Free(items, F)[i]) && Free(items, F)[i] !in F && HasName(items, Free(items, F)[i])
    decreases |items|
  {
    if |items| > 0 {
      FreeFacts(items[1..], F);
      var fr := Free(items, F);
      var tl := Free(items[1..], F);
      if items[0].P? && items[0].name !in F {
        assert fr == [items[0].name] + tl;
        assert fr[1..] == tl;
      } else {
        assert fr == tl;
      }
    }
  }

  /** An unbound name the rule uses is among the leftovers. */
  lemma {:induction false} FreeHas(items: seq<Item>, F: map<string, Fragment>, x: string)
    requires HasName(items, x) && x !in F
    ensures x in Free(items, F)
    decreases |items|
  {
    if !(items[0].P? && items[0].name == x) {
      FreeHas(items[1..], F, x);
    }
  }

  /** The leftovers bound to the default fragment. */
  function BindWord(F: map<string, Fragment>, names: seq<string>): map<string, Fragment>
    decreases |names|
  {
    if |names| == 0 then F else BindWord(F[names[0] := Word], names[1..])
  }

  lemma {:induction false} BindWordGet(F: map<string, Fragment>, names: seq<string>, k: string)
    ensures k in BindWord(F, names) <==> k in F || k in names
    ensures k in names ==> BindWord(F, names)[k] == Word
    ensures k !in names && k in F ==> BindWord(F, names)[k] == F[k]
    decreases |names|
  {
    if |names| > 0 {
      BindWordGet(F[names[0] := Word], names[1..], k);
    }
  }

  /** `array_map` of `replace` over the leftover names. */
  lemma {:induction false} ApplyDefaultsState(items: seq<Item>, F: map<string, Fragment>, names: seq<string>)
    requires Wf(items) && Distinct(names)
    requires forall i :: 0 <= i < |names| ==> IsWord(names[i]) && names[i] !in F
    ensures ApplyDefaults(Compiled(Render(items, F), Pre(items, F)), names) ==
            Compiled(Render(items, BindWord(F, names)), Pre(items, BindWord(F, names)))
    decreases |names|
  {
    if |names| > 0 {
      ReplaceState(items, F, names[0], Word);
      var rest := names[1..];
      assert forall i :: 0 <= i < |rest| ==> IsWord(rest[i]) && rest[i] !in F[names[0] := Word] by {
        forall i | 0 <= i < |rest| ensures IsWord(rest[i]) && rest[i] !in F[names[0] := Word] {
          assert rest[i] == names[i + 1];
        }
      }
      ApplyDefaultsState(items, F[names[0] := Word], rest);
    }
  }

  // ----- the whole of `makePattern` -----

  /** The escaped rule is the rule rendered with nothing bound. */
  lemma {:induction false} RenderEmpty(items: seq<Item>)
    requires Wf(items)
    ensures Chars(Quite(RuleText(items))) == Render(items, map[])
    ensures Pre(items, map[]) == map[]
    decreases |items|
  {
    if |items| > 0 {
      var head := match items[0] case T(c) => [c] case P(n, opt) => PlaceText(n, opt);
      QuiteAppend(head, RuleText(items[1..]));
      CharsAppend(Quite(head), Quite(RuleText(items[1..])));
      RenderEmpty(items[1..]);
      RenderUnfold(items, map[]);
      match items[0]
      case T(c) =>
        assert Quite(head) == QuiteChar(c);
      case P(n, opt) =>
        PlaceNoDelims(n, opt);
        QuiteIdentity(head);
    }
  }

  /** The binding `makePattern` ends with: the constraints, then `\w+` for
      every other placeholder. */
  function Binding(items: seq<Item>, where: Assoc<string, Fragment>): map<string, Fragment>
  {
    var b := Bind(map[], where);
    BindWord(b, Free(items, b))
  }

  /** Each placeholder of the rule is bound to its constraint, or to `\w+`
      when `where` has none for it. */
  lemma BindingSpec(items: seq<Item>, where: Assoc<string, Fragment>, n: string)
    requires Wf(items) && Unique(where) && HasName(items, n)
    ensures n in Binding(items, where)
    ensures Binding(items, where)[n] == GetOr(where, n, Word)
  {
    var b := Bind(map[], where);
    BindGet(map[], where, n);
    BindWordGet(b, Free(items, b), n);
    FreeFacts(items, b);
    if n !in b {
      FreeHas(items, b, n);
    }
  }

  /** `makePattern` on a well-formed rule: the pattern is the rule rendered
      with every placeholder bound as `Binding` says, and the prefixes are the
      delimiters of exactly the delimited optional placeholders. */
  lemma MakePatternState(items: seq<Item>, where: Assoc<string, Fragment>)
    requires Wf(items) && Unique(where)
    requires forall i :: 0 <= i < |where| ==> IsNameKey(where[i].0)
    ensures MakePattern(RuleText(items), where) ==
            Compiled(Render(items, Binding(items, where)), Pre(items, Binding(items, where)))
  {
    RenderEmpty(items);
    var c0 := Compiled(Chars(Quite(RuleText(items))), map[]);
    ApplyWhereState(items, map[], where);
    var b := Bind(map[], where);
    ScanRender(items, b);
    FreeFacts(items, b);
    ApplyDefaultsState(items, b, Free(items, b));
  }

  // ----- what the pattern means -----

  /** Every placeholder of the rule is bound. */
  ghost predicate AllBound(items: seq<Item>, F: map<string, Fragment>)
  {
    forall n :: HasName(items, n) ==> n in F
  }

  lemma AtomsCap(t: PTok, rest: seq<PTok>)
    requires t.Cap?
    ensures Atoms([t] + rest) == [Group(t.name, t.frag, t.form)] + Atoms(rest)
  {
    assert ([t] + rest)[1..] == rest;
  }

  lemma AtomsChar(c: char, rest: seq<PTok>)
    requires c != '\\'
    ensures Atoms([Ch(c)] + rest) == [TextAtom(c)] + Atoms(rest)
  {
    assert ([Ch(c)] + rest)[1..] == rest;
  }

  lemma AtomsEscape(c: char, rest: seq<PTok>)
    ensures Atoms([Ch('\\'), Ch(c)] + rest) == [Lit(c)] + Atoms(rest)
  {
    assert ([Ch('\\'), Ch(c)] + rest)[2..] == rest;
  }

  /** With every placeholder bound, PCRE reads the rendered rule as the
      reference pattern. */
  lemma {:induction false} AtomsRender(items: seq<Item>, F: map<string, Fragment>)
    requires Wf(items) && AllBound(items, F)
    ensures Atoms(Render(items, F)) == Reference(items, F)
    decreases |items|
  {
    if |items| > 0 {
      var w := Width(items, F);
      WfSuffix(items, w);
      AllBoundSuffix(items, F, w);
      AtomsRender(items[w..], F);
      AtomsRenderStep(items, F);
    }
  }

  lemma AllBoundSuffix(items: seq<Item>, F: map<string, Fragment>, w: nat)
    requires AllBound(items, F) && 1 <= w <= 2 && w <= |items|
    ensures AllBound(items[w..], F)
  {
    forall n | HasName(items[w..], n) ensures n in F {
      assert HasName(items[1..], n) by {
        if w == 2 {
          assert items[1..][1..] == items[2..];
        }
      }
    }
  }

  /** One chunk of `AtomsRender`: the chunk's atoms are the reference's
      first atom. */
  lemma AtomsRenderStep(items: seq<Item>, F: map<string, Fragment>)
    requires Wf(items) && AllBound(items, F) && |items| > 0
    requires Atoms(Render(items[Width(items, F)..], F)) == Reference(items[Width(items, F)..], F)
    ensures Atoms(Render(items, F)) == Reference(items, F)
  {
    var rest := Render(items[Width(items, F)..], F);
    RenderUnfold(items, F);
    if Absorbs(items, F) {
      AtomsCap(Chunk(items, F)[0], rest);
    } else {
      match items[0]
      case T(c) =>
        if c == '/' || c == '-' {
          assert !(items[1..] != [] && items[1].P? && items[1].optional) by {
            if |items| >= 2 && items[1].P? {
              assert HasName(items, items[1].name) by {
                assert HasName(items[1..], items[1].name);
              }
            }
          }
          AtomsEscape(c, rest);
        } else {
          AtomsChar(c, rest);
        }
      case P(n, opt) =>
        assert HasName(items, n);
        AtomsCap(Chunk(items, F)[0], rest);
    }
  }

  /** The groups of the reference pattern are the placeholders, in order. */
  lemma {:induction false} GroupNamesReference(items: seq<Item>, F: map<string, Fragment>)
    ensures GroupNames(Reference(items, F)) == Free(items, map[])
    decreases |items|
  {
    if |items| > 0 {
      if |items| >= 2 && items[0].T? && (items[0].c == '/' || items[0].c == '-') && items[1].P? && items[1].optional {
        GroupNamesReference(items[2..], F);
        var r := Reference(items, F);
        assert r[1..] == Reference(items[2..], F);
        assert Free(items, map[]) == Free(items[1..], map[]);
        assert items[1..][1..] == items[2..];
      } else {
        GroupNamesReference(items[1..], F);
        var r := Reference(items, F);
        assert r[1..] == Reference(items[1..], F);
      }
    }
  }

  /** A well-formed rule always compiles. */
  lemma ReferenceCompiles(items: seq<Item>, F: map<string, Fragment>)
    requires Wf(items)
    ensures Compiles(Reference(items, F))
  {
    GroupNamesReference(items, F);
    FreeFacts(items, map[]);
  }

  lemma {:induction false} OccHas(items: seq<Item>, n: string)
    requires Occ(items, n).Some?
    ensures HasName(items, n)
    decreases |items|
  {
    if |items| >= 2 && (items[0] == T('/') || items[0] == T('-')) && items[1] == P(n, true) {
      assert HasName(items[1..], n);
    } else if !(items[0].P? && items[0].name == n) {
      OccHas(items[1..], n);
    }
  }

  /** The delimiters of the delimited optional placeholders. */
  function Delims(items: seq<Item>): map<string, char>
  {
    var names := Free(items, map[]);
    map k | k in names && DelimOf(items, k).Some? :: DelimOf(items, k).value
  }

  /** `makePattern` on a well-formed rule with word-named constraints, read
      the way PCRE reads it: the reference pattern of the rule with each
      placeholder bound to its constraint or to `\w+`, a pattern that
      compiles, and a prefix entry for exactly the delimited optional
      placeholders. */
  lemma MakePatternMeaning(items: seq<Item>, where: Assoc<string, Fragment>)
    requires Wf(items) && Unique(where)
    requires forall i :: 0 <= i < |where| ==> IsNameKey(where[i].0)
    ensures Atoms(MakePattern(RuleText(items), where).pattern) == Reference(items, Binding(items, where))
    ensures Compiles(Atoms(MakePattern(RuleText(items), where).pattern))
    ensures MakePattern(RuleText(items), where).prefixes == Delims(items)
  {
    var b := Binding(items, where);
    MakePatternState(items, where);
    assert AllBound(items, b) by {
      forall n | HasName(items, n) ensures n in b {
        BindingSpec(items, where, n);
      }
    }
    AtomsRender(items, b);
    ReferenceCompiles(items, b);
    FreeFacts(items, map[]);
    forall k ensures (k in Pre(items, b)) == (k in Delims(items)) {
      if DelimOf(items, k).Some? {
        OccHas(items, k);
        BindingSpec(items, where, k);
        FreeHas(items, map[], k);
      }
    }
    assert Pre(items, b) == Delims(items);
  }
}

=== FILE: scenarios.dfy ===
/**
 Worked examples: concrete rules followed through the model end to end.
 */
module Scenarios {
  import opened Wrappers
  import opened PhpStrings
  import opened OrderedMaps
  import opened PhpArrays
  import opened Patterns
  import opened Matching
  import opened RuleSyntax
  import opened Routes
  import opened Taps
  import opened Maps
  import opened Controllers
  import opened Resources

  /** The rule `a/{x?}`. */
  function OptionalRule(): seq<Item>
  {
    [T('a'), T('/'), P("x", true)]
  }

  lemma OptionalRuleCompiled(point: Point)
    ensures var r := NewRoute("a/{x?}", point, [], [], 0);
      Atoms(r.compiled.pattern) == [Lit('a'), Group("x", Word, Delimited('/'))] &&
      Compiles(Atoms(r.compiled.pattern)) && r.compiled.prefixes == map["x" := '/']
  {
    var items := OptionalRule();
    OptionalRuleText(items);
    MakePatternMeaning(items, []);
    OptionalBinding(items);
    OptionalReference(items, Binding(items, []));
    OptionalDelims(items);
  }

  lemma OptionalRuleText(items: seq<Item>)
    requires items == OptionalRule()
    ensures Wf(items) && RuleText(items) == "a/{x?}"
  {
    assert !Meta('a') && !Meta('/') && ValidName("x");
    assert items[1..] == [T('/'), P("x", true)] && items[1..][1..] == [P("x", true)];
    assert RuleText([P("x", true)]) == "{x?}";
    assert RuleText(items[1..]) == "/" + "{x?}";
    OptionalRuleString("a", "/", "{x?}");
  }

  lemma OptionalRuleString(a: string, b: string, c: string)
    requires a == "a" && b == "/" && c == "{x?}"
    ensures a + (b + c) == "a/{x?}"
  {
  }

  lemma OptionalBinding(items: seq<Item>)
    requires items == OptionalRule()
    ensures "x" in Binding(items, []) && Binding(items, [])["x"] == Word
  {
    OptionalRuleText(items);
    assert items[1..][1..] == [P("x", true)];
    assert HasName(items, "x");
    BindingSpec(items, [], "x");
  }

  lemma OptionalReference(items: seq<Item>, F: map<string, Fragment>)
    requires items == OptionalRule() && "x" in F && F["x"] == Word
    ensures Reference(items, F) == [Lit('a'), Group("x", Word, Delimited('/'))]
  {
    TextStep(items, F);
    var rest := items[1..];
    assert rest == [T('/'), P("x", true)] && rest[2..] == [];
    assert Reference(rest, F) == [Group("x", Word, Delimited('/'))] + Reference([], F);
  }

  lemma OptionalDelims(items: seq<Item>)
    requires items == OptionalRule()
    ensures Delims(items) == map["x" := '/']
  {
    assert items[1..] == [T('/'), P("x", true)] && items[1..][1..] == [P("x", true)];
    assert Free(items, map[]) == ["x"];
    assert Occ(items, "x") == Some(SlashOptional);
    assert DelimOf(items, "x") == Some('/');
  }

  /** A route's match, read off a run of its atoms. */
  lemma MatchVia(r: Route, path: string, atoms: seq<Atom>, res: Option<Captures>)
    requires Atoms(r.compiled.pattern) == atoms && Compiles(atoms)
    requires MatchFrom(atoms, path) == res
    ensures Match(r, path) == if res.Some? then Some(Values(res.value, r.compiled.prefixes)) else None
  {
  }

  /** The atoms of `a/{x?}`. */
  function OptionalAtoms(): seq<Atom>
  {
    [Lit('a'), Group("x", Word, Delimited('/'))]
  }

  lemma DelimitedGroupRuns()
    ensures var g := [Group("x", Word, Delimited('/'))];
      MatchFrom(g, "") == Some([("x", "")]) && MatchFrom(g, "/b") == Some([("x", "/b")]) &&
      MatchFrom(g, "/") == None && MatchFrom(g, "b") == None
  {
    var g := [Group("x", Word, Delimited('/'))];
    assert g[1..] == [];
    assert MatchFrom(g, "") == Some([("x", "")]) by {
      assert MatchFrom([], "") == Some([]);
      assert [("x", "")] + [] == [("x", "")];
    }
    assert MatchFrom(g, "/b") == Some([("x", "/b")]) by {
      assert MaxLen(Word, "b") == 1;
      assert "/b"[1..] == "b";
      assert "b"[1..] == "" && "b"[..1] == "b";
      assert MatchFrom([], "") == Some([]);
      assert "/" + "b" == "/b";
      assert TryLengths("x", "/", [], "b", 1) == Some([("x", "/b")] + []);
      assert "/b"[0] == '/' && g[0].form.delim == '/' && g[1..] == [];
      assert MatchFrom(g, "/b") == TryLengths("x", ['/'], [], "b", MaxLen(Word, "b"));
      assert [("x", "/b")] + [] == [("x", "/b")];
    }
    assert MatchFrom(g, "/") == None by {
      assert "/"[1..] == "";
      assert MaxLen(Word, "") == 0;
      assert MatchFrom([], "/") == None;
    }
    assert MatchFrom(g, "b") == None by {
      assert MatchFrom([], "b") == None;
    }
  }

  lemma OptionalAtomsRun()
    ensures var atoms := OptionalAtoms();
      MatchFrom(atoms, "a") == Some([("x", "")]) && MatchFrom(atoms, "a/b") == Some([("x", "/b")]) &&
      MatchFrom(atoms, "a/") == None && MatchFrom(atoms, "ab") == None
  {
    var atoms := OptionalAtoms();
    DelimitedGroupRuns();
    assert atoms[1..] == [Group("x", Word, Delimited('/'))];
    assert "a"[1..] == "" && "a/b"[1..] == "/b" && "a/"[1..] == "/" && "ab"[1..] == "b";
  }

  /** Two adjacent word groups, as `{a}{b}` compiles: on `xyz` the first
      takes as much as it can while leaving the second a character. */
  lemma AdjacentGroupsGreedy()
    ensures MatchFrom([Group("a", Word, Required), Group("b", Word, Required)], "xyz") ==
      Some([("a", "xy"), ("b", "z")])
  {
    var gb := [Group("b", Word, Required)];
    var atoms := [Group("a", Word, Required)] + gb;
    assert atoms[1..] == gb && gb[1..] == [];
    assert MaxLen(Word, "xyz") == 3 by {
      assert "xyz"[1..] == "yz" && "yz"[1..] == "z" && "z"[1..] == "";
    }
    assert MatchFrom(gb, "") == None by {
      assert MaxLen(Word, "") == 0;
    }
    assert MatchFrom(gb, "z") == Some([("b", "z")]) by {
      assert "z"[1..] == "" && "z"[..1] == "z";
      assert MaxLen(Word, "z") == 1;
      assert MatchFrom([], "") == Some([]);
      assert "" + "z" == "z";
      assert TryLengths("b", "", [], "z", 1) == Some([("b", "z")] + []);
      assert [("b", "z")] + [] == [("b", "z")];
    }
    assert "xyz"[3..] == "" && "xyz"[2..] == "z" && "xyz"[..2] == "xy";
    assert "" + "xy" == "xy";
    assert TryLengths("a", "", gb, "xyz", 3) == TryLengths("a", "", gb, "xyz", 2);
    assert TryLengths("a", "", gb, "xyz", 2) == Some([("a", "xy")] + [("b", "z")]);
    assert [("a", "xy")] + [("b", "z")] == [("a", "xy"), ("b", "z")];
  }

  /** `a/{x?}` matches `a` with an empty `x` and `a/b` with `x` = `b`, and
      rejects `a/` and `ab`. */
  lemma OptionalRuleMatches(point: Point)
    ensures var r := NewRoute("a/{x?}", point, [], [], 0);
      Match(r, "a") == Some([("x", "")]) && Match(r, "a/b") == Some([("x", "b")]) &&
      Match(r, "a/") == None && Match(r, "ab") == None
  {
    var r := NewRoute("a/{x?}", point, [], [], 0);
    OptionalRuleCompiled(point);
    OptionalCompiledMatches(r);
  }

  lemma OptionalCompiledMatches(r: Route)
    requires Atoms(r.compiled.pattern) == OptionalAtoms() && Compiles(OptionalAtoms())
    requires r.compiled.prefixes == map["x" := '/']
    ensures Match(r, "a") == Some([("x", "")]) && Match(r, "a/b") == Some([("x", "b")]) &&
      Match(r, "a/") == None && Match(r, "ab") == None
  {
    OptionalAtomsRun();
    var atoms := OptionalAtoms();
    MatchVia(r, "a", atoms, Some([("x", "")]));
    MatchVia(r, "a/b", atoms, Some([("x", "/b")]));
    MatchVia(r, "a/", atoms, None);
    MatchVia(r, "ab", atoms, None);
    OptionalValues(r.compiled.prefixes, "", "");
    OptionalValues(r.compiled.prefixes, "/b", "b");
  }

  lemma OptionalValues(pre: map<string, char>, v: string, w: string)
    requires pre == map["x" := '/'] && ((v == "" && w == "") || (v == "/b" && w == "b"))
    ensures Values([("x", v)], pre) == [("x", w)]
  {
    assert TrimLeft(v, '/') == w by {
      if v == "/b" {
        assert v[0] == '/' && v[1..] == "b" && w[0] != '/';
      }
    }
  }

  /** A resource controller for `app\\Users` with the fixed prefix `users`
      and the given group suffix. */
  function UsersGroup(suffix: string): Controller
  {
    Controller(Fixed("users"), "app\\Users", "users", [], [], [], suffix, 0, [])
  }

  /** It is the controller `init` sets up. */
  lemma UsersGroupInit(suffix: string)
    ensures UsersGroup(suffix) == Init(NewController(Fixed("users")), "app\\Users", [], [], [], suffix, 0)
  {
  }

  /** The builder `register` keeps for an action of that controller. */
  function Kept(c: Controller, name: string): Tap
    requires Restful(name).Some?
  {
    RegisterId(c, name, [], [], [], "", 0);
    var kept := Get(Register(c, name, [], [], [], "", 0).taps, name).value;
    kept[|kept| - 1]
  }

  /** What `action` keeps of a group with prefix `users` and no where
      constraints, for an action with no settings of its own. */
  lemma ActionText(c: Controller, name: string, m: Mapping)
    requires c.prefix == "users" && c.where == [] && Trim(m.rule, '/') == m.rule
    ensures var t := ActionTap(c, name, m, [], [], [], "", 0);
      t.prefixes == ["users"] && t.rule == m.rule && t.suffix == c.suffix && t.where == []
  {
    UsersTrimmed(c.prefix);
    var t := ActionTap(c, name, m, [], [], [], "", 0);
    assert t.where == PutAll(c.where, []);
    assert PutAll<string, Fragment>([], []) == [];
  }

  lemma RuleTrimmed(p: string)
    requires p == "{id}"
    ensures Trim(p, '/') == p
  {
    assert p[0] == '{' && p[|p| - 1] == '}';
    TrimBorders(p, '/');
  }

  lemma UsersTrimmed(p: string)
    requires p == "users"
    ensures Trim(p, '/') == p
  {
    assert p[0] == 'u' && p[|p| - 1] == 's';
    TrimBorders(p, '/');
  }

  /** A GET mapping gives a builder for GET only, at the action's point. */
  lemma ActionGet(c: Controller, name: string, rule: string)
    ensures var t := ActionTap(c, name, Mapping(rule, ["GET"]), [], [], [], "", 0);
      t.methods == ["GET"] && t.point == Named(c.classname + "::" + name)
  {
    RouteDefs.UpperOne("GET", "GET");
  }

  /** The builder kept last is the one `register` built. */
  lemma KeptIs(c: Controller, name: string)
    requires Restful(name).Some?
    ensures var t := ActionTap(c, name, Restful(name).value, [], [], [], "", 0);
      Kept(c, name) == if IdAction(name) then Where(t, IdWhere) else t
  {
    var t := ActionTap(c, name, Restful(name).value, [], [], [], "", 0);
    var t' := if IdAction(name) then Where(t, IdWhere) else t;
    var r := Register(c, name, [], [], [], "", 0);
    assert r == Store(c, name, t');
    var kept := GetOr(c.taps, name, []) + [t'];
    assert Get(r.taps, name) == Some(kept);
    assert kept[|kept| - 1] == t';
  }

  /** The full rule of a builder with one prefix, a rule and no suffix. */
  lemma OnePrefixRule(t: Tap, p: string)
    requires t.prefixes == [p] && t.suffix == ""
    requires !Falsy(p) && !Falsy(t.rule)
    ensures CompleteRule(t) == p + "/" + t.rule
  {
    SegmentsOne(t, p);
    TruthyThree(p, t.rule, "");
    JoinTwo(p, t.rule);
  }

  lemma SegmentsOne(t: Tap, p: string)
    requires t.prefixes == [p]
    ensures Segments(t) == [p, t.rule, t.suffix]
  {
  }

  lemma TruthyCons(x: string, rest: seq<string>)
    ensures Truthy([x] + rest) == (if Falsy(x) then [] else [x]) + Truthy(rest)
  {
    assert ([x] + rest)[0] == x;
    assert ([x] + rest)[1..] == rest;
  }

  /** Three segments, the last one possibly empty. */
  lemma TruthyThree(a: string, b: string, c: string)
    requires !Falsy(a) && !Falsy(b)
    ensures Truthy([a, b, c]) == if Falsy(c) then [a, b] else [a, b, c]
  {
    TruthyCons(c, []);
    TruthyCons(b, [c]);
    TruthyCons(a, [b, c]);
    SeqThree(a, b, c);
  }

  lemma SeqThree(a: string, b: string, c: string)
    ensures [a, b, c] == [a] + ([b] + [c]) && [b, c] == [b] + [c]
    ensures [a] + ([b] + []) == [a, b] && [c] + [] == [c]
  {
  }

  lemma JoinTwo(a: string, b: string)
    ensures Join('/', [a, b]) == a + "/" + b
  {
    assert [a, b][1..] == [b];
  }

  lemma JoinThree(a: string, b: string, c: string)
    ensures Join('/', [a, b, c]) == a + "/" + (b + "/" + c)
  {
    assert [a, b, c][1..] == [b, c];
    JoinTwo(b, c);
  }

  /** `show` under `users`: GET on `users/{id}` with `id` a positive
      integer, pointing at `app\\Users::show`. */
  lemma ShowBuilder()
    ensures var t := Kept(UsersGroup(""), "show");
      t.methods == ["GET"] && CompleteRule(t) == "users/{id}" && t.where == IdWhere &&
      t.point == Named("app\\Users::show")
  {
    var m := Mapping("{id}", ["GET"]);
    RestfulShow("show");
    KeptIs(UsersGroup(""), "show");
    ShowTap(ActionTap(UsersGroup(""), "show", m, [], [], [], "", 0));
  }

  lemma RestfulShow(name: string)
    requires name == "show"
    ensures Restful(name) == Some(Mapping("{id}", ["GET"])) && IdAction(name)
  {
  }

  lemma RestfulEdit(name: string)
    requires name == "edit"
    ensures Restful(name) == Some(Mapping("{id}/edit", ["GET"])) && IdAction(name)
  {
  }

  lemma ShowTap(t0: Tap)
    requires t0 == ActionTap(UsersGroup(""), "show", Mapping("{id}", ["GET"]), [], [], [], "", 0)
    ensures var t := Where(t0, IdWhere);
      t.methods == ["GET"] && CompleteRule(t) == "users/{id}" && t.where == IdWhere &&
      t.point == Named("app\\Users::show")
  {
    ShowText(t0);
    ConstrainId(t0);
  }

  lemma ShowText(t0: Tap)
    requires t0 == ActionTap(UsersGroup(""), "show", Mapping("{id}", ["GET"]), [], [], [], "", 0)
    ensures t0.where == [] && t0.rule == "{id}" && t0.prefixes == ["users"] && t0.suffix == ""
    ensures t0.point == Named("app\\Users::show") && t0.methods == ["GET"]
  {
    var c := UsersGroup("");
    var m := Mapping("{id}", ["GET"]);
    UsersGroupFields(c, "");
    assert m.rule == "{id}" && m.methods == ["GET"];
    ShowFields(c, m);
  }

  lemma UsersGroupFields(c: Controller, suffix: string)
    requires c == UsersGroup(suffix)
    ensures c.prefix == "users" && c.where == [] && c.suffix == suffix && c.classname == "app\\Users"
  {
  }

  lemma ShowFields(c: Controller, m: Mapping)
    requires c.prefix == "users" && c.where == [] && c.suffix == "" && c.classname == "app\\Users"
    requires m.rule == "{id}" && m.methods == ["GET"]
    ensures var t0 := ActionTap(c, "show", m, [], [], [], "", 0);
      t0.where == [] && t0.rule == "{id}" && t0.prefixes == ["users"] && t0.suffix == "" &&
      t0.point == Named("app\\Users::show") && t0.methods == ["GET"]
  {
    RuleTrimmed(m.rule);
    ActionText(c, "show", m);
    ActionGet(c, "show", "{id}");
    ShowPointText(c.classname);
  }

  lemma ShowPointText(cn: string)
    requires cn == "app\\Users"
    ensures cn + "::" + "show" == "app\\Users::show"
  {
  }

  /** The `id` constraint on a builder with `users` as its only prefix. */
  lemma ConstrainId(t0: Tap)
    requires t0.where == [] && t0.prefixes == ["users"] && t0.rule == "{id}" && t0.suffix == ""
    ensures var t := Where(t0, IdWhere);
      CompleteRule(t) == "users/{id}" && t.where == IdWhere &&
      t.methods == t0.methods && t.point == t0.point
  {
    var t := Where(t0, IdWhere);
    assert t.where == IdWhere by {
      PutAllIntoEmpty(IdWhere);
    }
    OnePrefixRule(t, "users");
  }

  /** Literal atoms consume their own text. */
  lemma {:induction false} LiteralRun(w: string, rest: seq<Atom>, s: string)
    ensures MatchFrom(Lits(w) + rest, w + s) == MatchFrom(rest, s)
    decreases |w|
  {
    if |w| > 0 {
      assert (Lits(w) + rest)[0] == Lit(w[0]);
      assert (Lits(w) + rest)[1..] == Lits(w[1..]) + rest;
      assert (w + s)[1..] == w[1..] + s;
      LiteralRun(w[1..], rest, s);
    } else {
      assert Lits(w) + rest == rest;
      assert w + s == s;
    }
  }

  /** One literal atom per character. */
  function Lits(w: string): (r: seq<Atom>)
    ensures |r| == |w|
    ensures forall i :: 0 <= i < |w| ==> r[i] == Lit(w[i])
  {
    seq(|w|, i requires 0 <= i < |w| => Lit(w[i]))
  }

  /** Plain rule text as items, one per character. */
  function TextItems(w: string): (r: seq<Item>)
    ensures |r| == |w|
  {
    if |w| == 0 then [] else [T(w[0])] + TextItems(w[1..])
  }

  lemma TextItemsTail(w: string, rest: seq<Item>)
    requires |w| > 0
    ensures (TextItems(w) + rest)[0] == T(w[0])
    ensures (TextItems(w) + rest)[1..] == TextItems(w[1..]) + rest
  {
    assert TextItems(w) + rest == [T(w[0])] + (TextItems(w[1..]) + rest);
  }

  /** The text of a concatenation of items. */
  lemma {:induction false} RuleTextAppend(a: seq<Item>, b: seq<Item>)
    ensures RuleText(a + b) == RuleText(a) + RuleText(b)
    decreases |a|
  {
    if |a| == 0 {
      assert a + b == b;
    } else {
      assert (a + b)[0] == a[0];
      assert (a + b)[1..] == a[1..] + b;
      RuleTextAppend(a[1..], b);
    }
  }

  /** Plain text items spell their own text. */
  lemma {:induction false} TextItemsText(w: string)
    ensures RuleText(TextItems(w)) == w
    decreases |w|
  {
    if |w| > 0 {
      TextItemsText(w[1..]);
      assert TextItems(w)[1..] == TextItems(w[1..]);
    }
  }

  lemma RuleTextOf(w: string, rest: seq<Item>)
    ensures RuleText(TextItems(w) + rest) == w + RuleText(rest)
  {
    RuleTextAppend(TextItems(w), rest);
    TextItemsText(w);
  }

  /** Plain text with no regex syntax keeps a rule well formed. */
  lemma {:induction false} WfOf(w: string, rest: seq<Item>)
    requires forall i :: 0 <= i < |w| ==> !Meta(w[i])
    requires Wf(rest)
    ensures Wf(TextItems(w) + rest)
    decreases |w|
  {
    if |w| == 0 {
      assert TextItems(w) + rest == rest;
    } else {
      TextItemsTail(w, rest);
      assert !Meta(w[0]);
      WfOf(w[1..], rest);
    }
  }

  /** A plain character that no delimiter rule claims stands for its own
      atom. */
  lemma TextStep(s: seq<Item>, F: map<string, Fragment>)
    requires |s| >= 1 && s[0].T? && s[0].c != '.'
    requires |s| == 1 || !s[1].P? || !s[1].optional
    ensures Reference(s, F) == [Lit(s[0].c)] + Reference(s[1..], F)
  {
  }

  /** Plain text without a dot stands for its own literal atoms, as long as
      the items after it do not start with an optional placeholder. */
  lemma {:induction false} ReferenceOf(w: string, rest: seq<Item>, F: map<string, Fragment>)
    requires forall i :: 0 <= i < |w| ==> w[i] != '.'
    requires |rest| == 0 || !rest[0].P? || !rest[0].optional
    ensures Reference(TextItems(w) + rest, F) == Lits(w) + Reference(rest, F)
    decreases |w|
  {
    if |w| == 0 {
      NoText(w, rest);
    } else {
      ReferenceStep(w, rest, F);
      ReferenceOf(w[1..], rest, F);
      LitsCons(w);
      AtomsAssoc([Lit(w[0])], Lits(w[1..]), Reference(rest, F));
    }
  }

  lemma NoText(w: string, rest: seq<Item>)
    requires |w| == 0
    ensures TextItems(w) + rest == rest
  {
  }

  lemma AtomsAssoc(x: seq<Atom>, y: seq<Atom>, z: seq<Atom>)
    ensures x + (y + z) == (x + y) + z
  {
  }

  lemma ReferenceStep(w: string, rest: seq<Item>, F: map<string, Fragment>)
    requires |w| > 0 && w[0] != '.'
    requires |rest| == 0 || !rest[0].P? || !rest[0].optional
    ensures Reference(TextItems(w) + rest, F) == [Lit(w[0])] + Reference(TextItems(w[1..]) + rest, F)
  {
    var s := TextItems(w) + rest;
    TextItemsTail(w, rest);
    if |w| >= 2 {
      TextItemsTail(w[1..], rest);
    } else {
      NoText(w[1..], rest);
    }
    TextStep(s, F);
  }

  lemma LitsCons(w: string)
    requires |w| > 0
    ensures Lits(w) == [Lit(w[0])] + Lits(w[1..])
  {
  }

  lemma {:induction false} TextItemsAt(w: string, i: int)
    requires 0 <= i < |w|
    ensures TextItems(w)[i] == T(w[i])
    decreases |w|
  {
    if i > 0 {
      TextItemsAt(w[1..], i - 1);
    }
  }

  /** Plain text names no placeholder. */
  lemma {:induction false} HasNameText(w: string, rest: seq<Item>, n: string)
    ensures HasName(TextItems(w) + rest, n) == HasName(rest, n)
    decreases |w|
  {
    if |w| == 0 {
      NoText(w, rest);
    } else {
      TextItemsTail(w, rest);
      HasNameText(w[1..], rest, n);
    }
  }

  /** Plain text adds no optional placeholder. */
  lemma NoOptionalText(w: string, rest: seq<Item>)
    requires forall i :: 0 <= i < |rest| ==> !(rest[i].P? && rest[i].optional)
    ensures forall i :: 0 <= i < |TextItems(w) + rest| ==>
      !((TextItems(w) + rest)[i].P? && (TextItems(w) + rest)[i].optional)
  {
    var s := TextItems(w) + rest;
    forall i | 0 <= i < |s| ensures !(s[i].P? && s[i].optional) {
      if i < |w| {
        TextItemsAt(w, i);
      } else {
        assert s[i] == rest[i - |w|];
      }
    }
  }

  /** The rule `users/{id}` as items. */
  function IdRule(): seq<Item>
  {
    TextItems("users/") + [P("id", false)]
  }

  lemma UsersPlain(w: string)
    requires w == "users/"
    ensures forall i :: 0 <= i < |w| ==> !Meta(w[i]) && w[i] != '.'
  {
    assert w[0] == 'u' && w[1] == 's' && w[2] == 'e' && w[3] == 'r' && w[4] == 's' && w[5] == '/';
  }

  /** The atoms of `users/{id}` with `id` a positive integer. */
  function IdAtoms(): seq<Atom>
  {
    Lits("users/") + [Group("id", PositiveInt, Required)]
  }

  lemma IdRouteCompiled(point: Point, mw: Assoc<string, seq<string>>, cd: int)
    ensures var r := NewRoute("users/{id}", point, IdWhere, mw, cd);
      Atoms(r.compiled.pattern) == IdAtoms() && Compiles(IdAtoms()) && r.compiled.prefixes == map[]
  {
    var items := IdRule();
    IdRuleText();
    IdWhereWords();
    MakePatternMeaning(items, IdWhere);
    IdBinding();
    IdReference(Binding(items, IdWhere));
    IdDelims();
  }

  /** Which constraint names PHP keeps as strings: `"1"` and `"-7"` become
      integer keys, `"01"`, `"-0"` and `"id"` stay strings. */
  lemma IntegerKeyExamples()
    ensures IsIntegerKey("1") && IsIntegerKey("-7") && !IsNameKey("1")
    ensures !IsIntegerKey("01") && !IsIntegerKey("-0") && IsNameKey("id") && IsNameKey("01")
  {
    assert DecimalValue("1") == 1 by {
      assert "1"[..0] == "";
    }
    assert DecimalValue("7") == 7 by {
      assert "7"[..0] == "";
    }
    assert "-7"[1..] == "7";
    assert IsWord("1") && IsWord("id") && IsWord("01");
  }

  /** `middlewares(['01' => 'auth'])`: the key `"01"` stays a string in
      PHP, but it is numeric, so `auth` is registered with no arguments. */
  lemma NumericStringMiddleware(t: Tap)
    requires t.middlewares == []
    ensures Middlewares(t, [(Name("01"), "auth")]).middlewares == [("auth", [])]
  {
    DigitsNumeric("01");
    assert EntryName((Name("01"), "auth")) == "auth";
    assert EntryArgs((Name("01"), "auth")) == [];
  }

  lemma IdWhereWords()
    ensures Unique(IdWhere) && forall i :: 0 <= i < |IdWhere| ==> IsNameKey(IdWhere[i].0)
  {
    assert IsWord(IdWhere[0].0) && !IsDigit(IdWhere[0].0[0]);
  }

  lemma IdBinding()
    ensures "id" in Binding(IdRule(), IdWhere) && Binding(IdRule(), IdWhere)["id"] == PositiveInt
  {
    IdRuleText();
    IdWhereWords();
    HasNameText("users/", [P("id", false)], "id");
    assert HasName([P("id", false)], "id");
    BindingSpec(IdRule(), IdWhere, "id");
  }

  lemma IdRuleText()
    ensures Wf(IdRule()) && RuleText(IdRule()) == "users/{id}"
  {
    IdRuleSpelled("users/", [P("id", false)]);
    IdRuleWf("users/", [P("id", false)]);
  }

  lemma IdRuleSpelled(w: string, tail: seq<Item>)
    requires w == "users/" && tail == [P("id", false)]
    ensures RuleText(TextItems(w) + tail) == "users/{id}"
  {
    RuleTextOf(w, tail);
    assert RuleText(tail) == "{id}";
  }

  lemma IdRuleWf(w: string, tail: seq<Item>)
    requires w == "users/" && tail == [P("id", false)]
    ensures Wf(TextItems(w) + tail)
  {
    UsersPlain(w);
    assert ValidName("id");
    assert Wf(tail);
    WfOf(w, tail);
  }

  lemma IdReference(F: map<string, Fragment>)
    requires "id" in F && F["id"] == PositiveInt
    ensures Reference(IdRule(), F) == IdAtoms()
  {
    var tail := [P("id", false)];
    UsersPlain("users/");
    ReferenceOf("users/", tail, F);
    assert Reference(tail, F) == [Group("id", PositiveInt, Required)];
  }

  lemma IdDelims()
    ensures Delims(IdRule()) == map[]
  {
    var tail := [P("id", false)];
    NoOptionalText("users/", tail);
    forall k | k in Free(IdRule(), map[]) ensures DelimOf(IdRule(), k).None? {
      NoOptionalNoDelim(IdRule(), k);
    }
  }

  lemma IdGroupRuns()
    ensures var g := [Group("id", PositiveInt, Required)];
      MatchFrom(g, "42") == Some([("id", "42")]) && MatchFrom(g, "0") == None &&
      MatchFrom(g, "abc") == None && MatchFrom(g, "") == None
  {
    var g := [Group("id", PositiveInt, Required)];
    assert g[1..] == [];
    assert MaxLen(PositiveInt, "42") == 2 by {
      assert "42"[1..] == "2";
      assert DigitLen("2") == 1 by { assert "2"[1..] == ""; }
    }
    assert "42"[2..] == "" && "42"[..2] == "42";
    assert MatchFrom([], "") == Some([]);
    assert [("id", "42")] + [] == [("id", "42")];
    assert "" + "42"[..2] == "42";
    assert TryLengths("id", "", [], "42", 2) == Some([("id", "42")]);
    assert MatchFrom(g, "42") == TryLengths("id", "", [], "42", 2);
    assert MaxLen(PositiveInt, "0") == 0;
    assert MaxLen(PositiveInt, "abc") == 0;
    assert MaxLen(PositiveInt, "") == 0;
  }

  lemma IdAtomsRun()
    ensures MatchFrom(IdAtoms(), "users/42") == Some([("id", "42")])
    ensures MatchFrom(IdAtoms(), "users/0") == None
    ensures MatchFrom(IdAtoms(), "users/abc") == None
    ensures MatchFrom(IdAtoms(), "users/") == None
  {
    var g := [Group("id", PositiveInt, Required)];
    IdGroupRuns();
    LiteralRun("users/", g, "42");
    LiteralRun("users/", g, "0");
    LiteralRun("users/", g, "abc");
    LiteralRun("users/", g, "");
    assert "users/" + "42" == "users/42" && "users/" + "0" == "users/0";
    assert "users/" + "abc" == "users/abc" && "users/" + "" == "users/";
  }

  /** A rule without optional placeholders records no prefix. */
  lemma {:induction false} NoOptionalNoDelim(items: seq<Item>, n: string)
    requires forall i :: 0 <= i < |items| ==> !(items[i].P? && items[i].optional)
    ensures Occ(items, n).None? || Occ(items, n) == Some(BareRequired)
    ensures DelimOf(items, n).None?
    decreases |items|
  {
    if |items| > 0 {
      assert !(items[0].P? && items[0].optional);
      if |items| >= 2 {
        assert !(items[1].P? && items[1].optional);
      }
      if items[0] != P(n, false) {
        NoOptionalNoDelim(items[1..], n);
      }
    }
  }

  /** The route of `show` takes positive integer ids only. */
  lemma ShowMatches()
    ensures var r := ToRoute(Kept(UsersGroup(""), "show"));
      Match(r, "users/42") == Some([("id", "42")]) && Match(r, "users/0") == None &&
      Match(r, "users/abc") == None && Match(r, "users/") == None
  {
    RestfulShow("show");
    var t := Kept(UsersGroup(""), "show");
    ShowBuilder();
    IdTapMatches(t);
  }

  lemma IdTapMatches(t: Tap)
    requires CompleteRule(t) == "users/{id}" && t.where == IdWhere
    ensures var r := ToRoute(t);
      Match(r, "users/42") == Some([("id", "42")]) && Match(r, "users/0") == None &&
      Match(r, "users/abc") == None && Match(r, "users/") == None
  {
    IdRouteCompiled(t.point, t.middlewares, t.cacheDuration);
    assert ToRoute(t) == NewRoute("users/{id}", t.point, IdWhere, t.middlewares, t.cacheDuration);
    IdCompiledMatches(ToRoute(t));
  }

  /** Any route compiled to the atoms of `users/{id}`. */
  lemma IdCompiledMatches(r: Route)
    requires Atoms(r.compiled.pattern) == IdAtoms() && Compiles(IdAtoms()) && r.compiled.prefixes == map[]
    ensures Match(r, "users/42") == Some([("id", "42")]) && Match(r, "users/0") == None
    ensures Match(r, "users/abc") == None && Match(r, "users/") == None
  {
    IdAtomsRun();
    MatchVia(r, "users/42", IdAtoms(), Some([("id", "42")]));
    MatchVia(r, "users/0", IdAtoms(), None);
    MatchVia(r, "users/abc", IdAtoms(), None);
    MatchVia(r, "users/", IdAtoms(), None);
    assert Values([("id", "42")], map[]) == [("id", "42")];
  }

  /** Installed on its own, `show` answers a GET for `/users/42/` on any
      domain with its point and the id. */
  lemma ShowSearch(domain: string)
    ensures var t := Kept(UsersGroup(""), "show");
      Search(Install(Clear(), t), "/users/42/", "GET", domain) ==
        Some(Found(Named("app\\Users::show"), [("id", "42")]))
  {
    RestfulShow("show");
    var t := Kept(UsersGroup(""), "show");
    ShowBuilder();
    IdTapSearch(t, domain);
  }

  lemma IdTapSearch(t: Tap, domain: string)
    requires t.methods != []
    requires CompleteRule(t) == "users/{id}" && t.where == IdWhere
    ensures Search(Install(Clear(), t), "/users/42/", "GET", domain) == Some(Found(t.point, [("id", "42")]))
  {
    IdTapMatches(t);
    SlashTrim();
    InstallIntoClear(t);
    SingleSearch(Install(Clear(), t), CompleteRule(t), ToRoute(t), "/users/42/", "GET", domain);
  }

  /** A builder with methods installed into an empty registry. */
  lemma InstallIntoClear(t: Tap)
    requires t.methods != []
    ensures Install(Clear(), t) == [("*", [("*", [(CompleteRule(t), ToRoute(t))])])]
  {
  }

  /** A registry holding one route under `*`/`*`: any method and domain,
      the defaults `*` included, fall through to it. */
  lemma SingleSearch(tbl: Table, k: string, r: Route, path: string, verb: string, domain: string)
    requires tbl == [("*", [("*", [(k, r)])])]
    requires Match(r, Trim(path, '/')).Some?
    ensures Search(tbl, path, verb, domain) == Some(Found(r.point, Match(r, Trim(path, '/')).value))
  {
    var p := Trim(path, '/');
    SearchOrder(tbl, path, verb, domain);
    assert Gain(tbl, p, verb, domain) == None || (verb == "*" && domain == "*");
    assert Gain(tbl, p, "*", domain) == None || domain == "*";
    assert Gain(tbl, p, verb, "*") == None || verb == "*";
    assert Slot(tbl, "*", "*") == [(k, r)];
    assert FirstMatch([(k, r)], p) == Some(Found(r.point, Match(r, p).value));
  }

  lemma SlashTrim()
    ensures Trim("/users/42/", '/') == "users/42"
  {
    SlashTrimOf("/users/42/", "users/42/", "users/42");
  }

  lemma SlashTrimOf(p: string, q: string, r: string)
    requires p == "/users/42/" && q == "users/42/" && r == "users/42"
    ensures Trim(p, '/') == r
  {
    assert p[0] == '/' && p[1] == 'u' && p[1..] == q;
    TrimLeftOne(p, '/');
    assert q[|q| - 1] == '/' && q[|q| - 2] == '2' && q[..|q| - 1] == r;
    TrimRightOne(q, '/');
  }

  /** One `c` at the front is trimmed. */
  lemma TrimLeftOne(s: string, c: char)
    requires |s| >= 2 && s[0] == c && s[1] != c
    ensures TrimLeft(s, c) == s[1..]
  {
  }

  /** One `c` at the back is trimmed. */
  lemma TrimRightOne(s: string, c: char)
    requires |s| >= 2 && s[|s| - 1] == c && s[|s| - 2] != c
    ensures TrimRight(s, c) == s[..|s| - 1]
  {
  }

  /** With the group suffix `.json`, `edit` has the full rule
      `users/{id}/edit/.json`: the suffix is a segment of its own. */
  lemma EditBuilder()
    ensures CompleteRule(Kept(UsersGroup(".json"), "edit")) == "users/{id}/edit/.json"
  {
    var m := Mapping("{id}/edit", ["GET"]);
    RestfulEdit("edit");
    KeptIs(UsersGroup(".json"), "edit");
    EditTap(ActionTap(UsersGroup(".json"), "edit", m, [], [], [], "", 0));
  }

  lemma EditTap(t0: Tap)
    requires t0 == ActionTap(UsersGroup(".json"), "edit", Mapping("{id}/edit", ["GET"]), [], [], [], "", 0)
    ensures CompleteRule(Where(t0, IdWhere)) == "users/{id}/edit/.json"
  {
    EditText(t0);
    EditRule(Where(t0, IdWhere));
  }

  lemma EditText(t0: Tap)
    requires t0 == ActionTap(UsersGroup(".json"), "edit", Mapping("{id}/edit", ["GET"]), [], [], [], "", 0)
    ensures t0.prefixes == ["users"] && t0.rule == "{id}/edit" && t0.suffix == ".json"
  {
    var m := Mapping("{id}/edit", ["GET"]);
    EditTrimmed(m);
    ActionText(UsersGroup(".json"), "edit", m);
  }

  lemma EditTrimmed(m: Mapping)
    requires m.rule == "{id}/edit"
    ensures Trim(m.rule, '/') == m.rule
  {
    var r := m.rule;
    assert r[0] == '{' && r[|r| - 1] == 't';
    TrimBorders(r, '/');
  }

  lemma EditRule(t: Tap)
    requires t.prefixes == ["users"] && t.rule == "{id}/edit" && t.suffix == ".json"
    ensures CompleteRule(t) == "users/{id}/edit/.json"
  {
    SuffixRule(t, "users", "{id}/edit", ".json");
    EditRuleText("users", "{id}/edit", ".json");
  }

  lemma EditRuleText(p: string, rule: string, suffix: string)
    requires p == "users" && rule == "{id}/edit" && suffix == ".json"
    ensures p + "/" + (rule + "/" + suffix) == "users/{id}/edit/.json"
  {
  }

  /** The full rule of a builder with one prefix, a rule and a suffix. */
  lemma SuffixRule(t: Tap, p: string, rule: string, suffix: string)
    requires t.prefixes == [p] && t.rule == rule && t.suffix == suffix
    requires !Falsy(p) && !Falsy(rule) && !Falsy(suffix)
    ensures CompleteRule(t) == p + "/" + (rule + "/" + suffix)
  {
    SegmentsOne(t, p);
    TruthyThree(p, rule, suffix);
    JoinThree(p, rule, suffix);
  }
}

=== FILE: taps.dfy ===
/**
 `Tap`: the builder a route definition returns. Every setter is a record
 update; `install` turns the finished builder into a route and hands it to
 `addBatch`.
 */
module Taps {
  import opened Wrappers
  import opened PhpStrings
  import opened OrderedMaps
  import opened PhpArrays
  import opened Patterns
  import opened Routes

  datatype Tap = Tap(
    methods: seq<string>,
    rule: string,
    point: Point,
    where: Assoc<string, Fragment>,
    prefixes: seq<string>,
    suffix: string,
    domains: seq<string>,
    middlewares: Assoc<string, seq<string>>,
    cacheDuration: int)

  /** `new Tap($methods, $rule, $point)`: the rule loses its border slashes;
      every other field starts empty. */
  function NewTap(methods: seq<string>, rule: string, point: Point): (t: Tap)
    ensures t.methods == methods && t.point == point
    ensures |t.rule| == 0 || (t.rule[0] != '/' && t.rule[|t.rule| - 1] != '/')
    ensures exists a :: 0 <= a <= |rule| - |t.rule| && rule == Rep('/', a) + t.rule + Rep('/', |rule| - |t.rule| - a)
    ensures t.where == [] && t.prefixes == [] && t.suffix == "" && t.domains == []
    ensures t.middlewares == [] && t.cacheDuration == 0
  {
    Tap(methods, Trim(rule, '/'), point, [], [], "", [], [], 0)
  }

  /** Building again from a stored rule gives the same builder. */
  lemma NewTapStable(methods: seq<string>, rule: string, point: Point)
    ensures var t := NewTap(methods, rule, point); NewTap(methods, t.rule, point) == t
  {
    TrimIdempotent(rule, '/');
  }

  /** `where`: each given name is written in turn, so a name already present
      keeps its place and takes the new fragment; nothing else changes. */
  function Where(t: Tap, w: Assoc<string, Fragment>): (r: Tap)
    ensures Unique(w) ==> forall k :: Get(r.where, k) == if HasKey(w, k) then Get(w, k) else Get(t.where, k)
    ensures forall k :: HasKey(r.where, k) <==> HasKey(t.where, k) || HasKey(w, k)
    ensures Keys(t.where) <= Keys(r.where)
    ensures r.(where := t.where) == t
  {
    t.(where := PutAll(t.where, w))
  }

  /** `prefix`: the slash-trimmed prefix goes after the earlier ones. */
  function Prefix(t: Tap, p: string): (r: Tap)
    ensures |r.prefixes| == |t.prefixes| + 1 && r.prefixes[..|t.prefixes|] == t.prefixes
    ensures r.prefixes[|t.prefixes|] == Trim(p, '/')
    ensures r.(prefixes := t.prefixes) == t
  {
    t.(prefixes := t.prefixes + [Trim(p, '/')])
  }

  /** `suffix`: overwrites the suffix. */
  function Suffix(t: Tap, s: string): (r: Tap)
    ensures r.suffix == s && r.(suffix := t.suffix) == t
  {
    t.(suffix := s)
  }

  /** `domains`: appends, keeping duplicates. */
  function Domains(t: Tap, ds: seq<string>): (r: Tap)
    ensures |r.domains| == |t.domains| + |ds|
    ensures r.domains[..|t.domains|] == t.domains && r.domains[|t.domains|..] == ds
    ensures r.(domains := t.domains) == t
  {
    t.(domains := t.domains + ds)
  }

  /** `cache`: overwrites the duration. */
  function Cache(t: Tap, d: int): (r: Tap)
    ensures r.cacheDuration == d && r.(cacheDuration := t.cacheDuration) == t
  {
    t.(cacheDuration := d)
  }

  /** `is_numeric($key)` on a configuration key: every integer key, and a
      string key that reads as a number (`"01"`, `"1.5"`, `" 1"`). */
  predicate NumericKey(k: Key) {
    k.Index? || IsNumeric(k.s)
  }

  /** The middleware name of one configuration entry: the value of an entry
      with a numeric key, the key of any other. */
  function EntryName(e: (Key, string)): string
  {
    if NumericKey(e.0) then e.1 else e.0.s
  }

  /** The middleware names of a configuration, entry by entry. */
  function EntryNames(ms: Assoc<Key, string>): (ns: seq<string>)
    ensures |ns| == |ms|
    decreases |ms|
  {
    if |ms| == 0 then [] else EntryNames(ms[..|ms| - 1]) + [EntryName(ms[|ms| - 1])]
  }

  /** The arguments of one configuration entry: none for an entry with a
      numeric key, the comma-separated pieces of the value for any other. */
  function EntryArgs(e: (Key, string)): (args: seq<string>)
    ensures NumericKey(e.0) ==> args == []
    ensures !NumericKey(e.0) ==> |args| >= 1 && Join(',', args) == e.1
    ensures forall i :: 0 <= i < |args| ==> ',' !in args[i]
  {
    if NumericKey(e.0) then [] else Explode(',', e.1)
  }

  /** An entry whose key is not numeric and whose value is a comma list
      gives back exactly that list. */
  lemma EntryArgsList(k: string, args: seq<string>)
    requires !IsNumeric(k)
    requires |args| >= 1
    requires forall i :: 0 <= i < |args| ==> ',' !in args[i]
    ensures EntryArgs((Name(k), Join(',', args))) == args
  {
    ExplodeJoin(',', args);
  }

  /** Some entry of the configuration names `n`. */
  predicate Mentions(ms: Assoc<Key, string>, n: string)
  {
    exists i :: 0 <= i < |ms| && EntryName(ms[i]) == n
  }

  /** No later entry names the same middleware as entry `i`. */
  predicate LastFor(ms: Assoc<Key, string>, i: int)
    requires 0 <= i < |ms|
  {
    forall j :: i < j < |ms| ==> EntryName(ms[j]) != EntryName(ms[i])
  }

  /** The loop of `middlewares`: every entry is written in turn, so the last
      entry for a name decides its arguments and names no entry mentions are
      left alone. */
  function PutEntries(acc: Assoc<string, seq<string>>, ms: Assoc<Key, string>): (r: Assoc<string, seq<string>>)
    ensures forall n :: !Mentions(ms, n) ==> Get(r, n) == Get(acc, n)
    ensures forall i :: 0 <= i < |ms| && LastFor(ms, i) ==> Get(r, EntryName(ms[i])) == Some(EntryArgs(ms[i]))
    ensures Unique(acc) ==> Unique(r)
    decreases |ms|
  {
    if |ms| == 0 then acc
    else
      var init := ms[..|ms| - 1];
      var last := ms[|ms| - 1];
      var r0 := PutEntries(acc, init);
      var r := Put(r0, EntryName(last), EntryArgs(last));
      assert forall n :: !Mentions(ms, n) ==> Get(r, n) == Get(acc, n) by {
        forall n | !Mentions(ms, n) ensures Get(r, n) == Get(acc, n) {
          assert !Mentions(init, n) by {
            forall i | 0 <= i < |init| ensures EntryName(init[i]) != n {
              assert init[i] == ms[i];
            }
          }
          assert EntryName(ms[|ms| - 1]) != n;
        }
      }
      assert forall i :: 0 <= i < |ms| && LastFor(ms, i) ==> Get(r, EntryName(ms[i])) == Some(EntryArgs(ms[i])) by {
        forall i | 0 <= i < |ms| && LastFor(ms, i) ensures Get(r, EntryName(ms[i])) == Some(EntryArgs(ms[i])) {
          if i < |ms| - 1 {
            assert ms[i] == init[i];
            assert EntryName(ms[|ms| - 1]) != EntryName(ms[i]);
            assert LastFor(init, i) by {
              forall j | i < j < |init| ensures EntryName(init[j]) != EntryName(init[i]) {
                assert init[j] == ms[j];
              }
            }
          }
        }
      }
      r
  }

  /** `middlewares`. */
  function Middlewares(t: Tap, ms: Assoc<Key, string>): (r: Tap)
    ensures forall n :: !Mentions(ms, n) ==> Get(r.middlewares, n) == Get(t.middlewares, n)
    ensures forall i :: 0 <= i < |ms| && LastFor(ms, i) ==> Get(r.middlewares, EntryName(ms[i])) == Some(EntryArgs(ms[i]))
    ensures r.(middlewares := t.middlewares) == t
  {
    t.(middlewares := PutEntries(t.middlewares, ms))
  }

  /** The key order `middlewares` leaves: the names already there keep their
      places, and new names follow in the order the configuration first
      mentions them. */
  lemma {:induction false} PutEntriesKeys(acc: Assoc<string, seq<string>>, ms: Assoc<Key, string>)
    ensures Keys(PutEntries(acc, ms)) == Keys(acc) + NewKeys(Keys(acc), EntryNames(ms))
    decreases |ms|
  {
    if |ms| == 0 {
      assert Keys(acc) + [] == Keys(acc);
    } else {
      var init, last := ms[..|ms| - 1], ms[|ms| - 1];
      PutEntriesKeys(acc, init);
      PutFirstMention(PutEntries(acc, init), Keys(acc), EntryNames(init), EntryName(last), EntryArgs(last));
    }
  }

  /** `middlewares` keeps the builder's middleware names in place and
      appends new ones in first-mention order. */
  lemma MiddlewaresKeys(t: Tap, ms: Assoc<Key, string>)
    ensures Keys(Middlewares(t, ms).middlewares) == Keys(t.middlewares) + NewKeys(Keys(t.middlewares), EntryNames(ms))
  {
    PutEntriesKeys(t.middlewares, ms);
  }

  /** The segments `completeRule` joins: prefixes, rule, suffix. */
  function Segments(t: Tap): seq<string>
  {
    t.prefixes + [t.rule, t.suffix]
  }

  /** `completeRule`: the truthy segments joined by `/`. */
  function CompleteRule(t: Tap): string
  {
    Join('/', Truthy(Segments(t)))
  }

  /** Splitting the full rule at `/` gives back the truthy segments, when
      there is at least one and none holds a slash itself. */
  lemma CompleteRuleSegments(t: Tap)
    requires |Truthy(Segments(t))| >= 1
    requires forall i :: 0 <= i < |Segments(t)| ==> '/' !in Segments(t)[i]
    ensures Explode('/', CompleteRule(t)) == Truthy(Segments(t))
  {
    var parts := Truthy(Segments(t));
    TruthyMembers(Segments(t));
    forall i | 0 <= i < |parts| ensures '/' !in parts[i] {
      assert parts[i] in Segments(t);
    }
    ExplodeJoin('/', parts);
  }

  /** A prefix that trims to `""` or `"0"` leaves the full rule unchanged. */
  lemma PrefixFalsy(t: Tap, p: string)
    requires Falsy(Trim(p, '/'))
    ensures CompleteRule(Prefix(t, p)) == CompleteRule(t)
  {
    assert Segments(Prefix(t, p)) == t.prefixes + [Trim(p, '/')] + [t.rule, t.suffix];
    TruthyDrop(t.prefixes, Trim(p, '/'), [t.rule, t.suffix]);
  }

  lemma TruthyDrop(a: seq<string>, q: string, b: seq<string>)
    requires Falsy(q)
    ensures Truthy(a + [q] + b) == Truthy(a + b)
  {
    assert Truthy([q]) == [] by {
      assert [q][1..] == [];
    }
    TruthyAppend(a, [q]);
    assert Truthy(a + [q]) == Truthy(a);
    TruthyAppend(a + [q], b);
    TruthyAppend(a, b);
  }

  /** On a builder without prefixes, a truthy prefix becomes the first
      segment of the full rule. */
  lemma PrefixFirst(t: Tap, p: string)
    requires t.prefixes == []
    requires !Falsy(Trim(p, '/'))
    ensures CompleteRule(Prefix(t, p)) ==
      if CompleteRule(t) == "" then Trim(p, '/') else Trim(p, '/') + "/" + CompleteRule(t)
  {
    var q := Trim(p, '/');
    var rest := Truthy([t.rule, t.suffix]);
    assert Segments(t) == [t.rule, t.suffix];
    assert Segments(Prefix(t, p)) == [q, t.rule, t.suffix];
    assert Truthy([q, t.rule, t.suffix]) == [q] + rest by {
      assert [q, t.rule, t.suffix][1..] == [t.rule, t.suffix];
    }
    assert Join('/', rest) == "" <==> rest == [] by {
      if rest != [] {
        TruthyMembers([t.rule, t.suffix]);
        assert rest[0] in rest;
        assert |rest| == 1 || |rest| == 2;
        if |rest| == 1 {
          assert Join('/', rest) == rest[0];
        }
      }
    }
  }

  /** As written, the suffix is a segment of its own: a truthy suffix is
      joined to the rest of the full rule with a `/`. */
  lemma SuffixSegment(t: Tap, s: string)
    requires !Falsy(s)
    ensures CompleteRule(Suffix(t, s)) ==
      var base := CompleteRule(Suffix(t, ""));
      if base == "" then s else base + "/" + s
  {
    var front := Truthy(t.prefixes + [t.rule]);
    assert Segments(Suffix(t, s)) == (t.prefixes + [t.rule]) + [s];
    assert Segments(Suffix(t, "")) == (t.prefixes + [t.rule]) + [""];
    TruthyAppend(t.prefixes + [t.rule], [s]);
    TruthyAppend(t.prefixes + [t.rule], [""]);
    assert Truthy([""]) == [];
    assert Truthy([s]) == [s];
    assert front + [] == front;
    JoinSnoc('/', front, s);
    if |front| > 0 {
      assert Join('/', front) != "" by {
        TruthyMembers(t.prefixes + [t.rule]);
        assert front[0] in front;
        if |front| == 1 {
          assert Join('/', front) == front[0];
        }
      }
    }
  }

  /** The route a builder describes. */
  function ToRoute(t: Tap): (r: Route)
    ensures r.rule == CompleteRule(t) && r.point == t.point
    ensures r.middleware == t.middlewares && r.cacheDuration == t.cacheDuration
    ensures r.compiled == MakePattern(CompleteRule(t), t.where)
  {
    NewRoute(CompleteRule(t), t.point, t.where, t.middlewares, t.cacheDuration)
  }

  /** An empty list stands for "not given". */
  function Given(xs: seq<string>): (r: Option<seq<string>>)
    ensures r.Some? <==> xs != []
  {
    if xs == [] then None else Some(xs)
  }

  /** `install`: a builder with methods lands under `*`/`*` with its full
      rule as key; one without methods installs nothing. */
  function Install(tbl: Table, t: Tap): (u: Table)
    ensures t.methods != [] ==> u == Add(tbl, ToRoute(t), "*", "*")
    ensures t.methods != [] ==> Lookup(u, "*", "*", CompleteRule(t)) == Some(ToRoute(t))
    ensures t.methods != [] ==> forall d, m, k :: (d, m, k) != ("*", "*", CompleteRule(t)) ==> Lookup(u, d, m, k) == Lookup(tbl, d, m, k)
    ensures t.methods == [] ==> u == tbl
  {
    AddBatchEffect(tbl, ToRoute(t), Given(t.methods), Given(t.domains));
    AddBatch(tbl, ToRoute(t), Given(t.methods), Given(t.domains))
  }
}
